=== FILE: README.md ===
# Pure & Desi shop backend: the rules behind the routes

This project is a Dafny model of the deterministic core of the Pure & Desi shop backend. The backend is a FastAPI and SQLAlchemy service that sells cold-pressed oils. It models the following parts:

- the four phone-number rules;
- the three one-time-password stores: the SMS service's in-memory map with an attempt limit, the WhatsApp service's in-memory map with expiry only, and the `otps` table of the login routes;
- the order lifecycle: creation, cancellation, the admin status override, the one-shot shipment, courier status updates with their tracking history, and payment verification and cash on delivery;
- the Shiprocket adapter's courier choice, ETA wording, development tariff and pincode table;
- the pincode and estimate routes;
- the free-shipping configuration;
- order-id and waybill formatting;
- catalogue filtering;
- the contact and newsletter lists.

Each source file is one module:

| module | file |
|---|---|
| `ShiprocketService` | `shiprocket_service.dfy` |
| `Orders` | `orders.dfy` |
| `DeliveryRoutes` | `delivery.dfy` |
| `AdminOrders` | `admin_orders.dfy` |
| `Admin` | `admin.dfy` |
| `Auth` | `auth.dfy` |
| `SmsService` | `sms_service.dfy` |
| `WhatsAppService` | `whatsapp_service.dfy` |
| `Products` | `products.dfy` |
| `Contact` | `contact.dfy` |
| `ShippingConfig` | `shipping_config.dfy` |
| `OrderIds` | `order_ids.dfy` |
| `Payments` | `payments.dfy` |

Shared modules:

- `Text`: digit strings, ASCII lower-casing, substrings and number parsing.
- `Seqs`: order-preserving filters, first index, reverse.
- `Outcomes`: `Option`, `Result` and `HttpError`.
- `Phones`: the "add 91 unless it is already there" rule. `auth.py`, `admin.py`, `admin_orders.py` and `whatsapp_service.py` all use it.
- `Store`: the database rows and the `Db` class.

How the model is built:

- **Database tables.** Each table (orders, order items, deliveries, customers, OTP records) is a sequence in insertion order. A row's primary key is its position. A query's `.first()` is the first matching row. `order_by(created_at.desc())` is reverse insertion order.
- **Route handlers.** A handler that changes rows is a `method` on `Store.Db`, which holds the tables as `seq` fields. Its `ensures` ties the new tables and the reply to a step function of the old tables, for example `UpdateStatusStep`. The lemmas about the step functions state what the route promises.
- **In-place services.** The services that keep an `otp_storage` dictionary are classes with a `map` field (`SmsService.Sms`, `WhatsAppService.WhatsApp`). The contact lists are a class with two `seq` fields (`Contact.ContactBook`).
- **Pure code.** Pure code is written as functions.
- **Inputs.** The following become parameters:
  - the clock;
  - the random draws;
  - the debug flag;
  - every reply of an outside service: the Shiprocket HTTP answer, the Razorpay signature check and payment fetch, the shipment service's result, and the SMS and WhatsApp send outcomes;
  - whether a commit succeeded.

Where the prose description of the system and the code differ, the model follows the code:

- The admin status override has no transition guard.
- The keyword classification of courier statuses takes the first keyword in a fixed order. "Undelivered" therefore counts as delivered.
- A new order is stored CONFIRMED, not PENDING.
- Free shipping starts at 999 in `orders.py` but at 999000000 in `ShippingConfig`.
- Pincode prefix 212 is Jhansi in the delivery route's fallback table but Fatehpur in the adapter's table.
- In the estimate route, the invalid-pincode 400 is caught by the generic handler and reaches the client as a 500.

## Model

| member | source | states |
|---|---|---|
| Phones.FormatPhone | app/api/routes/auth.py:40-45 | The result is digits only. It is "91" followed by the digits exactly when there are 10 digits not starting with "91"; otherwise it is the digits unchanged. |
| Phones.FormatPhoneIdempotent | app/api/routes/admin.py:17-22 | Formatting a formatted phone changes nothing. |
| Phones.FormatPhoneLength | app/api/routes/auth.py:40-45 | The result has 12 characters exactly when the digits number 12, or number 10 without a leading "91". |
| Phones.TenDigitsStartingWith91Stay | app/api/routes/auth.py:43-44 | A 10-digit number beginning "91" stays at 10 digits and gains no country code. |
| Phones.FormatPhoneBareNumber | app/services/whatsapp_service.py:26-35 | "8887948909" becomes "918887948909". |
| Phones.FormatPhoneInternational | app/services/whatsapp_service.py:26-35 | "+918887948909" loses only the "+". |
| Phones.FormatPhoneTenWith91 | app/api/routes/admin_orders.py:29-31 | "9123456789" is left at 10 digits. |
| ShiprocketService.FormatPhoneNumber | app/services/shiprocket_service.py:29-58 | The result is digits only. "91" is dropped from a 12-digit number, then "0" from an 11-digit one. Anything else comes back as its digit string, whatever its length. |
| ShiprocketService.FormatPhoneNumberLength | app/services/shiprocket_service.py:44-55 | The result has 10 digits exactly when the digits were 10 long, 12 long and led by "91", or 11 long and led by "0". |
| ShiprocketService.FormatPhoneNumberIdempotent | app/services/shiprocket_service.py:29-58 | Applying the rule twice is applying it once. |
| ShiprocketService.FormatPhoneNumberSigned | app/services/shiprocket_service.py:35 | "+918887948909" gives "8887948909". |
| ShiprocketService.FormatPhoneNumberCountryCode | app/services/shiprocket_service.py:36 | "918887948909" gives "8887948909". |
| ShiprocketService.FormatPhoneNumberTrunkZero | app/services/shiprocket_service.py:37 | "08887948909" gives "8887948909". |
| ShiprocketService.FormatPhoneNumberPlain | app/services/shiprocket_service.py:38 | "8887948909" is returned unchanged. |
| ShiprocketService.ParseDecimalOfNat | app/services/shiprocket_service.py:163-164 | `float(str(n))` is `n` for every natural number. |
| ShiprocketService.ParseDecimalOfParts | app/services/shiprocket_service.py:163-164 | A string of digits, a '.', and digits parses to the number it spells. |
| ShiprocketService.DecimalValueOf | app/services/shiprocket_service.py:163-164 | The number spelt "a.b", with `b` written in `w` digits, is a + b/10^w. |
| ShiprocketService.ZeroRateFallsThrough | app/services/shiprocket_service.py:163 | A zero, empty or missing `rate` is skipped, and the next of freight_charge or total_charge is used. |
| ShiprocketService.UnpricedCourierIsLast | app/services/shiprocket_service.py:163-167 | A courier with no usable number is rated 999999. |
| ShiprocketService.FirstAmazonSurface | app/services/shiprocket_service.py:153-158 | The scan stops at the first courier whose lower-cased name contains "amazon shipping surface". No earlier courier has that name. |
| ShiprocketService.Cheapest | app/services/shiprocket_service.py:169 | `min(key=get_rate)` picks a courier of least rate, the earliest one on a tie. |
| ShiprocketService.SelectionIsUnique | app/services/shiprocket_service.py:148-170 | Two couriers that both meet the "first Amazon Surface, else earliest cheapest" promise are the same one. |
| ShiprocketService.SelectedCourier | app/services/shiprocket_service.py:148-170 | The chosen courier meets that promise. |
| ShiprocketService.SelectCourier | app/services/shiprocket_service.py:352-371 | The for/break scan followed by the running minimum returns the courier that meets the promise. |
| ShiprocketService.BaseChargeMonotone | app/services/shiprocket_service.py:423-436 | A heavier parcel never costs less under the weight tiers. |
| ShiprocketService.MetroIsCheaper | app/services/shiprocket_service.py:423-436 | At every weight a metro destination is strictly cheaper than any other, and it is never below 35. |
| ShiprocketService.MockShippingCharges | app/services/shiprocket_service.py:415-458 | The shipping charge is the tier charge for metro or non-metro. The COD charge is 40 exactly when cod_amount > 0. The total is their sum. The ETA is "3-5 days" for metro, otherwise "5-7 days". |
| ShiprocketService.LocationOf | app/services/shiprocket_service.py:220-286 | A listed prefix gives its city and state; any other gives Unknown/Unknown. |
| ShiprocketService.MockServiceability | app/services/shiprocket_service.py:218-305 | The development answer is always serviceable. City and state come from the 3-character prefix. A metro pincode gets charge 50 and "3-5 days", any other 70 and "5-7 days". |
| ShiprocketService.MockServiceabilityNoida | app/services/shiprocket_service.py:222-283 | Example: the later "201" entry wins, so 201301 is Noida. |
| ShiprocketService.ShippingChargeOf | app/services/shiprocket_service.py:182 | The shipping charge is the rate when it is truthy, else the freight charge when that is truthy, else 50. |
| ShiprocketService.CodChargesOf | app/services/shiprocket_service.py:183 | An absent COD charge is 0, a number is itself, and a null one raises. |
| ShiprocketService.CheckPincodeServiceability | app/services/shiprocket_service.py:110-216 | In debug mode the answer is the development answer. A live answer is serviceable exactly when the status is 200, the courier list is non-empty, and the selected courier's shipping and COD charges convert to numbers. A serviceable answer takes from the selected courier: the city, state and name ("" when absent), the shipping charge, the COD charge, COD availability (`cod` is 1, default 1) and the ETA (default "3-5 days"). It also counts the list. A non-serviceable live answer reports "no courier" exactly when the reply was a non-200 status or an empty list. |
| ShiprocketService.EtaTextSaysDays | app/services/shiprocket_service.py:380-385 | Whatever the courier sent, the ETA wording mentions "days". |
| ShiprocketService.EtaTextIdempotent | app/services/shiprocket_service.py:380-385 | Rewording an already worded ETA changes nothing. |
| ShiprocketService.QuoteShippingOf | app/services/shiprocket_service.py:376 | The quote's shipping charge is the first truthy of rate, freight charge and total charge, else 50. |
| ShiprocketService.QuoteCodOf | app/services/shiprocket_service.py:377 | With a COD amount, the quote's COD charge is the first truthy of `cod_charges` and `cod_charge`, else 0. Without a COD amount it is 0. |
| ShiprocketService.CalculateShippingCharges | app/services/shiprocket_service.py:307-413 | The total is shipping + COD, and COD is 0 when cod_amount ≤ 0. The ETA always mentions "days". Debug mode, a raised request, a non-200 status or an empty courier list give the development quote. For a 200 reply with couriers, the development quote is used exactly when the selected courier's shipping or COD charge does not convert. A live quote's shipping and COD charges are those of the selected courier. Its ETA is the courier's `etd` (default "3-5"), worded with " days". Its courier name defaults to "Shiprocket". |
| ShippingConfig.GetShippingCharge | app/config/shipping_config.py:27-37 | The charge is 0 when the subtotal reaches the threshold; otherwise it is the calculated charge unchanged. |
| ShippingConfig.AmountNeededForFreeShipping | app/config/shipping_config.py:39-43 | The amount is never negative. It is 0 exactly when the order is eligible, and otherwise it closes the gap to the threshold exactly. |
| ShippingConfig.AmountNeededIsExact | app/config/shipping_config.py:27-43 | Adding the amount needed makes the order eligible; adding any less does not. |
| ShippingConfig.GetThreshold | app/config/shipping_config.py:19 | The threshold is 999000000: it is eligible itself, and one less is not. |
| OrderIds.Stamp | app/utils/order_id_generator.py:16 | `%Y%m%d%H%M%S` is 14 digits. |
| OrderIds.StampRoundTrip | app/utils/order_id_generator.py:13-16 | Reading the stamp of a valid clock reading gives that reading back. |
| OrderIds.GenerateOrderId | app/utils/order_id_generator.py:7-19 | The id is "PD" followed by the 14-digit stamp, 16 characters in all. |
| OrderIds.OrderIdsDifferAcrossSeconds | app/utils/order_id_generator.py:13-18 | Ids made at different seconds differ. |
| OrderIds.GenerateOrderIdWithRandom | app/utils/order_id_generator.py:21-35 | The id is the plain id followed by the four random digits, 20 characters in all. |
| OrderIds.GenerateWaybillNumber | app/utils/order_id_generator.py:37-44 | The waybill starts with "PDEL" and is followed by the id after its first two characters, which is empty for ids shorter than 2. |
| OrderIds.WaybillRecoversOrderId | app/utils/order_id_generator.py:43 | An id starting with "PD" is "PD" followed by its waybill's tail. |
| OrderIds.WaybillInjective | app/utils/order_id_generator.py:43 | Distinct "PD" ids never share a waybill. |
| OrderIds.WaybillOfGeneratedId | app/utils/order_id_generator.py:16-43 | The waybill of a generated id is "PDEL" followed by the stamp. |
| Products.ByCategory | app/api/routes/products.py:76-77 | Keeps, in order, the products whose category equals the filter ignoring case. An empty filter keeps all. |
| Products.BySearch | app/api/routes/products.py:80-85 | Keeps, in order, the products whose lower-cased name or description contains the lower-cased query. |
| Products.ByMinPrice | app/api/routes/products.py:88-89 | Keeps, in order, the products priced at least min_price when it is given. |
| Products.ByMaxPrice | app/api/routes/products.py:90-91 | Keeps, in order, the products priced at most max_price when it is given. |
| Products.ByStock | app/api/routes/products.py:94-95 | Keeps, in order, the in-stock products when in_stock_only is set. |
| Products.GetAllProducts | app/api/routes/products.py:61-102 | The result is an order-preserving subsequence of the catalogue, and every product in it meets every active filter. |
| Products.PipelineIsOneFilter | app/api/routes/products.py:73-95 | The five successive filters equal one filter by all the tests together. |
| Products.GetAllProductsSoundAndComplete | app/api/routes/products.py:73-95 | A catalogue product is returned exactly when it meets all active filters. |
| Products.GetAllProductsUnfiltered | app/api/routes/products.py:73 | With no filters the whole catalogue is returned in order. |
| Products.GetProductBySlug | app/api/routes/products.py:104-122 | Returns a product with that slug, or 404 "Product not found" exactly when there is none. |
| Products.GetProductBySlugFirst | app/api/routes/products.py:110 | The product returned is the first one with that slug. |
| Products.BlackMustardOilBySlug | app/api/routes/products.py:110-116 | Example: the catalogue's first slug finds the first product. |
| Products.GetProductsByCategory | app/api/routes/products.py:124-141 | The count is the length of the list, and the list is the catalogue filtered by the category test. |
| Products.CategoryEndpointAgrees | app/api/routes/products.py:130 | The category endpoint returns what the listing returns with only that category filter. |
| Products.SearchProducts | app/api/routes/products.py:143-164 | The count is the length of the results, which are the catalogue filtered by the search test. |
| Products.SearchEndpointAgrees | app/api/routes/products.py:149-153 | The search endpoint returns what the listing returns with only that search filter. |
| Contact.Total | app/api/routes/contact.py:80-83 | With sequential ids, the reported total is also the id of the newest entry. |
| Contact.AppendKeepsIdsSequential | app/api/routes/contact.py:27-37 | Appending an entry numbered one past the count keeps ids running 1..n in list order. |
| Contact.AppendKeepsNoDuplicates | app/api/routes/contact.py:56-63 | Appending an address not yet present keeps the subscriber list free of duplicates. |
| Contact.ContactBook.constructor | app/api/routes/contact.py:19-20 | Both lists start empty. |
| Contact.ContactBook.SubmitContactForm | app/api/routes/contact.py:22-49 | Exactly one "pending" entry is appended, with id = previous count + 1. The ticket id is that id. The subscribers are untouched. |
| Contact.ContactBook.SubscribeNewsletter | app/api/routes/contact.py:51-74 | An address already present changes nothing and is reported as already subscribed. A new address is appended at the end. Duplicates never arise. |
| Contact.ContactBook.GetAllSubmissions | app/api/routes/contact.py:76-86 | Returns the list with total = its length and ids 1..n. |
| Store.ParseStatus | app/models/order.py:7-14 | `OrderStatus(v)` exists exactly for the seven values, and it is the member whose value is `v`. |
| Store.ParseStatusValue | app/models/order.py:7-14 | Every member is found again from its value. |
| Orders.CalculateShippingCost | app/api/routes/orders.py:47-66 | The cost is 0 from a subtotal of 999 up, without asking the service. Below that it is the service's total capped at 100, and never above 100. |
| Orders.DevelopmentShippingCost | app/api/routes/orders.py:51-61 | In development the cost is the tariff's base charge, plus 40 for cash on delivery, capped at 100. |
| Orders.ThresholdsDisagree | app/api/routes/orders.py:51 | A 999 order ships free in this route but is not eligible under ShippingConfig. |
| Orders.CalculateOrderTotal | app/api/routes/orders.py:657-683 | The subtotal is Σ price×quantity and total = subtotal + shipping. Free shipping holds exactly from a subtotal of 999. The shipping cost is `calculate_shipping_cost` at one kilogram per unit, with pincode "" when none is given and cash on delivery exactly when the method is "cod" or missing. |
| Orders.CalculateOrderTotalDefaults | app/api/routes/orders.py:659-661 | A missing pincode quotes as "", and a missing payment method quotes as "cod". |
| Orders.CustomerFor | app/api/routes/orders.py:96-111 | The order is booked to the first customer with the given phone. It goes to a new row at the end exactly when no phone is given or no customer has it. |
| Orders.AddItemRows | app/api/routes/orders.py:140-153 | The loop appends exactly one item row per requested item, in order. Nothing else changes. |
| Orders.CreateOrder | app/api/routes/orders.py:69-243 | The new tables and the reply are those of `create_order` on the old tables. |
| Orders.ItemRecordsShape | app/api/routes/orders.py:140-153 | There is one item row per item, each naming the new order and carrying the item's fields. |
| Orders.ItemRecordsTotal | app/api/routes/orders.py:77-91 | The item rows' totals add up to the order's subtotal. |
| Orders.PlaceOrderStatuses | app/api/routes/orders.py:114-133 | The new order is the last row. Its payment status is COD exactly for "cod", otherwise PENDING. It is CONFIRMED, or PROCESSING with the waybill ("waybill", else "awb_code") when the shipment was made. total = subtotal + shipping. The shipping cost is `calculate_shipping_cost` on the order's pincode, weight and subtotal, and the reply reports it. Earlier orders are untouched. |
| Orders.QuoteMatchesPlacedOrder | app/api/routes/orders.py:77-91 | Quoting the order's items, pincode and payment method gives the same subtotal, shipping cost and total that placing the order reports. |
| Orders.PlaceOrderItems | app/api/routes/orders.py:140-153 | One item row per requested item is appended, and their totals sum to the subtotal. |
| Orders.PlaceOrderDelivery | app/api/routes/orders.py:188-213 | A delivery row is added exactly when the shipment was made. It links the new order, carries its waybill, and has one "Order Placed" history entry. A failed shipment leaves the order CONFIRMED and the call still succeeds. |
| Orders.PlaceOrderCustomer | app/api/routes/orders.py:96-111 | The first customer with the phone is used, or one new customer is appended. Existing customers never change. |
| Orders.CancelOrder | app/api/routes/orders.py:621-654 | The new tables and the reply are those of `cancel_order` on the old tables. |
| Orders.CancelGuard | app/api/routes/orders.py:628-632 | A cancel fails exactly for an unknown (404) or DELIVERED/CANCELLED (400) order, and a failed cancel changes nothing. |
| Orders.CancelEffect | app/api/routes/orders.py:635-646 | The order becomes CANCELLED with "Cancelled: " and the reason (default "User requested cancellation") in its notes. Its delivery becomes "Cancelled" only when it has a shipment id. Nothing else changes. |
| Orders.CancelIsFinal | app/api/routes/orders.py:628-632 | A second cancel of the same order is refused with 400 and changes nothing. |
| Orders.UserOrdersPhoneKeyCases | app/api/routes/orders.py:294 | The key is "91" followed by the phone exactly when the phone has 10 characters and does not start with "91"; otherwise it is the phone. |
| Orders.UserOrdersPhoneKeyIdempotent | app/api/routes/orders.py:294 | Keying a key again changes nothing. |
| Orders.UserOrdersPhoneKeyOnDigits | app/api/routes/orders.py:294 | On a digit string the key equals the sign-in phone rule. |
| Orders.SignedNumberMissesCustomer | app/api/routes/orders.py:294 | "+918887948909" is not normalised, so its key differs from the stored sign-in phone. |
| Orders.UserOrdersAreTheCustomers | app/api/routes/orders.py:291-312 | An order is listed exactly when it belongs to the first customer with the key. None are listed when no customer has the key. |
| Orders.UserOrdersNewestFirst | app/api/routes/orders.py:291-312 | The j-th listed order is the order at the customer's j-th row key, with the keys strictly decreasing. So the newest order comes first and none is listed twice. Nothing is listed when no customer has the key. |
| Orders.UserOrdersComplete | app/api/routes/orders.py:291-312 | Every row key of an order of that customer is among the keys the listing follows, so every such order is listed. |
| DeliveryRoutes.CheckPincode | app/api/routes/delivery.py:55-109 | The route answers 400 "Invalid pincode format" exactly for a pincode that is not 6 digits. Otherwise it reports the service's serviceability for that pincode. |
| DeliveryRoutes.CityFallback | app/api/routes/delivery.py:89-99 | The service's city and state are kept unless the city is empty or "Unknown". In that case they come from the route's table for prefixes 110, 212 and 400, and otherwise stay. |
| DeliveryRoutes.DevelopmentPincode212 | app/services/shiprocket_service.py:222 | In development 212601 is Fatehpur. |
| DeliveryRoutes.FailedPincode212 | app/api/routes/delivery.py:89-99 | When the live service fails, 212601 is Jhansi and not serviceable. |
| DeliveryRoutes.IntOf | app/api/routes/delivery.py:167 | `int(w)` is the value of a digit string, and it is defined only for digit strings, with or without a leading '+'. |
| DeliveryRoutes.AfterDash | app/api/routes/delivery.py:167 | `split("-")[1]` exists exactly when there is a '-'. |
| DeliveryRoutes.FirstWord | app/api/routes/delivery.py:167 | `split()[0]` is a non-empty word with no whitespace. |
| DeliveryRoutes.MaxDaysOfRange | app/api/routes/delivery.py:165-170 | "a-b days" yields b. |
| DeliveryRoutes.MaxDaysExamples | app/api/routes/delivery.py:165-170 | Example: "3-5 days" gives 5 and "5-7 days" gives 7. |
| DeliveryRoutes.MaxDaysWithoutRange | app/api/routes/delivery.py:168-170 | Without a '-', or for a number, the parse fails and 5 is used. |
| DeliveryRoutes.GetEstimatedDelivery | app/api/routes/delivery.py:151-186 | A malformed pincode reaches the client as a 500 carrying the 400's text. Otherwise the estimate is now + maxDays days, with maxDays parsed from the service's ETA. |
| DeliveryRoutes.DevelopmentEstimate | app/api/routes/delivery.py:165-172 | In development a metro pincode is promised in 5 days and any other in 7. |
| DeliveryRoutes.FailedServiceEstimate | app/api/routes/delivery.py:165-172 | With the service unreachable the estimate is five days out. |
| DeliveryRoutes.CalculateShippingAsWritten | app/api/routes/delivery.py:111-148 | A missing cod_amount is a 500. Otherwise shipping is always 50, COD 0 and days "3-5 days", and only total_charge passes through. |
| DeliveryRoutes.CalculateShippingAsWrittenDisagrees | app/api/routes/delivery.py:136-139 | A 0.5 kg prepaid parcel to 110001 in development has total 35 while its shipping charge reads 50. |
| DeliveryRoutes.CalculateShipping | app/api/routes/delivery.py:132-140 | Read with the service's own keys, total = shipping + COD, COD is 0 without a COD amount, and the days mention "days". |
| DeliveryRoutes.CalculateShippingAgreesOnTotal | app/api/routes/delivery.py:136-140 | The handler as written and the corrected one report the same total, and the corrected one reports the service's charges. |
| DeliveryRoutes.UpdateDeliveryStatus | app/api/routes/delivery.py:311-378 | The new tables and the reply are those of `update_delivery_status` on the old tables. |
| DeliveryRoutes.UpdateStatusUnknownWaybill | app/api/routes/delivery.py:321-329 | An unknown waybill is a 404 and changes nothing; a known one always succeeds. |
| DeliveryRoutes.UpdateStatusHistory | app/api/routes/delivery.py:332-367 | The history grows by exactly one entry at the end, with earlier entries unchanged. The entry's description defaults to "Package <status>". The status is set, and the location only when one is given. |
| DeliveryRoutes.UpdateStatusOneMilestone | app/api/routes/delivery.py:337-347 | At most one milestone timestamp changes: the classified one, set to now. |
| DeliveryRoutes.UpdateStatusOrders | app/api/routes/delivery.py:346-354 | Only a "delivered" classification touches the orders. The linked order then becomes DELIVERED with delivered_at = now, and no other order changes. |
| DeliveryRoutes.ClassifyExamples | app/api/routes/delivery.py:338-347 | Example: "Picked Up", "In Transit", "Out for Delivery" and "Delivered" land on their milestones. |
| DeliveryRoutes.UndeliveredCountsAsDelivered | app/api/routes/delivery.py:345-347 | "Undelivered" is classified as delivered. |
| AdminOrders.Lookup | app/api/routes/admin_orders.py:24-33 | The identity names the first customer with the email when one is given, else the first with the formatted phone. |
| AdminOrders.VerifyAdminAccess | app/api/routes/admin_orders.py:19-43 | Without an identity the answer is 401. It is 404 when nobody matches and 403 for a non-admin; otherwise it is the admin's row key. |
| AdminOrders.EmailTakesPrecedence | app/api/routes/admin_orders.py:24-33 | When an email is given the phone is never consulted. |
| AdminOrders.AdminAccessCases | app/api/routes/admin_orders.py:21-40 | Each of grant, 404 and 403 holds exactly in its case. |
| AdminOrders.AdminByBarePhone | app/api/routes/admin_orders.py:29-31 | A bare 10-digit phone finds the admin stored under "91" followed by those digits. |
| AdminOrders.ItemsOf | app/api/routes/admin_orders.py:89-99 | Exactly the item rows of that order, in order. |
| AdminOrders.GetAllOrders | app/api/routes/admin_orders.py:46-115 | The append loop builds exactly the listing: after the admin check, the selected orders newest first, each with its items. |
| AdminOrders.RowsFromSound | app/api/routes/admin_orders.py:62-107 | Every row is a selected order, at its own row key, with exactly its items. |
| AdminOrders.RowsFromNewestFirst | app/api/routes/admin_orders.py:66 | Row keys strictly decrease along the listing. |
| AdminOrders.RowsFromComplete | app/api/routes/admin_orders.py:62-107 | Every order with the filtered status has a row. |
| AdminOrders.UnfilteredListsAll | app/api/routes/admin_orders.py:62-63 | With status absent or "all" every order is listed, and total counts them. |
| AdminOrders.UpdateOrderStatus | app/api/routes/admin_orders.py:126-168 | The new tables and the reply are those of `update_order_status` on the old tables. |
| AdminOrders.UpdateStatusRefusals | app/api/routes/admin_orders.py:140-147 | A refused override changes nothing. 404 "Order not found" comes exactly for an admin and an unknown order. 400 comes exactly for an admin, a known order and a status outside the seven. (The admin check answers its own 404, "User not found".) |
| AdminOrders.UpdateStatusAnyTransition | app/api/routes/admin_orders.py:150-151 | For an admin and a known order every listed status is accepted from any current status, DELIVERED and CANCELLED included, and only that order changes. |
| AdminOrders.DeliveredAtWrittenOnce | app/api/routes/admin_orders.py:154-155 | delivered_at is set to now only on "delivered" while it is empty, and an existing value is never overwritten. |
| AdminOrders.AdminWaybill | app/api/routes/admin_orders.py:207 | The waybill is "WB" followed by the 12 drawn digits, 14 characters in all. |
| AdminOrders.CreateShipment | app/api/routes/admin_orders.py:179-225 | The new tables and the reply are those of `create_shipment` on the old tables. |
| AdminOrders.ShipmentCreatedShape | app/api/routes/admin_orders.py:207-225 | A created shipment leaves the order SHIPPED with a 14-character "WB" waybill of digits and changes nothing else. The reply carries the waybill and "3-5 business days". |
| AdminOrders.ShipmentIsOneShot | app/api/routes/admin_orders.py:197-202 | A second call, whatever digits it draws, answers success false with the first waybill and changes nothing. |
| Admin.MissingIdentity | app/api/routes/admin.py:26-27 | Without email or phone the answer is 401 "Email or phone required". |
| Admin.InvalidStatusRefused | app/api/routes/admin.py:137-139 | An unknown status on a known order is 400 "Invalid status" with nothing changed. |
| Admin.ShipmentReplyOmitsStatus | app/api/routes/admin.py:199-205 | The shipment reply of admin.py names no order status. |
| Admin.FilesAgreeOnState | app/api/routes/admin.py:121-211 | admin.py and admin_orders.py make the same state changes and grant the same listings; only their wording differs. |
| Auth.GenerateOtp | app/api/routes/auth.py:36-38 | The code is six decimal digits, the drawn ones. |
| Auth.SendOtp | app/api/routes/auth.py:48-97 | The new tables and the reply are those of `send_otp` on the old tables. |
| Auth.SendOtpStoresOneRecord | app/api/routes/auth.py:52-73 | A phone not formatting to 12 digits is 400 with nothing stored. Otherwise exactly one record is appended: the formatted phone, the 6-digit code, "login", unused, expiring 600 s later. The record is kept even when the SMS call fails (500). |
| Auth.SendOtpRevealsCodeOnlyInDevelopment | app/api/routes/auth.py:76-89 | The reply carries the code exactly in development mode, and then it is the stored code. |
| Auth.FindLiveOtp | app/api/routes/auth.py:106-111 | The first record with that phone and code that is unused and has expires_at > now, if any. |
| Auth.VerifyOtp | app/api/routes/auth.py:99-173 | The new tables and the reply are those of `verify_otp` on the old tables. |
| Auth.VerifyOtpRejects | app/api/routes/auth.py:106-114 | Verification fails (400) exactly when no record is live for the formatted phone and code, and then nothing changes. |
| Auth.VerifyOtpLogsIn | app/api/routes/auth.py:117-167 | After success the customer with the phone exists, is verified, and last logged in now. is_new_user holds exactly when no customer had the phone. Nobody else changes. |
| Auth.LiveCountZero | app/api/routes/auth.py:106-111 | No live record is counted exactly when the query finds none. |
| Auth.MarkUsedCount | app/api/routes/auth.py:117 | Marking one live record used leaves one live record fewer. |
| Auth.VerifyOtpUsesOneCode | app/api/routes/auth.py:117 | A success uses up exactly one live record, and no other record changes. |
| Auth.VerifyOtpIsSingleUse | app/api/routes/auth.py:106-117 | With the code's record the only live one, the same call a second time is refused. |
| Auth.SendThenVerify | app/api/routes/auth.py:62-114 | The code that send-otp stored verifies for the same phone as typed, at any time before it expires. |
| Auth.MergeIdempotent | app/api/routes/auth.py:294-305 | Merging the same update twice is merging it once. |
| Auth.MergeTouchesOnlyGivenFields | app/api/routes/auth.py:294-305 | A field changes only when the update gives it a non-empty value, and then it takes that value. Phone, Google id, verification and role never change. |
| Auth.UpdateProfile | app/api/routes/auth.py:272-330 | The new tables and the reply are those of `update_profile` on the old tables. |
| Auth.UpdateProfileEffect | app/api/routes/auth.py:282-305 | The route answers 400 "Phone or email required" exactly when neither phone nor email is given. It answers 404 "Customer not found" exactly when one is given and nobody matches. Both change nothing. A success rewrites only the customer found, phone over email, as merged. |
| Auth.UpdateProfileByPhoneIdempotent | app/api/routes/auth.py:282-305 | Looked up by phone, repeating an update leaves the tables of making it once. |
| Auth.GetProfile | app/api/routes/auth.py:332-365 | An all-digit identifier is looked up as a formatted phone, anything else as an email. The answer is 404 exactly when nobody matches. |
| Auth.AuthType | app/api/routes/auth.py:358 | "google" exactly for a customer with a Google id, otherwise "phone". |
| Auth.PhoneLoginThenProfile | app/api/routes/auth.py:121-167 | A customer created by phone login is found by get-profile with the digits as typed, and is a phone account. |
| SmsService.FormatPhone | app/services/sms_service.py:32-40 | The result is digits only, and "91" is put in front of every 10-digit string. |
| SmsService.FormatPhoneIdempotent | app/services/sms_service.py:32-40 | Formatting twice is formatting once, so resend stores under the same key. |
| SmsService.FormatPhoneTenWith91 | app/services/sms_service.py:37-38 | A 10-digit number already beginning "91" still gains "91", where the login rule leaves it alone. |
| SmsService.GenerateOtp | app/services/sms_service.py:42-44 | A draw in 100000..999999 gives six digits with the draw's value. |
| SmsService.FreshEntry | app/services/sms_service.py:124-129 | A new entry holds the code, was created now, expires 600 s later, and has 0 attempts. |
| SmsService.VerifyStepIsLocal | app/services/sms_service.py:157-222 | Verification touches only its own phone's entry. |
| SmsService.VerifyWithoutEntry | app/services/sms_service.py:171-176 | A phone without an entry fails, and the store is unchanged. |
| SmsService.VerifySucceedsExactly | app/services/sms_service.py:181-206 | Success comes exactly for an entry that is in time and under 3 attempts with a matching code. |
| SmsService.StaleEntryIsDropped | app/services/sms_service.py:181-196 | An expired or exhausted entry is deleted and fails even with the right code. |
| SmsService.CodeIsSingleUse | app/services/sms_service.py:199-206 | A success deletes the entry, so the code fails afterwards. |
| SmsService.WrongCodeCountsOneAttempt | app/services/sms_service.py:207-214 | A wrong code adds exactly one attempt, keeps code and expiry, and reports 3 − attempts remaining. |
| SmsService.ThreeStrikes | app/services/sms_service.py:190-214 | After three wrong codes on a fresh entry even the right code is refused inside the ten minutes. |
| SmsService.ExpiryIsInclusive | app/services/sms_service.py:181-187 | At exactly expires_at the code is still accepted. |
| SmsService.Sms.constructor | app/services/sms_service.py:14-30 | The store starts empty. |
| SmsService.Sms.SendOtp | app/services/sms_service.py:109-155 | The phone's entry is replaced by a fresh one and other phones' entries are untouched. |
| SmsService.Sms.VerifyOtp | app/services/sms_service.py:157-222 | The store and the reply follow the verification step on the formatted phone. |
| SmsService.Sms.ResendOtp | app/services/sms_service.py:302-310 | The old entry is dropped and a fresh one stored, so attempts are back at 0. |
| WhatsAppService.VerifySucceedsExactly | app/services/whatsapp_service.py:272-301 | Success comes exactly for an entry at most expires_in seconds old with the same code, and that entry is deleted. |
| WhatsAppService.WrongCodeChangesNothing | app/services/whatsapp_service.py:302-307 | A wrong code inside the window fails and leaves the store as it was. |
| WhatsAppService.NoAttemptLimit | app/services/whatsapp_service.py:295-307 | Any number of wrong codes leaves the right one usable inside the window. |
| WhatsAppService.ExpiryBoundary | app/services/whatsapp_service.py:285-292 | At 600 s the code is accepted; one second later it has expired and is deleted. |
| WhatsAppService.CodeIsSingleUse | app/services/whatsapp_service.py:295-301 | A code verifies once. |
| WhatsAppService.WhatsApp.constructor | app/services/whatsapp_service.py:13-24 | The store starts empty. |
| WhatsAppService.WhatsApp.SendOtp | app/services/whatsapp_service.py:202-256 | The entry {code, now, 600} is stored under the formatted phone, replacing any earlier one, and is kept even when sending fails. |
| WhatsAppService.WhatsApp.VerifyOtp | app/services/whatsapp_service.py:258-315 | The store and the reply follow the verification step on the formatted phone. |
| Payments.VerifyPayment | app/api/routes/payments.py:96-158 | The new tables and the reply are those of `verify_razorpay_payment` on the old tables. |
| Payments.VerifiedPaymentMarksOrderPaid | app/api/routes/payments.py:114-147 | A verified payment on a stored order, when the write succeeds, sets "paid", "online", both Razorpay ids and updated_at, and no other field or row changes. The reply is "verified" even when nothing was written. |
| Payments.UnverifiedPaymentChangesNothing | app/api/routes/payments.py:148-154 | An unverified payment changes nothing and is reported as failed. |
| Payments.VerifyPaymentIdempotent | app/api/routes/payments.py:126-129 | Repeating a verification leaves the state of doing it once. |
| Payments.ProcessCodOrder | app/api/routes/payments.py:227-264 | The new tables and the reply are those of `process_cod_order` on the old tables. |
| Payments.CodSetsPendingCash | app/api/routes/payments.py:239-260 | The route always answers success with "cod"/"pending". A stored order, when the write succeeds, then holds exactly those values, and nothing else changes. |
| Payments.CheckPaymentStatus | app/api/routes/payments.py:189-221 | The amount is the fetched paise / 100, with defaults "unknown" and "INR". A failed fetch reports a mock "captured" payment of 0 INR. |
| Payments.PaiseToRupees | app/api/routes/payments.py:204 | Example: 49900 paise are reported as 499 rupees. |

## Left out

- All outbound HTTP and SDK calls are not modelled; only their replies are inputs. This covers Shiprocket login and requests, Razorpay, PhonePe, the SMS providers, the WhatsApp Graph API, e-mail and Google token checks.
- The HMAC signature check of a Razorpay payment is a library call, and its verdict is the boolean input `verified`.
- The clock, `strftime`/`isoformat` formatting and random draws are parameters. Times are integer seconds, and ISO strings are passed in as text.
- Float behaviour is not modelled. Money and weights are exact `real`, and rounding and `:.2f` formatting are absent.
- `.lower()` and `str.isdigit` are ASCII-only. Unicode digits and case folding are not modelled.
- `int()` accepting underscores or surrounding whitespace is not modelled in the max-days parse.
- ORM machinery is not modelled: sessions, unique constraints, enum coercion in filters, and created_at ties (insertion order stands in for time order).
- Commit failures are modelled only where the route reports success regardless (`dbOk` in Payments). The other routes' rollback-and-500 paths are not modelled.
- google_login, track_delivery, track_by_waybill, get_order, the invoice routes and the test-order route are not modelled. They are HTTP fan-out or depend on names never imported.
- create_razorpay_order, the PhonePe route, refund, the health route and the config route only forward to outside services.
- SMS, WhatsApp, order and shipping notification senders and message templates are not modelled.
- app/api/routes/auth.py:12 imports a name the SMS service does not define, and line 73 calls `send_otp` with an extra argument. The SMS call is therefore the input `smsFailure`, and only the OTP record logic is modelled.
- The `is_admin` column that the admin routes read is not declared in app/models/customer.py; the model gives customers an `isAdmin` field.
- The tracking history is a JSON list mutated in place. Whether the ORM notices that change is not modelled; the model stores the new list.
- The except branch of `calculate_shipping_cost` is not modelled. With a string pincode the adapter never raises. But `/orders/calculate` takes a plain dict, and a null or numeric pincode makes `pincode[:3]` raise in `_mock_shipping_charges`. The adapter's own fallback then raises again, and the route falls back to a flat 50.0. The model's pincode is always a string.
- Dates past the `timedelta` range are not modelled.
- JSON `null` in the courier fields read with `.get(key, default)` is treated like any other non-number value.
- A JSON `null` courier name cannot be represented: the model's absent name is the key missing. In the source, `.lower()` on that None raises AttributeError in the preferred-courier scan. `calculate_shipping_charges` then falls back to the mock quote, and `check_pincode_serviceability` answers not serviceable.
- Request bodies the framework checks against a declared model are well-formed by the time a handler runs. The dict-typed bodies are not checked, and their malformed cases are not modelled. An item without "price" or "quantity" in `/orders/calculate` raises KeyError, which becomes a 500. A cancel body `{"reason": null}` stores "Cancelled: None", while the model's reason is either absent or a string.
- ShiprocketService.ParseDecimal: reads only plain decimals (digits with at most one '.'). Python `float()` also accepts a sign, an exponent, surrounding whitespace, digit-group underscores and "inf"/"nan". The model counts those strings as unparsable. In courier selection such a rate ("-5", " 80 ", "8e1") therefore sorts as 999999, while the source uses its value and may pick that courier.
- The development-mode print of the OTP is not modelled.
- Auth.UpdateProfileByPhoneIdempotent: idempotence is stated only for phone lookup. Looked up by email, an update that changes the email can make a second call find another customer.

## Findings

| source | as written | input that shows it | evidently intended | confidence | as-written member | corrected member |
|---|---|---|---|---|---|---|
| app/api/routes/delivery.py:136-139 | The route reads `freight_charge`, `cod_charges` and `estimated_delivery_days`, which the shipping service never returns, so it always reports shipping 50, COD 0 and "3-5 days". | A 0.5 kg prepaid parcel to 110001 in development: total 35, shipping charge reported as 50. | Report the service's `shipping_charge`, `cod_charge` and `estimated_days`, so that total = shipping + COD. | not executed | DeliveryRoutes.CalculateShippingAsWritten | DeliveryRoutes.CalculateShipping |

=== FILE: admin.dfy ===
/**
 * app/api/routes/admin.py: the same admin check, listing, status override and shipment as
 * admin_orders.py (modelled once in AdminOrders), with shorter error details and a shipment
 * reply that does not name the new status. Its `format_phone` is Phones.FormatPhone.
 */
module Admin {
  import opened Outcomes
  import opened Store
  import opened AdminOrders

  /** The wording of admin.py. */
  const AdminWording: Wording := Wording("Email or phone required", "Invalid status", false)

  /** Without email or phone the check answers 401 with admin.py's shorter detail, whatever the customers. */
  lemma MissingIdentity(customers: seq<Customer>)
    ensures VerifyAdminAccess(customers, AdminWording, "", "") == Err(HttpError(401, "Email or phone required"))
  {
  }

  /** An unknown status is refused with the bare "Invalid status", and nothing changes. */
  lemma InvalidStatusRefused(t: Tables, email: string, phone: string, orderId: string, status: string, now: int)
    requires VerifyAdminAccess(t.customers, AdminWording, email, phone).Ok?
    requires FindOrder(t.orders, orderId) < |t.orders|
    requires status !in ValidStatuses
    ensures UpdateStatusStep(t, AdminWording, email, phone, orderId, status, now) == Step(t, Err(HttpError(400, "Invalid status")))
  {
  }

  /** A created shipment is answered with the waybill and the estimate only. */
  lemma ShipmentReplyOmitsStatus(t: Tables, email: string, phone: string, orderId: string, picks: seq<nat>)
    requires |picks| == 12 && forall i :: 0 <= i < 12 ==> picks[i] < 10
    requires ShipStep(t, AdminWording, email, phone, orderId, picks).reply.Ok?
    ensures var r := ShipStep(t, AdminWording, email, phone, orderId, picks).reply.value;
      r.ShipmentCreated? ==> r.orderStatus.None? && r.estimatedDelivery == AdminEstimate
  {
  }

  /** The two files agree on every state change; only the words of their answers differ. */
  lemma FilesAgreeOnState(t: Tables, email: string, phone: string, orderId: string, status: string, now: int, picks: seq<nat>)
    requires |picks| == 12 && forall i :: 0 <= i < 12 ==> picks[i] < 10
    ensures UpdateStatusStep(t, AdminWording, email, phone, orderId, status, now).tables
         == UpdateStatusStep(t, OrdersWording, email, phone, orderId, status, now).tables
    ensures ShipStep(t, AdminWording, email, phone, orderId, picks).tables
         == ShipStep(t, OrdersWording, email, phone, orderId, picks).tables
    ensures AllOrders(t, AdminWording, email, phone, status).Ok?
        <==> AllOrders(t, OrdersWording, email, phone, status).Ok?
  {
  }
}

=== FILE: admin_orders.dfy ===
/**
 * The admin order routes of app/api/routes/admin_orders.py: the admin check, the order listing,
 * the status override and the one-shot shipment. app/api/routes/admin.py has the same handlers
 * with other wording; each handler takes the wording of its file as a `Wording` value, and the
 * Admin module holds the one of admin.py.
 */
module AdminOrders {
  import opened Outcomes
  import opened Text
  import opened Seqs
  import opened Store
  import Phones

  /** What differs between the two admin files: two error details and whether the shipment reply names the new status. */
  datatype Wording = Wording(missingIdentity: string, invalidStatus: string, reportsShipmentStatus: bool)

  /** The wording of admin_orders.py. */
  const OrdersWording: Wording := Wording(
    "Email or phone required for authentication",
    "Invalid status. Must be one of: pending, confirmed, processing, shipped, delivered, cancelled, refunded",
    true)

  // ---------------------------------------------------------------- the admin check

  /** The customer the identity names: by email when one is given, else by the formatted phone. */
  function Lookup(customers: seq<Customer>, email: string, phone: string): (k: nat)
    ensures k <= |customers|
  {
    if email != "" then FindCustomerByEmail(customers, email)
    else FindCustomerByPhone(customers, Phones.FormatPhone(phone))
  }

  /**
   * `verify_admin_access`, with the query parameters as strings ("" when absent): 401 without
   * any identity, 404 when no customer matches, 403 when the customer is not an admin; else the
   * admin's row key.
   */
  function VerifyAdminAccess(customers: seq<Customer>, w: Wording, email: string, phone: string): (r: Result<nat>)
    ensures r.Ok? ==> r.value < |customers| && customers[r.value].isAdmin
    ensures r.Err? ==> r.error in {HttpError(401, w.missingIdentity), HttpError(404, "User not found"),
                                   HttpError(403, "Admin access required")}
    ensures (r.Err? && r.error.status == 401) <==> email == "" && phone == ""
  {
    if email == "" && phone == "" then Err(HttpError(401, w.missingIdentity))
    else
      var k := Lookup(customers, email, phone);
      if k == |customers| then Err(HttpError(404, "User not found"))
      else if !customers[k].isAdmin then Err(HttpError(403, "Admin access required"))
      else Ok(k)
  }

  /** An email, when given, decides alone: the phone is not consulted, even when no customer has that email. */
  lemma EmailTakesPrecedence(customers: seq<Customer>, w: Wording, email: string, phone: string, other: string)
    requires email != ""
    ensures VerifyAdminAccess(customers, w, email, phone) == VerifyAdminAccess(customers, w, email, other)
    ensures FindCustomerByEmail(customers, email) == |customers| ==>
      VerifyAdminAccess(customers, w, email, phone) == Err(HttpError(404, "User not found"))
  {
  }

  /**
   * Access is granted exactly when an identity is given and the first customer it names is an
   * admin; 404 exactly when it names nobody; 403 exactly when it names a non-admin.
   */
  lemma AdminAccessCases(customers: seq<Customer>, w: Wording, email: string, phone: string)
    requires email != "" || phone != ""
    ensures var r := VerifyAdminAccess(customers, w, email, phone);
      var k := Lookup(customers, email, phone);
      (r.Ok? <==> k < |customers| && customers[k].isAdmin)
      && (r == Err(HttpError(404, "User not found")) <==> k == |customers|)
      && (r == Err(HttpError(403, "Admin access required")) <==> k < |customers| && !customers[k].isAdmin)
      && (email != "" && k < |customers| ==> customers[k].email == Some(email))
      && (email == "" && k < |customers| ==> customers[k].phone == Some(Phones.FormatPhone(phone)))
  {
  }

  /** A bare 10-digit phone finds the admin stored under "91" and those digits. */
  lemma AdminByBarePhone(customers: seq<Customer>, w: Wording)
    requires |customers| > 0 && customers[0].phone == Some("918887948909") && customers[0].isAdmin
    ensures VerifyAdminAccess(customers, w, "", "8887948909") == Ok(0)
  {
    Phones.FormatPhoneBareNumber();
  }

  // ---------------------------------------------------------------- listing

  /** The status filter: none when absent or "all", else equality with the status value. */
  predicate Selected(o: Order, status: string)
  {
    status == "" || status == "all" || StatusValue(o.orderStatus) == status
  }

  /** The items of the order with row key `k` (`order.items`), in insertion order. */
  function ItemsOf(items: seq<OrderItem>, k: nat): (r: seq<OrderItem>)
    ensures forall x :: x in r <==> x in items && x.orderKey == k
  {
    Keep(items, (x: OrderItem) => x.orderKey == k)
  }

  /** One entry of the listing: the order's row key, the order, and its items. */
  datatype OrderRow = OrderRow(key: nat, order: Order, items: seq<OrderItem>)

  /** The listing restricted to the orders from position `i` on, newest first. */
  function RowsFrom(t: Tables, status: string, i: nat): seq<OrderRow>
    decreases |t.orders| - i
  {
    if i >= |t.orders| then []
    else
      RowsFrom(t, status, i + 1)
      + (if Selected(t.orders[i], status) then [OrderRow(i, t.orders[i], ItemsOf(t.items, i))] else [])
  }

  /** The listing of `get_all_orders`. */
  datatype OrderList = OrderList(rows: seq<OrderRow>, total: nat)

  function AllOrders(t: Tables, w: Wording, email: string, phone: string, status: string): Result<OrderList>
  {
    var access := VerifyAdminAccess(t.customers, w, email, phone);
    if access.Err? then Err(access.error)
    else
      var rows := RowsFrom(t, status, 0);
      Ok(OrderList(rows, |rows|))
  }

  /** `get_all_orders`: the append loop over the selected orders, newest first. */
  method GetAllOrders(db: Db, w: Wording, email: string, phone: string, status: string) returns (r: Result<OrderList>)
    ensures r == AllOrders(db.Snapshot(), w, email, phone, status)
  {
    var access := VerifyAdminAccess(db.customers, w, email, phone);
    if access.Err? {
      return Err(access.error);
    }
    var rows: seq<OrderRow> := [];
    var i := |db.orders|;
    while i > 0
      invariant 0 <= i <= |db.orders|
      invariant rows == RowsFrom(db.Snapshot(), status, i)
    {
      i := i - 1;
      var order := db.orders[i];
      if Selected(order, status) {
        rows := rows + [OrderRow(i, order, ItemsOf(db.items, i))];
      }
    }
    r := Ok(OrderList(rows, |rows|));
  }

  /** A row shows the selected order at its own row key, with exactly that order's items. */
  predicate RowOk(t: Tables, status: string, r: OrderRow)
  {
    r.key < |t.orders| && r.order == t.orders[r.key]
    && Selected(r.order, status) && r.items == ItemsOf(t.items, r.key)
  }

  /** Every row is a selected order, at its own row key, with exactly that order's items. */
  lemma {:induction false} RowsFromSound(t: Tables, status: string, i: nat)
    ensures forall r :: r in RowsFrom(t, status, i) ==> i <= r.key && RowOk(t, status, r)
    decreases |t.orders| - i
  {
    if i < |t.orders| {
      RowsFromSound(t, status, i + 1);
      var row := OrderRow(i, t.orders[i], ItemsOf(t.items, i));
      assert RowsFrom(t, status, i) == RowsFrom(t, status, i + 1) + (if Selected(t.orders[i], status) then [row] else []);
    }
  }

  /** Newest first: the row keys strictly decrease along the listing. */
  lemma {:induction false} RowsFromNewestFirst(t: Tables, status: string, i: nat)
    ensures forall a, b :: 0 <= a < b < |RowsFrom(t, status, i)| ==> RowsFrom(t, status, i)[a].key > RowsFrom(t, status, i)[b].key
    decreases |t.orders| - i
  {
    if i < |t.orders| {
      RowsFromNewestFirst(t, status, i + 1);
      RowsFromSound(t, status, i + 1);
      var rest := RowsFrom(t, status, i + 1);
      var rows := RowsFrom(t, status, i);
      var row := OrderRow(i, t.orders[i], ItemsOf(t.items, i));
      assert rows == rest + (if Selected(t.orders[i], status) then [row] else []);
      forall a, b | 0 <= a < b < |rows|
        ensures rows[a].key > rows[b].key
      {
        assert rows[a] == rest[a];
        assert rest[a] in rest;
        if b < |rest| {
          assert rows[b] == rest[b];
        } else {
          assert rows[b] == row;
        }
      }
    }
  }

  /** Every selected order has a row. */
  lemma {:induction false} RowsFromComplete(t: Tables, status: string, i: nat)
    ensures forall k :: i <= k < |t.orders| && Selected(t.orders[k], status) ==>
      OrderRow(k, t.orders[k], ItemsOf(t.items, k)) in RowsFrom(t, status, i)
    decreases |t.orders| - i
  {
    if i < |t.orders| {
      RowsFromComplete(t, status, i + 1);
      var row := OrderRow(i, t.orders[i], ItemsOf(t.items, i));
      assert RowsFrom(t, status, i) == RowsFrom(t, status, i + 1) + (if Selected(t.orders[i], status) then [row] else []);
    }
  }

  /** Without a filter ("" or "all") every order is listed, and `total` counts the rows. */
  lemma {:induction false} UnfilteredListsAll(t: Tables, status: string, i: nat)
    requires status == "" || status == "all"
    ensures |RowsFrom(t, status, i)| == if i >= |t.orders| then 0 else |t.orders| - i
    decreases |t.orders| - i
  {
    if i < |t.orders| {
      UnfilteredListsAll(t, status, i + 1);
    }
  }

  // ---------------------------------------------------------------- status override

  /** What a successful override answers. */
  datatype StatusChange = StatusChange(orderId: string, oldStatus: string, newStatus: string)

  /**
   * `update_order_status`: after the admin check, 404 for an unknown order, then 400 for a status
   * outside the seven values; any of them is accepted from any status. `delivered_at` is set to
   * `now` only on "delivered" and only when it was empty.
   */
  function UpdateStatusStep(t: Tables, w: Wording, email: string, phone: string,
                            orderId: string, status: string, now: int): Step<StatusChange>
  {
    var access := VerifyAdminAccess(t.customers, w, email, phone);
    if access.Err? then Step(t, Err(access.error))
    else
      var k := FindOrder(t.orders, orderId);
      if k == |t.orders| then Step(t, Err(HttpError(404, "Order not found")))
      else
        var parsed := ParseStatus(status);
        if parsed.None? then Step(t, Err(HttpError(400, w.invalidStatus)))
        else
          var o := t.orders[k];
          var deliveredAt := if status == "delivered" && o.deliveredAt.None? then Some(now) else o.deliveredAt;
          var updated := o.(orderStatus := parsed.value, deliveredAt := deliveredAt);
          Step(t.(orders := t.orders[k := updated]),
               Ok(StatusChange(o.orderId, StatusValue(o.orderStatus), StatusValue(parsed.value))))
  }

  method UpdateOrderStatus(db: Db, w: Wording, email: string, phone: string,
                           orderId: string, status: string, now: int) returns (r: Result<StatusChange>)
    modifies db
    ensures Step(db.Snapshot(), r) == UpdateStatusStep(old(db.Snapshot()), w, email, phone, orderId, status, now)
  {
    var access := VerifyAdminAccess(db.customers, w, email, phone);
    if access.Err? {
      return Err(access.error);
    }
    var k := FindOrder(db.orders, orderId);
    if k == |db.orders| {
      return Err(HttpError(404, "Order not found"));
    }
    if status !in ValidStatuses {
      return Err(HttpError(400, w.invalidStatus));
    }
    var order := db.orders[k];
    var oldStatus := StatusValue(order.orderStatus);
    var parsed := ParseStatus(status);
    order := order.(orderStatus := parsed.value);
    if status == "delivered" && order.deliveredAt.None? {
      order := order.(deliveredAt := Some(now));
    }
    db.orders := db.orders[k := order];
    r := Ok(StatusChange(order.orderId, oldStatus, StatusValue(order.orderStatus)));
  }

  /**
   * A refused override changes nothing; 404 "Order not found" comes exactly for an admin and an
   * unknown order, and 400 exactly for an admin, a known order and a status outside the seven.
   */
  lemma UpdateStatusRefusals(t: Tables, w: Wording, email: string, phone: string, orderId: string, status: string, now: int)
    ensures var s := UpdateStatusStep(t, w, email, phone, orderId, status, now);
      (s.reply.Err? ==> s.tables == t)
      && (s.reply == Err(HttpError(404, "Order not found")) <==>
            VerifyAdminAccess(t.customers, w, email, phone).Ok? && FindOrder(t.orders, orderId) == |t.orders|)
      && (s.reply == Err(HttpError(400, w.invalidStatus)) <==>
            VerifyAdminAccess(t.customers, w, email, phone).Ok?
            && FindOrder(t.orders, orderId) < |t.orders| && status !in ValidStatuses)
  {
    var access := VerifyAdminAccess(t.customers, w, email, phone);
    if access.Err? {
      assert access.error.status != 400;
      assert access.error != HttpError(404, "Order not found");
    }
  }

  /**
   * There is no transition guard: for an admin and a known order, every one of the seven values
   * is accepted whatever the current status, delivered and cancelled included, and only that
   * order changes.
   */
  lemma UpdateStatusAnyTransition(t: Tables, w: Wording, email: string, phone: string, orderId: string,
                                  target: OrderStatus, now: int)
    requires VerifyAdminAccess(t.customers, w, email, phone).Ok?
    requires FindOrder(t.orders, orderId) < |t.orders|
    ensures var k := FindOrder(t.orders, orderId);
      var s := UpdateStatusStep(t, w, email, phone, orderId, StatusValue(target), now);
      s.reply.Ok? && s.reply.value.newStatus == StatusValue(target)
      && s.reply.value.oldStatus == StatusValue(t.orders[k].orderStatus)
      && |s.tables.orders| == |t.orders| && s.tables.orders[k].orderStatus == target
      && (forall j :: 0 <= j < |t.orders| && j != k ==> s.tables.orders[j] == t.orders[j])
      && s.tables.(orders := t.orders) == t
  {
    ParseStatusValue(target);
  }

  /** `delivered_at` is written once: on the first "delivered", never overwritten afterwards. */
  lemma DeliveredAtWrittenOnce(t: Tables, w: Wording, email: string, phone: string, orderId: string, status: string, now: int)
    requires UpdateStatusStep(t, w, email, phone, orderId, status, now).reply.Ok?
    ensures var k := FindOrder(t.orders, orderId);
      var after := UpdateStatusStep(t, w, email, phone, orderId, status, now).tables.orders[k];
      k < |t.orders|
      && (t.orders[k].deliveredAt.Some? ==> after.deliveredAt == t.orders[k].deliveredAt)
      && (t.orders[k].deliveredAt.None? ==> after.deliveredAt == if status == "delivered" then Some(now) else None)
  {
  }

  // ---------------------------------------------------------------- shipment

  const AdminEstimate: string := "3-5 business days"

  /** "WB" and twelve random digits (`random.choices(string.digits, k=12)`, the draws given as `picks`). */
  function AdminWaybill(picks: seq<nat>): (wb: string)
    requires |picks| == 12 && forall i :: 0 <= i < 12 ==> picks[i] < 10
    ensures |wb| == 14 && StartsWith(wb, "WB") && AllDigits(wb[2..])
    ensures forall i :: 0 <= i < 12 ==> DigitValue(wb[2 + i]) == picks[i]
  {
    var digits := DigitString(picks);
    assert ("WB" + digits)[2..] == digits;
    "WB" + digits
  }

  /** The answer of the ship endpoint: the existing waybill, or the new one with the estimate (and, in one file, the status). */
  datatype ShipmentReply =
    | AlreadyShipped(waybill: string)
    | ShipmentCreated(waybill: string, estimatedDelivery: string, orderStatus: Option<string>)

  /** `create_shipment`: an order that already has a waybill is left alone. */
  function ShipStep(t: Tables, w: Wording, email: string, phone: string, orderId: string, picks: seq<nat>): Step<ShipmentReply>
    requires |picks| == 12 && forall i :: 0 <= i < 12 ==> picks[i] < 10
  {
    var access := VerifyAdminAccess(t.customers, w, email, phone);
    if access.Err? then Step(t, Err(access.error))
    else
      var k := FindOrder(t.orders, orderId);
      if k == |t.orders| then Step(t, Err(HttpError(404, "Order not found")))
      else if t.orders[k].waybillNumber != "" then Step(t, Ok(AlreadyShipped(t.orders[k].waybillNumber)))
      else
        var wb := AdminWaybill(picks);
        var shipped := t.orders[k].(waybillNumber := wb, orderStatus := Shipped, estimatedDelivery := Some(AdminEstimate));
        Step(t.(orders := t.orders[k := shipped]),
             Ok(ShipmentCreated(wb, AdminEstimate, if w.reportsShipmentStatus then Some(StatusValue(Shipped)) else None)))
  }

  method CreateShipment(db: Db, w: Wording, email: string, phone: string, orderId: string, picks: seq<nat>)
    returns (r: Result<ShipmentReply>)
    requires |picks| == 12 && forall i :: 0 <= i < 12 ==> picks[i] < 10
    modifies db
    ensures Step(db.Snapshot(), r) == ShipStep(old(db.Snapshot()), w, email, phone, orderId, picks)
  {
    var access := VerifyAdminAccess(db.customers, w, email, phone);
    if access.Err? {
      return Err(access.error);
    }
    var k := FindOrder(db.orders, orderId);
    if k == |db.orders| {
      return Err(HttpError(404, "Order not found"));
    }
    var order := db.orders[k];
    if order.waybillNumber != "" {
      return Ok(AlreadyShipped(order.waybillNumber));
    }
    var wb := AdminWaybill(picks);
    order := order.(waybillNumber := wb, orderStatus := Shipped, estimatedDelivery := Some(AdminEstimate));
    db.orders := db.orders[k := order];
    var reported := if w.reportsShipmentStatus then Some(StatusValue(order.orderStatus)) else None;
    r := Ok(ShipmentCreated(wb, AdminEstimate, reported));
  }

  /** A created shipment leaves the order SHIPPED with a 14-character "WB" waybill of digits; nothing else changes. */
  lemma ShipmentCreatedShape(t: Tables, w: Wording, email: string, phone: string, orderId: string, picks: seq<nat>)
    requires |picks| == 12 && forall i :: 0 <= i < 12 ==> picks[i] < 10
    requires ShipStep(t, w, email, phone, orderId, picks).reply.Ok?
    requires ShipStep(t, w, email, phone, orderId, picks).reply.value.ShipmentCreated?
    ensures var k := FindOrder(t.orders, orderId);
      var s := ShipStep(t, w, email, phone, orderId, picks);
      var o := s.tables.orders[k];
      k < |t.orders| && t.orders[k].waybillNumber == ""
      && o.waybillNumber == s.reply.value.waybill && |o.waybillNumber| == 14
      && StartsWith(o.waybillNumber, "WB") && AllDigits(o.waybillNumber[2..])
      && o.orderStatus == Shipped && o.estimatedDelivery == Some(AdminEstimate)
      && o == t.orders[k].(waybillNumber := o.waybillNumber, orderStatus := Shipped, estimatedDelivery := Some(AdminEstimate))
      && |s.tables.orders| == |t.orders|
      && (forall j :: 0 <= j < |t.orders| && j != k ==> s.tables.orders[j] == t.orders[j])
  {
  }

  /**
   * Shipping is one-shot: a second call, whatever digits it draws, changes nothing and answers
   * the waybill of the first.
   */
  lemma ShipmentIsOneShot(t: Tables, w: Wording, email: string, phone: string, orderId: string,
                          picks: seq<nat>, again: seq<nat>)
    requires |picks| == 12 && forall i :: 0 <= i < 12 ==> picks[i] < 10
    requires |again| == 12 && forall i :: 0 <= i < 12 ==> again[i] < 10
    requires ShipStep(t, w, email, phone, orderId, picks).reply.Ok?
    ensures var s := ShipStep(t, w, email, phone, orderId, picks);
      ShipStep(s.tables, w, email, phone, orderId, again) == Step(s.tables, Ok(AlreadyShipped(s.reply.value.waybill)))
  {
    var k := FindOrder(t.orders, orderId);
    var s := ShipStep(t, w, email, phone, orderId, picks);
    assert forall j :: 0 <= j < k ==> s.tables.orders[j] == t.orders[j];
    assert s.tables.orders[k].orderId == orderId;
    assert s.tables.orders[k].waybillNumber == s.reply.value.waybill != "";
    assert FindOrder(s.tables.orders, orderId) == k;
    assert s.tables.customers == t.customers;
  }
}

=== FILE: auth.dfy ===
/**
 * app/api/routes/auth.py: one-time-password login over the `otps` table, customer
 * find-or-create, and the profile routes. The phone rule `format_phone` is Phones.FormatPhone;
 * the clock is `now` (seconds) and the six random digits of a code are `picks`.
 */
module Auth {
  import opened Outcomes
  import opened Text
  import opened Seqs
  import opened Store
  import opened Phones

  /** `timedelta(minutes=10)`, and the `expires_in` the reply announces. */
  const OtpLifetime := 600

  /** `generate_otp`: six random decimal digits, leading zeros allowed. */
  function GenerateOtp(picks: seq<nat>): (code: string)
    requires |picks| == 6 && forall i :: 0 <= i < 6 ==> picks[i] < 10
    ensures |code| == 6 && AllDigits(code)
    ensures forall i :: 0 <= i < 6 ==> DigitValue(code[i]) == picks[i]
  {
    DigitString(picks)
  }

  /** The body of a successful `send-otp`: the phone as the caller typed it, and the code in development mode only. */
  datatype OtpSent = OtpSent(phone: string, expiresIn: int, otp: Option<string>)

  /**
   * `send_otp`. A phone that does not format to 12 digits is refused with nothing stored.
   * Otherwise one unused "login" record is committed first; `smsFailure` is the exception the
   * SMS call may raise afterwards, which the generic handler turns into a 500 while the record stays.
   */
  function SendOtpStep(t: Tables, phone: string, picks: seq<nat>, now: int, devMode: bool,
                       smsFailure: Option<string>): Step<OtpSent>
    requires |picks| == 6 && forall i :: 0 <= i < 6 ==> picks[i] < 10
  {
    var key := FormatPhone(phone);
    if |key| != 12 then Step(t, Err(HttpError(400, "Invalid phone number")))
    else
      var code := GenerateOtp(picks);
      var stored := t.(otps := t.otps + [OtpRecord(key, code, "login", false, now + OtpLifetime)]);
      if smsFailure.Some? then Step(stored, Err(HttpError(500, smsFailure.value)))
      else Step(stored, Ok(OtpSent(phone, OtpLifetime, if devMode then Some(code) else None)))
  }

  method SendOtp(db: Db, phone: string, picks: seq<nat>, now: int, devMode: bool, smsFailure: Option<string>)
    returns (r: Result<OtpSent>)
    requires |picks| == 6 && forall i :: 0 <= i < 6 ==> picks[i] < 10
    modifies db
    ensures Step(db.Snapshot(), r) == SendOtpStep(old(db.Snapshot()), phone, picks, now, devMode, smsFailure)
  {
    var key := FormatPhone(phone);
    if |key| != 12 {
      return Err(HttpError(400, "Invalid phone number"));
    }
    var code := GenerateOtp(picks);
    db.otps := db.otps + [OtpRecord(key, code, "login", false, now + OtpLifetime)];
    if smsFailure.Some? {
      return Err(HttpError(500, smsFailure.value));
    }
    r := Ok(OtpSent(phone, OtpLifetime, if devMode then Some(code) else None));
  }

  /** An accepted phone adds exactly one record: the formatted phone, a 6-digit code, unused, ten minutes to live. */
  lemma SendOtpStoresOneRecord(t: Tables, phone: string, picks: seq<nat>, now: int, devMode: bool,
                               smsFailure: Option<string>)
    requires |picks| == 6 && forall i :: 0 <= i < 6 ==> picks[i] < 10
    ensures var s := SendOtpStep(t, phone, picks, now, devMode, smsFailure);
      if |FormatPhone(phone)| != 12 then s.tables == t && s.reply == Err(HttpError(400, "Invalid phone number"))
      else
        && |s.tables.otps| == |t.otps| + 1
        && s.tables.otps[..|t.otps|] == t.otps
        && s.tables == t.(otps := s.tables.otps)
        && var rec := s.tables.otps[|t.otps|];
           rec.phone == FormatPhone(phone) && |rec.otp| == 6 && AllDigits(rec.otp)
           && !rec.isUsed && rec.expiresAt == now + 600 && rec.purpose == "login"
  {
  }

  /** The code is in the reply exactly in development mode, and then it is the stored one. */
  lemma SendOtpRevealsCodeOnlyInDevelopment(t: Tables, phone: string, picks: seq<nat>, now: int, devMode: bool)
    requires |picks| == 6 && forall i :: 0 <= i < 6 ==> picks[i] < 10
    requires |FormatPhone(phone)| == 12
    ensures var s := SendOtpStep(t, phone, picks, now, devMode, None);
      s.reply.Ok? && s.reply.value.phone == phone && s.reply.value.expiresIn == 600
      && (s.reply.value.otp.Some? <==> devMode)
      && (devMode ==> s.reply.value.otp.value == s.tables.otps[|t.otps|].otp)
  {
  }

  /** A record `verify_otp` accepts: same phone and code, not used, not yet expired. */
  predicate Live(rec: OtpRecord, phone: string, otp: string, now: int)
  {
    rec.phone == phone && rec.otp == otp && !rec.isUsed && rec.expiresAt > now
  }

  /** The `.first()` record the `verify_otp` query returns, or |otps| when there is none. */
  function FindLiveOtp(otps: seq<OtpRecord>, phone: string, otp: string, now: int): (j: nat)
    ensures j <= |otps|
    ensures j < |otps| ==> Live(otps[j], phone, otp, now)
    ensures forall i :: 0 <= i < j ==> !Live(otps[i], phone, otp, now)
  {
    FirstIndex(otps, (rec: OtpRecord) => Live(rec, phone, otp, now))
  }

  /** The body of a successful `verify-otp`. */
  datatype Login = Login(message: string, isNewUser: bool, customerKey: nat, customer: Customer)

  /** The customer a first phone login creates: verified, logged in now, nothing else known. */
  function PhoneCustomer(phone: string, now: int): Customer
  {
    Customer(Some(phone), None, None, None, None, None, None, None, true, Some(now), false)
  }

  /**
   * `verify_otp`: without a live record, 400 and nothing changes. Otherwise that record is
   * marked used, and the customer with the phone is stamped verified and logged in, or created.
   */
  function VerifyOtpStep(t: Tables, phone: string, otp: string, now: int): Step<Login>
  {
    var key := FormatPhone(phone);
    var j := FindLiveOtp(t.otps, key, otp, now);
    if j == |t.otps| then Step(t, Err(HttpError(400, "Invalid or expired OTP")))
    else
      var otps := t.otps[j := t.otps[j].(isUsed := true)];
      var k := FindCustomerByPhone(t.customers, key);
      if k == |t.customers| then
        var c := PhoneCustomer(key, now);
        Step(t.(otps := otps, customers := t.customers + [c]), Ok(Login("Account created successfully", true, k, c)))
      else
        var c := t.customers[k].(lastLogin := Some(now), isVerified := true);
        Step(t.(otps := otps, customers := t.customers[k := c]), Ok(Login("Login successful", false, k, c)))
  }

  method VerifyOtp(db: Db, phone: string, otp: string, now: int) returns (r: Result<Login>)
    modifies db
    ensures Step(db.Snapshot(), r) == VerifyOtpStep(old(db.Snapshot()), phone, otp, now)
  {
    var key := FormatPhone(phone);
    var j := FindLiveOtp(db.otps, key, otp, now);
    if j == |db.otps| {
      return Err(HttpError(400, "Invalid or expired OTP"));
    }
    db.otps := db.otps[j := db.otps[j].(isUsed := true)];
    var k := FindCustomerByPhone(db.customers, key);
    if k == |db.customers| {
      var c := PhoneCustomer(key, now);
      db.customers := db.customers + [c];
      r := Ok(Login("Account created successfully", true, k, c));
    } else {
      var c := db.customers[k].(lastLogin := Some(now), isVerified := true);
      db.customers := db.customers[k := c];
      r := Ok(Login("Login successful", false, k, c));
    }
  }

  /** Verification fails exactly when no stored record is live for the formatted phone and code, and then changes nothing. */
  lemma VerifyOtpRejects(t: Tables, phone: string, otp: string, now: int)
    ensures var s := VerifyOtpStep(t, phone, otp, now);
      (s.reply.Err? <==> forall i :: 0 <= i < |t.otps| ==> !Live(t.otps[i], FormatPhone(phone), otp, now))
      && (s.reply.Err? ==> s.tables == t && s.reply.error == HttpError(400, "Invalid or expired OTP"))
  {
    var j := FindLiveOtp(t.otps, FormatPhone(phone), otp, now);
    if j < |t.otps| {
      assert Live(t.otps[j], FormatPhone(phone), otp, now);
    }
  }

  /**
   * After a successful verification the customer with that phone exists, is verified and was
   * logged in now; `is_new_user` holds exactly when no customer had the phone; nobody else changes.
   */
  lemma VerifyOtpLogsIn(t: Tables, phone: string, otp: string, now: int)
    requires VerifyOtpStep(t, phone, otp, now).reply.Ok?
    ensures var s := VerifyOtpStep(t, phone, otp, now);
      var login := s.reply.value;
      var key := FormatPhone(phone);
      var cs := s.tables.customers;
      && login.customerKey < |cs|
      && cs[login.customerKey] == login.customer
      && login.customer.phone == Some(key) && login.customer.isVerified && login.customer.lastLogin == Some(now)
      && (login.isNewUser <==> forall i :: 0 <= i < |t.customers| ==> t.customers[i].phone != Some(key))
      && |cs| == |t.customers| + (if login.isNewUser then 1 else 0)
      && (forall i :: 0 <= i < |t.customers| && i != login.customerKey ==> cs[i] == t.customers[i])
      && s.tables.orders == t.orders && s.tables.items == t.items && s.tables.deliveries == t.deliveries
  {
    var key := FormatPhone(phone);
    var k := FindCustomerByPhone(t.customers, key);
    if k < |t.customers| {
      assert t.customers[k].phone == Some(key);
    }
  }

  /** How many stored records are live for a phone and code at a time. */
  function LiveCount(otps: seq<OtpRecord>, phone: string, otp: string, now: int): (n: nat)
    ensures n <= |otps|
  {
    if otps == [] then 0
    else (if Live(otps[0], phone, otp, now) then 1 else 0) + LiveCount(otps[1..], phone, otp, now)
  }

  /** No live record is counted exactly when none is stored. */
  lemma {:induction false} LiveCountZero(otps: seq<OtpRecord>, phone: string, otp: string, now: int)
    ensures LiveCount(otps, phone, otp, now) == 0 <==> forall i :: 0 <= i < |otps| ==> !Live(otps[i], phone, otp, now)
  {
    if otps != [] {
      LiveCountZero(otps[1..], phone, otp, now);
      assert forall i :: 1 <= i < |otps| ==> otps[i] == otps[1..][i - 1];
    }
  }

  /** Marking one live record used leaves one live record fewer. */
  lemma {:induction false} MarkUsedCount(otps: seq<OtpRecord>, j: nat, phone: string, otp: string, now: int)
    requires j < |otps| && Live(otps[j], phone, otp, now)
    ensures LiveCount(otps[j := otps[j].(isUsed := true)], phone, otp, now) == LiveCount(otps, phone, otp, now) - 1
  {
    var marked := otps[j := otps[j].(isUsed := true)];
    if j == 0 {
      assert marked[1..] == otps[1..];
    } else {
      assert marked[1..] == otps[1..][j - 1 := otps[j].(isUsed := true)];
      MarkUsedCount(otps[1..], j - 1, phone, otp, now);
    }
  }

  /** A successful verification uses up exactly one live code and no other record changes. */
  lemma VerifyOtpUsesOneCode(t: Tables, phone: string, otp: string, now: int)
    requires VerifyOtpStep(t, phone, otp, now).reply.Ok?
    ensures var s := VerifyOtpStep(t, phone, otp, now);
      var key := FormatPhone(phone);
      |s.tables.otps| == |t.otps|
      && LiveCount(s.tables.otps, key, otp, now) == LiveCount(t.otps, key, otp, now) - 1
  {
    var key := FormatPhone(phone);
    MarkUsedCount(t.otps, FindLiveOtp(t.otps, key, otp, now), key, otp, now);
  }

  /** A code issued once verifies once: with it the only live record, the same call a second time is refused. */
  lemma VerifyOtpIsSingleUse(t: Tables, phone: string, otp: string, now: int)
    requires LiveCount(t.otps, FormatPhone(phone), otp, now) == 1
    ensures var s := VerifyOtpStep(t, phone, otp, now);
      s.reply.Ok? && VerifyOtpStep(s.tables, phone, otp, now).reply.Err?
  {
    var key := FormatPhone(phone);
    LiveCountZero(t.otps, key, otp, now);
    VerifyOtpRejects(t, phone, otp, now);
    var s := VerifyOtpStep(t, phone, otp, now);
    VerifyOtpUsesOneCode(t, phone, otp, now);
    LiveCountZero(s.tables.otps, key, otp, now);
    VerifyOtpRejects(s.tables, phone, otp, now);
  }

  /** The code `send-otp` stored verifies, for the same phone as typed, at any time before it expires. */
  lemma SendThenVerify(t: Tables, phone: string, picks: seq<nat>, sentAt: int, devMode: bool, now: int)
    requires |picks| == 6 && forall i :: 0 <= i < 6 ==> picks[i] < 10
    requires |FormatPhone(phone)| == 12
    requires now < sentAt + 600
    ensures var s := SendOtpStep(t, phone, picks, sentAt, devMode, None);
      VerifyOtpStep(s.tables, phone, GenerateOtp(picks), now).reply.Ok?
  {
    var s := SendOtpStep(t, phone, picks, sentAt, devMode, None);
    assert Live(s.tables.otps[|t.otps|], FormatPhone(phone), GenerateOtp(picks), now);
    VerifyOtpRejects(s.tables, phone, GenerateOtp(picks), now);
  }

  /** The profile fields `update-profile` may set; only the truthy ones are written. */
  datatype ProfileUpdate = ProfileUpdate(
    fullName: string,
    email: Option<string>,
    address: Option<string>,
    city: Option<string>,
    state: Option<string>,
    pincode: Option<string>)

  function Overwrite(given: Option<string>, current: Option<string>): Option<string>
  {
    if Given(given) then given else current
  }

  /** The six `if request.x: customer.x = request.x` assignments. */
  function Merge(c: Customer, u: ProfileUpdate): Customer
  {
    c.(fullName := if u.fullName != "" then Some(u.fullName) else c.fullName,
       email := Overwrite(u.email, c.email),
       address := Overwrite(u.address, c.address),
       city := Overwrite(u.city, c.city),
       state := Overwrite(u.state, c.state),
       pincode := Overwrite(u.pincode, c.pincode))
  }

  /** Merging the same update twice is merging it once. */
  lemma MergeIdempotent(c: Customer, u: ProfileUpdate)
    ensures Merge(Merge(c, u), u) == Merge(c, u)
  {
  }

  /** A field changes only when the update gives it a non-empty value; phone, Google id, verification and role never change. */
  lemma MergeTouchesOnlyGivenFields(c: Customer, u: ProfileUpdate)
    ensures var m := Merge(c, u);
      && m.phone == c.phone && m.googleId == c.googleId && m.isVerified == c.isVerified
      && m.lastLogin == c.lastLogin && m.isAdmin == c.isAdmin
      && (m.email != c.email ==> Given(u.email) && m.email == u.email)
      && (m.address != c.address ==> Given(u.address) && m.address == u.address)
      && (m.city != c.city ==> Given(u.city) && m.city == u.city)
      && (m.state != c.state ==> Given(u.state) && m.state == u.state)
      && (m.pincode != c.pincode ==> Given(u.pincode) && m.pincode == u.pincode)
      && (m.fullName != c.fullName ==> u.fullName != "" && m.fullName == Some(u.fullName))
      && (Given(u.email) ==> m.email == u.email)
  {
  }

  /** The profile `update-profile` answers with, and `get-profile` returns. */
  datatype Profile = Profile(customerKey: nat, customer: Customer)

  /** The phone query parameter (formatted) wins over the email one; "" stands for a missing parameter. */
  function ProfileLookup(customers: seq<Customer>, phone: string, email: string): nat
    requires phone != "" || email != ""
  {
    if phone != "" then FindCustomerByPhone(customers, FormatPhone(phone))
    else FindCustomerByEmail(customers, email)
  }

  /** `update_profile`: 400 without phone or email, 404 for nobody, else the customer is merged with the update. */
  function UpdateProfileStep(t: Tables, phone: string, email: string, u: ProfileUpdate): Step<Profile>
  {
    if phone == "" && email == "" then Step(t, Err(HttpError(400, "Phone or email required")))
    else
      var k := ProfileLookup(t.customers, phone, email);
      if k == |t.customers| then Step(t, Err(HttpError(404, "Customer not found")))
      else
        var c := Merge(t.customers[k], u);
        Step(t.(customers := t.customers[k := c]), Ok(Profile(k, c)))
  }

  method UpdateProfile(db: Db, phone: string, email: string, u: ProfileUpdate) returns (r: Result<Profile>)
    modifies db
    ensures Step(db.Snapshot(), r) == UpdateProfileStep(old(db.Snapshot()), phone, email, u)
  {
    if phone == "" && email == "" {
      return Err(HttpError(400, "Phone or email required"));
    }
    var k := ProfileLookup(db.customers, phone, email);
    if k == |db.customers| {
      return Err(HttpError(404, "Customer not found"));
    }
    var c := Merge(db.customers[k], u);
    db.customers := db.customers[k := c];
    r := Ok(Profile(k, c));
  }

  /**
   * Refusals change nothing: 400 exactly when neither phone nor email is given, 404 exactly when
   * one is given and nobody matches. A success rewrites one customer, the one the lookup found,
   * and nothing else.
   */
  lemma UpdateProfileEffect(t: Tables, phone: string, email: string, u: ProfileUpdate)
    ensures var s := UpdateProfileStep(t, phone, email, u);
      && (s.reply.Err? ==> s.tables == t)
      && (s.reply.Err? && phone == "" && email == "" ==> s.reply.error.status == 400)
      && (phone == "" && email == "" <==> s.reply == Err(HttpError(400, "Phone or email required")))
      && (((phone != "" || email != "") && ProfileLookup(t.customers, phone, email) == |t.customers|)
          <==> s.reply == Err(HttpError(404, "Customer not found")))
      && (s.reply.Ok? ==>
            var k := s.reply.value.customerKey;
            && k < |t.customers|
            && (phone != "" ==> t.customers[k].phone == Some(FormatPhone(phone)))
            && (phone == "" ==> t.customers[k].email == Some(email))
            && s.tables == t.(customers := t.customers[k := Merge(t.customers[k], u)]))
  {
  }

  /** Looked up by phone, repeating an update leaves the same tables as making it once. */
  lemma UpdateProfileByPhoneIdempotent(t: Tables, phone: string, u: ProfileUpdate)
    requires phone != ""
    ensures var once := UpdateProfileStep(t, phone, "", u);
      UpdateProfileStep(once.tables, phone, "", u).tables == once.tables
  {
    var once := UpdateProfileStep(t, phone, "", u);
    var k := FindCustomerByPhone(t.customers, FormatPhone(phone));
    if k < |t.customers| {
      var cs := once.tables.customers;
      assert forall j :: 0 <= j < |cs| ==> (cs[j].phone == t.customers[j].phone);
      assert FindCustomerByPhone(cs, FormatPhone(phone)) == k;
      MergeIdempotent(t.customers[k], u);
    }
  }

  /** `get_profile`: an all-digit identifier is a phone (formatted), anything else an email. */
  function GetProfile(customers: seq<Customer>, identifier: string): (r: Result<Profile>)
    ensures r.Err? <==>
      (if IsDigitString(identifier) then forall i :: 0 <= i < |customers| ==> customers[i].phone != Some(FormatPhone(identifier))
       else forall i :: 0 <= i < |customers| ==> customers[i].email != Some(identifier))
    ensures r.Err? ==> r.error == HttpError(404, "Customer not found")
    ensures r.Ok? ==>
      && r.value.customerKey < |customers| && r.value.customer == customers[r.value.customerKey]
      && (IsDigitString(identifier) ==> r.value.customer.phone == Some(FormatPhone(identifier)))
      && (!IsDigitString(identifier) ==> r.value.customer.email == Some(identifier))
  {
    var k := if IsDigitString(identifier) then FindCustomerByPhone(customers, FormatPhone(identifier))
             else FindCustomerByEmail(customers, identifier);
    if k == |customers| then Err(HttpError(404, "Customer not found")) else Ok(Profile(k, customers[k]))
  }

  /** `authType`: "google" exactly for a customer with a (non-empty) Google id. */
  function AuthType(c: Customer): (kind: string)
    ensures kind == "google" <==> Given(c.googleId)
    ensures kind == "google" || kind == "phone"
  {
    if Given(c.googleId) then "google" else "phone"
  }

  /** A customer created by phone login is found again by `get-profile` with the digits typed, and is a phone account. */
  lemma PhoneLoginThenProfile(t: Tables, phone: string, otp: string, now: int)
    requires IsDigitString(phone)
    requires VerifyOtpStep(t, phone, otp, now).reply.Ok?
    ensures var s := VerifyOtpStep(t, phone, otp, now);
      var p := GetProfile(s.tables.customers, phone);
      p.Ok? && p.value.customer.phone == Some(FormatPhone(phone))
      && (s.reply.value.isNewUser ==> AuthType(p.value.customer) == "phone")
  {
    VerifyOtpLogsIn(t, phone, otp, now);
    var s := VerifyOtpStep(t, phone, otp, now);
    var k := s.reply.value.customerKey;
    assert s.tables.customers[k].phone == Some(FormatPhone(phone));
  }
}

=== FILE: contact.dfy ===
/**
 * The in-memory lists of app/api/routes/contact.py: contact-form submissions and newsletter
 * subscribers, both only ever appended to. The submission time is an input.
 */
module Contact {

  datatype Submission = Submission(
    id: nat,
    name: string,
    email: string,
    phone: string,
    subject: string,
    message: string,
    status: string,
    submittedAt: string)

  /** The answer of `subscribe_newsletter`. */
  datatype SubscribeReply = AlreadySubscribed | Subscribed(email: string)

  /** Ids run 1, 2, ... in list order. */
  predicate SequentialIds(submissions: seq<Submission>)
  {
    forall i :: 0 <= i < |submissions| ==> submissions[i].id == i + 1
  }

  predicate NoDuplicates(emails: seq<string>)
  {
    forall i, j :: 0 <= i < j < |emails| ==> emails[i] != emails[j]
  }

  /** `submissions` after `get_all_submissions`: how many there are. */
  function Total(submissions: seq<Submission>): (n: nat)
    requires SequentialIds(submissions)
    ensures n == |submissions|
    ensures n > 0 ==> submissions[n - 1].id == n
  {
    |submissions|
  }

  /** Appending an entry numbered one past the count keeps the ids sequential. */
  lemma AppendKeepsIdsSequential(submissions: seq<Submission>, s: Submission)
    requires SequentialIds(submissions) && s.id == |submissions| + 1
    ensures SequentialIds(submissions + [s])
  {
  }

  /** Appending an address not yet present keeps the list free of duplicates. */
  lemma AppendKeepsNoDuplicates(emails: seq<string>, e: string)
    requires NoDuplicates(emails) && e !in emails
    ensures NoDuplicates(emails + [e])
  {
  }

  class ContactBook {
    /** `CONTACT_SUBMISSIONS`. */
    var submissions: seq<Submission>
    /** `NEWSLETTER_SUBSCRIBERS`. */
    var subscribers: seq<string>

    predicate Valid()
      reads this
    {
      SequentialIds(submissions) && NoDuplicates(subscribers)
    }

    constructor ()
      ensures Valid() && submissions == [] && subscribers == []
    {
      submissions := [];
      subscribers := [];
    }

    /** `submit_contact_form`: one entry appended, numbered one past the count, status "pending"; the ticket id is its id. */
    method SubmitContactForm(name: string, email: string, phone: string, subject: string, message: string,
                             submittedAt: string) returns (ticketId: nat)
      requires Valid()
      modifies this
      ensures Valid()
      ensures ticketId == |old(submissions)| + 1
      ensures submissions == old(submissions)
        + [Submission(ticketId, name, email, phone, subject, message, "pending", submittedAt)]
      ensures subscribers == old(subscribers)
    {
      var submission := Submission(|submissions| + 1, name, email, phone, subject, message, "pending", submittedAt);
      AppendKeepsIdsSequential(submissions, submission);
      submissions := submissions + [submission];
      ticketId := submission.id;
    }

    /** `subscribe_newsletter`: an address already present changes nothing; a new one goes at the end. */
    method SubscribeNewsletter(email: string) returns (reply: SubscribeReply)
      requires Valid()
      modifies this
      ensures Valid()
      ensures old(email in subscribers) ==> reply == AlreadySubscribed && subscribers == old(subscribers)
      ensures old(email !in subscribers) ==> reply == Subscribed(email) && subscribers == old(subscribers) + [email]
      ensures submissions == old(submissions)
    {
      if email in subscribers {
        return AlreadySubscribed;
      }
      AppendKeepsNoDuplicates(subscribers, email);
      subscribers := subscribers + [email];
      reply := Subscribed(email);
    }

    /** `get_all_submissions`: the count and the list, in submission order. */
    method GetAllSubmissions() returns (total: nat, all: seq<Submission>)
      requires Valid()
      ensures total == |all| && all == submissions
      ensures forall i :: 0 <= i < total ==> all[i].id == i + 1
    {
      all := submissions;
      total := Total(submissions);
    }
  }
}

=== FILE: delivery.dfy ===
/**
 * The delivery routes of app/api/routes/delivery.py: the pincode check with its city fallback,
 * the delivery estimate with its max-days parse, the calculate-shipping response, and the
 * courier status update that stamps milestones and appends to the tracking history. The shipping
 * service is consulted through its model; its debug flag, the courier endpoint's reply and the
 * clock are inputs.
 */
module DeliveryRoutes {
  import opened Outcomes
  import opened Text
  import opened Store
  import S = ShiprocketService

  // ---------------------------------------------------------------- pincode check

  /** `len(pincode) == 6 and pincode.isdigit()`. */
  predicate ValidPincode(p: string)
  {
    |p| == 6 && IsDigitString(p)
  }

  /** What the check-pincode endpoint answers. */
  datatype PincodeReply = PincodeReply(
    serviceable: bool,
    pincode: string,
    city: string,
    state: string,
    codAvailable: bool,
    prepaidAvailable: bool,
    estimatedDays: S.Field,
    shippingCharge: real,
    courierName: string)

  /** The route's own prefix table, used only when the service gave no usable city. */
  const FallbackCities: map<string, S.Location> := map[
    "110" := S.Location("Delhi", "Delhi"),
    "212" := S.Location("Jhansi", "Uttar Pradesh"),
    "400" := S.Location("Mumbai", "Maharashtra")
  ]

  /** The response built from the service's answer with `result.get(key, default)`; a negative answer carries none of the keys. */
  function ReplyOf(pincode: string, r: S.Serviceability): PincodeReply
  {
    match r
    case Serviceable(_, city, state, cod, charge, _, eta, courier, _, _) =>
      PincodeReply(true, pincode, city, state, cod, true, eta, charge, courier)
    case NotServiceable(_, _) =>
      PincodeReply(false, pincode, "", "", true, true, S.Str("3-5 days"), 50.0, "Shiprocket")
  }

  /** City and state are replaced from the prefix table when the city is empty or "Unknown". */
  function WithFallback(reply: PincodeReply): PincodeReply
  {
    var prefix := Take(reply.pincode, 3);
    if (reply.city == "" || reply.city == "Unknown") && prefix in FallbackCities then
      reply.(city := FallbackCities[prefix].city, state := FallbackCities[prefix].state)
    else reply
  }

  /** `check_pincode_serviceability`: 400 for a malformed pincode, before the service is asked. */
  function CheckPincode(debug: bool, rates: S.CourierReply, pincode: string): (r: Result<PincodeReply>)
    ensures r.Err? <==> !ValidPincode(pincode)
    ensures r.Err? ==> r.error == HttpError(400, "Invalid pincode format")
    ensures r.Ok? ==> r.value.pincode == pincode && r.value.prepaidAvailable
    ensures r.Ok? ==> (r.value.serviceable <==> S.CheckPincodeServiceability(debug, rates, pincode).Serviceable?)
  {
    if !ValidPincode(pincode) then Err(HttpError(400, "Invalid pincode format"))
    else Ok(WithFallback(ReplyOf(pincode, S.CheckPincodeServiceability(debug, rates, pincode))))
  }

  /**
   * The service's city and state are kept unless the city is empty or "Unknown"; then, for the
   * prefixes 110, 212 and 400, they come from the route's table, and otherwise they stay.
   */
  lemma CityFallback(debug: bool, rates: S.CourierReply, pincode: string)
    requires ValidPincode(pincode)
    ensures var given := ReplyOf(pincode, S.CheckPincodeServiceability(debug, rates, pincode));
      var r := CheckPincode(debug, rates, pincode).value;
      var prefix := pincode[..3];
      (given.city != "" && given.city != "Unknown" ==> r == given)
      && (prefix !in FallbackCities ==> r == given)
      && ((given.city == "" || given.city == "Unknown") && prefix in FallbackCities ==>
            S.Location(r.city, r.state) == FallbackCities[prefix]
            && r == given.(city := r.city, state := r.state))
      && (prefix in FallbackCities ==> r.city != "" && r.city != "Unknown")
  {
  }

  lemma JhansiPincode()
    ensures ValidPincode("212601") && Take("212601", 3) == "212" && "212601"[..3] == "212"
  {
    assert "212601"[..3] == "212";
    assert IsDigit("212601"[5]);
  }

  lemma ServiceTable212()
    ensures S.LocationOf("212") == S.Location("Fatehpur", "Uttar Pradesh")
  {
    assert "212" in S.PincodeDatabase;
  }

  /** In development the service's table answers Fatehpur for 212601, and the route keeps it. */
  lemma DevelopmentPincode212(rates: S.CourierReply)
    ensures CheckPincode(true, rates, "212601").value.city == "Fatehpur"
  {
    JhansiPincode();
    ServiceTable212();
    assert S.MockServiceability("212601").city == "Fatehpur";
  }

  /** When the live service fails, the route's own table answers Jhansi for the same pincode. */
  lemma FailedPincode212()
    ensures CheckPincode(false, S.RequestRaised, "212601").value.city == "Jhansi"
    ensures !CheckPincode(false, S.RequestRaised, "212601").value.serviceable
  {
    JhansiPincode();
  }

  // ---------------------------------------------------------------- delivery estimate

  /** Python `int(w)` for a word without whitespace or '-': digits, optionally after a '+'; None where it raises. */
  function IntOf(w: string): (v: Option<nat>)
    ensures IsDigitString(w) ==> v == Some(ValueOf(w))
    ensures v.Some? ==> IsDigitString(w) || (|w| > 1 && w[0] == '+' && IsDigitString(w[1..]))
  {
    if IsDigitString(w) then Some(ValueOf(w))
    else if |w| > 1 && w[0] == '+' && IsDigitString(w[1..]) then Some(ValueOf(w[1..]))
    else None
  }

  /** `s.split("-")[1]`: the text between the first '-' and the next one; None where there is no '-'. */
  function AfterDash(s: string): (r: Option<string>)
    ensures r.None? <==> forall j :: 0 <= j < |s| ==> s[j] != '-'
  {
    var i := IndexOf(s, '-');
    if i == |s| then None
    else
      var rest := s[i + 1..];
      Some(rest[..IndexOf(rest, '-')])
  }

  /** `s.split()[0]`: the first whitespace-separated word; None where there is none. */
  function FirstWord(s: string): (r: Option<string>)
    ensures r.Some? ==> r.value != [] && forall j :: 0 <= j < |r.value| ==> !IsSpace(r.value[j])
  {
    var t := SkipSpaces(s);
    if t == [] then None else Some(t[..WordEnd(t)])
  }

  /**
   * `int(estimated_days_str.split("-")[1].split()[0])`, falling back to 5 whenever that raises:
   * not a string, no '-', nothing but whitespace after it, or a word that is not a number.
   */
  function MaxDays(eta: S.Field): nat
  {
    if !eta.Str? then 5
    else
      var part := AfterDash(eta.s);
      if part.None? then 5
      else
        var w := FirstWord(part.value);
        if w.None? then 5
        else
          var v := IntOf(w.value);
          if v.Some? then v.value else 5
  }

  lemma {:induction false} AfterDashOfRange(a: string, rest: string)
    requires forall j :: 0 <= j < |a| ==> a[j] != '-'
    requires forall j :: 0 <= j < |rest| ==> rest[j] != '-'
    ensures AfterDash(a + "-" + rest) == Some(rest)
  {
    var s := a + "-" + rest;
    assert s == a + ("-" + rest);
    assert ("-" + rest)[0] == '-';
    IndexOfAppend(a, "-" + rest, '-');
    assert IndexOf(s, '-') == |a|;
    assert s[|a| + 1..] == rest;
    assert IndexOf(rest, '-') == |rest|;
    assert rest[..|rest|] == rest;
  }

  lemma {:induction false} FirstWordOf(w: string, rest: string)
    requires w != [] && forall j :: 0 <= j < |w| ==> !IsSpace(w[j])
    requires rest != [] && IsSpace(rest[0])
    ensures FirstWord(w + rest) == Some(w)
  {
    assert (w + rest)[0] == w[0];
    assert SkipSpaces(w + rest) == w + rest;
    WordEndAt(w, rest);
    assert (w + rest)[..|w|] == w;
  }

  /** Digits followed by " days" hold no '-'. */
  lemma NoDashInDays(b: string)
    requires AllDigits(b)
    ensures forall j :: 0 <= j < |b + " days"| ==> (b + " days")[j] != '-'
  {
    var rest := b + " days";
    assert forall j :: 0 <= j < |b| ==> rest[j] == b[j];
    assert forall j :: |b| <= j < |rest| ==> rest[j] == " days"[j - |b|];
  }

  /** Digits hold no whitespace. */
  lemma NoSpaceInDigits(b: string)
    requires AllDigits(b)
    ensures forall j :: 0 <= j < |b| ==> !IsSpace(b[j])
  {
    assert forall j :: 0 <= j < |b| ==> IsDigit(b[j]);
  }

  /** A range "a-b days" yields its upper bound `b`. */
  lemma MaxDaysOfRange(a: string, b: string)
    requires forall j :: 0 <= j < |a| ==> a[j] != '-'
    requires IsDigitString(b)
    ensures MaxDays(S.Str(a + "-" + b + " days")) == ValueOf(b)
  {
    var rest := b + " days";
    NoDashInDays(b);
    AfterDashOfRange(a, rest);
    assert a + "-" + b + " days" == a + "-" + rest;
    NoSpaceInDigits(b);
    assert IsSpace(" days"[0]);
    FirstWordOf(b, " days");
    assert AfterDash(a + "-" + b + " days") == Some(rest);
    assert FirstWord(rest) == Some(b);
    assert IntOf(b) == Some(ValueOf(b));
  }

  lemma SingleDigits()
    ensures IsDigitString("3") && IsDigitString("5") && IsDigitString("7")
    ensures ValueOf("5") == 5 && ValueOf("7") == 7
    ensures "3" + "-" + "5" + " days" == "3-5 days" && "5" + "-" + "7" + " days" == "5-7 days"
  {
    assert IsDigit("3"[0]) && IsDigit("5"[0]) && IsDigit("7"[0]);
  }

  /** "3-5 days" gives 5 and "5-7 days" gives 7. */
  lemma MaxDaysExamples()
    ensures MaxDays(S.Str("3-5 days")) == 5
    ensures MaxDays(S.Str("5-7 days")) == 7
  {
    SingleDigits();
    MaxDaysOfRange("3", "5");
    MaxDaysOfRange("5", "7");
  }

  /** Without a '-' the parse fails and 5 is used: "3 days" gives 5, as does a number. */
  lemma MaxDaysWithoutRange(n: real)
    ensures MaxDays(S.Str("3 days")) == 5
    ensures MaxDays(S.Num(n)) == 5
  {
    assert IndexOf("3 days", '-') == 6;
  }

  /** What the estimate endpoint answers; the date is the clock plus `maxDays` days, in seconds. */
  datatype Estimate = Estimate(
    pincode: string,
    serviceable: bool,
    estimatedDays: S.Field,
    maxDays: nat,
    estimatedDate: int,
    courierName: string)

  const SecondsPerDay: int := 86400

  /**
   * `get_estimated_delivery`. Its catch-all handler also catches the 400 raised for a malformed
   * pincode, so that case reaches the client as a 500 whose detail is the 400's text.
   */
  function GetEstimatedDelivery(debug: bool, rates: S.CourierReply, pincode: string, now: int): (r: Result<Estimate>)
    ensures r.Err? <==> !ValidPincode(pincode)
    ensures r.Err? ==> r.error == HttpError(500, "400: Invalid pincode format")
    ensures r.Ok? ==>
      var answer := S.CheckPincodeServiceability(debug, rates, pincode);
      r.value.maxDays == MaxDays(r.value.estimatedDays)
      && r.value.estimatedDate == now + r.value.maxDays * SecondsPerDay
      && (r.value.serviceable <==> answer.Serviceable?)
      && r.value.estimatedDays == (if answer.Serviceable? then answer.estimatedDays else S.Str("3-5 days"))
  {
    if !ValidPincode(pincode) then Err(HttpError(500, "400: Invalid pincode format"))
    else
      var answer := S.CheckPincodeServiceability(debug, rates, pincode);
      var eta := if answer.Serviceable? then answer.estimatedDays else S.Str("3-5 days");
      var days := MaxDays(eta);
      Ok(Estimate(pincode, answer.Serviceable?, eta, days, now + days * SecondsPerDay,
                  if answer.Serviceable? then answer.courierName else "Shiprocket"))
  }

  /** In development a metro pincode is promised in 5 days and any other in 7. */
  lemma DevelopmentEstimate(rates: S.CourierReply, pincode: string, now: int)
    requires ValidPincode(pincode)
    ensures GetEstimatedDelivery(true, rates, pincode, now).value.maxDays == if S.IsMetro(pincode) then 5 else 7
  {
    MaxDaysExamples();
  }

  /** When the service is unreachable the estimate still answers, five days out. */
  lemma FailedServiceEstimate(pincode: string, now: int)
    requires ValidPincode(pincode)
    ensures var r := GetEstimatedDelivery(false, S.RequestRaised, pincode, now).value;
      !r.serviceable && r.maxDays == 5 && r.estimatedDate == now + 5 * SecondsPerDay
  {
    MaxDaysExamples();
  }

  // ---------------------------------------------------------------- calculate-shipping

  /** What the calculate-shipping endpoint answers. */
  datatype ShippingReply = ShippingReply(
    pincode: string,
    weight: real,
    shippingCharge: real,
    codCharge: real,
    totalCharge: real,
    estimatedDays: string)

  /** Comparing a missing `cod_amount` with 0 raises TypeError; the handler turns it into a 500. */
  const MissingCodAmount: HttpError := HttpError(500, "'>' not supported between instances of 'NoneType' and 'int'")

  /**
   * The handler as written: it reads `freight_charge`, `cod_charges` and
   * `estimated_delivery_days`, keys the service never returns, so those three are always their
   * defaults; only `total_charge` comes through.
   */
  function CalculateShippingAsWritten(debug: bool, rates: S.CourierReply, pincode: string, weight: real,
                                      codAmount: Option<real>): (r: Result<ShippingReply>)
    ensures r.Err? <==> codAmount.None?
    ensures r.Ok? ==> r.value.shippingCharge == 50.0 && r.value.codCharge == 0.0
                      && r.value.estimatedDays == "3-5 days"
    ensures r.Ok? ==> r.value.totalCharge == S.CalculateShippingCharges(debug, rates, pincode, weight, codAmount.value).totalCharge
  {
    if codAmount.None? then Err(MissingCodAmount)
    else
      var q := S.CalculateShippingCharges(debug, rates, pincode, weight, codAmount.value);
      Ok(ShippingReply(pincode, weight, 50.0, 0.0, q.totalCharge, "3-5 days"))
  }

  lemma MetroPincode()
    ensures S.IsMetro("110001")
  {
    assert Take("110001", 3) == "110";
  }

  /** A 0.5 kg prepaid parcel to 110001 in development: the total is 35, yet the shipping charge reads 50. */
  lemma CalculateShippingAsWrittenDisagrees(rates: S.CourierReply)
    ensures var r := CalculateShippingAsWritten(true, rates, "110001", 0.5, Some(0.0)).value;
      r.totalCharge == 35.0 && r.shippingCharge == 50.0
      && r.shippingCharge + r.codCharge != r.totalCharge
  {
    MetroPincode();
  }

  /** The handler reading the keys the service does return. */
  function CalculateShipping(debug: bool, rates: S.CourierReply, pincode: string, weight: real,
                             codAmount: Option<real>): (r: Result<ShippingReply>)
    ensures r.Err? <==> codAmount.None?
    ensures r.Ok? ==> r.value.totalCharge == r.value.shippingCharge + r.value.codCharge
    ensures r.Ok? && codAmount.value <= 0.0 ==> r.value.codCharge == 0.0
    ensures r.Ok? ==> Contains(Lower(r.value.estimatedDays), "days")
    ensures r.Ok? ==> r.value.pincode == pincode && r.value.weight == weight
  {
    if codAmount.None? then Err(MissingCodAmount)
    else
      var q := S.CalculateShippingCharges(debug, rates, pincode, weight, codAmount.value);
      Ok(ShippingReply(pincode, weight, q.shippingCharge, q.codCharge, q.totalCharge, q.estimatedDays))
  }

  /** Both handlers agree on the total; the corrected one also reports the service's charges. */
  lemma CalculateShippingAgreesOnTotal(debug: bool, rates: S.CourierReply, pincode: string, weight: real, codAmount: real)
    ensures var fixed := CalculateShipping(debug, rates, pincode, weight, Some(codAmount)).value;
      var q := S.CalculateShippingCharges(debug, rates, pincode, weight, codAmount);
      fixed.totalCharge == CalculateShippingAsWritten(debug, rates, pincode, weight, Some(codAmount)).value.totalCharge
      && fixed.shippingCharge == q.shippingCharge && fixed.codCharge == q.codCharge
  {
  }

  // ---------------------------------------------------------------- status update

  /** The request body of update-status. */
  datatype StatusUpdate = StatusUpdate(status: string, location: Option<string>, description: Option<string>)

  /** Which milestone timestamp a courier status sets. */
  datatype Milestone = PickedUp | InTransit | OutForDelivery | Arrived | NoMilestone

  /** The first keyword found in the lower-cased status: picked/pickup, transit, "out for delivery", delivered. */
  function Classify(status: string): Milestone
  {
    ClassifyLower(Lower(status))
  }

  /** The keyword scan over an already lower-cased status. */
  function ClassifyLower(s: string): Milestone
  {
    if Contains(s, "picked") || Contains(s, "pickup") then PickedUp
    else if Contains(s, "transit") then InTransit
    else if Contains(s, "out for delivery") then OutForDelivery
    else if Contains(s, "delivered") then Arrived
    else NoMilestone
  }

  /** The delivery row after the milestone of `m` is stamped with `now`. */
  function Stamp(d: Delivery, m: Milestone, now: int): Delivery
  {
    match m
    case PickedUp => d.(pickedUpAt := Some(now))
    case InTransit => d.(inTransitAt := Some(now))
    case OutForDelivery => d.(outForDeliveryAt := Some(now))
    case Arrived => d.(deliveredAt := Some(now))
    case NoMilestone => d
  }

  /** The history entry of an update; `location` is the delivery's location after the update. */
  function Entry(u: StatusUpdate, location: Option<string>, now: int): TrackingEntry
  {
    TrackingEntry(u.status, location, now, if Given(u.description) then u.description.value else "Package " + u.status)
  }

  /** What a successful update answers. */
  datatype StatusUpdated = StatusUpdated(waybillNumber: string, status: string)

  /** `update_delivery_status` on the tables `t`, at time `now`. */
  function UpdateStatusStep(t: Tables, waybill: string, u: StatusUpdate, now: int): Step<StatusUpdated>
  {
    var k := FindDeliveryByWaybill(t.deliveries, waybill);
    if k == |t.deliveries| then Step(t, Err(HttpError(404, "Delivery not found")))
    else
      var d := t.deliveries[k];
      var location := if Given(u.location) then u.location else d.currentLocation;
      var m := Classify(u.status);
      var stamped := Stamp(d.(currentStatus := u.status, currentLocation := location), m, now);
      var updated := stamped.(trackingHistory := stamped.trackingHistory + [Entry(u, location, now)]);
      var orders :=
        if m == Arrived && d.orderKey < |t.orders| then
          t.orders[d.orderKey := t.orders[d.orderKey].(orderStatus := Delivered, deliveredAt := Some(now))]
        else t.orders;
      Step(t.(orders := orders, deliveries := t.deliveries[k := updated]), Ok(StatusUpdated(waybill, u.status)))
  }

  /** `update_delivery_status`: assigns the delivery's fields one by one and appends to its history. */
  method UpdateDeliveryStatus(db: Db, waybill: string, u: StatusUpdate, now: int) returns (r: Result<StatusUpdated>)
    modifies db
    ensures Step(db.Snapshot(), r) == UpdateStatusStep(old(db.Snapshot()), waybill, u, now)
  {
    var k := FindDeliveryByWaybill(db.deliveries, waybill);
    if k == |db.deliveries| {
      return Err(HttpError(404, "Delivery not found"));
    }
    var d := db.deliveries[k];
    d := d.(currentStatus := u.status);
    if Given(u.location) {
      d := d.(currentLocation := u.location);
    }
    var m := Classify(u.status);
    if m == PickedUp {
      d := d.(pickedUpAt := Some(now));
    } else if m == InTransit {
      d := d.(inTransitAt := Some(now));
    } else if m == OutForDelivery {
      d := d.(outForDeliveryAt := Some(now));
    } else if m == Arrived {
      d := d.(deliveredAt := Some(now));
      if d.orderKey < |db.orders| {
        var o := db.orders[d.orderKey];
        db.orders := db.orders[d.orderKey := o.(orderStatus := Delivered, deliveredAt := Some(now))];
      }
    }
    var description := if Given(u.description) then u.description.value else "Package " + u.status;
    d := d.(trackingHistory := d.trackingHistory + [TrackingEntry(u.status, d.currentLocation, now, description)]);
    db.deliveries := db.deliveries[k := d];
    r := Ok(StatusUpdated(waybill, u.status));
  }

  /** An unknown waybill is a 404 and changes nothing; a known one always succeeds. */
  lemma UpdateStatusUnknownWaybill(t: Tables, waybill: string, u: StatusUpdate, now: int)
    ensures var s := UpdateStatusStep(t, waybill, u, now);
      (s.reply.Err? <==> forall j :: 0 <= j < |t.deliveries| ==> t.deliveries[j].waybillNumber != waybill)
      && (s.reply.Err? ==> s == Step(t, Err(HttpError(404, "Delivery not found"))))
  {
  }

  /**
   * The history grows by exactly one entry at the end, earlier entries unchanged; the entry
   * records the status, the location after the update, the time, and the description or
   * "Package <status>". The status is set, and the location only when one was given.
   */
  lemma UpdateStatusHistory(t: Tables, waybill: string, u: StatusUpdate, now: int)
    requires UpdateStatusStep(t, waybill, u, now).reply.Ok?
    ensures var k := FindDeliveryByWaybill(t.deliveries, waybill);
      var before := t.deliveries[k];
      var after := UpdateStatusStep(t, waybill, u, now).tables.deliveries[k];
      var h := after.trackingHistory;
      k < |t.deliveries|
      && |h| == |before.trackingHistory| + 1
      && h[..|before.trackingHistory|] == before.trackingHistory
      && h[|h| - 1].status == u.status && h[|h| - 1].timestamp == now
      && h[|h| - 1].location == after.currentLocation
      && h[|h| - 1].description == (if Given(u.description) then u.description.value else "Package " + u.status)
      && after.currentStatus == u.status
      && after.currentLocation == (if Given(u.location) then u.location else before.currentLocation)
      && after.waybillNumber == before.waybillNumber && after.orderKey == before.orderKey
  {
    var k := FindDeliveryByWaybill(t.deliveries, waybill);
    var after := UpdateStatusStep(t, waybill, u, now).tables.deliveries[k];
    assert after.trackingHistory[..|t.deliveries[k].trackingHistory|] == t.deliveries[k].trackingHistory;
  }

  /** How many of the four milestone timestamps differ between two versions of a delivery. */
  function ChangedMilestones(before: Delivery, after: Delivery): nat
  {
    (if after.pickedUpAt != before.pickedUpAt then 1 else 0)
    + (if after.inTransitAt != before.inTransitAt then 1 else 0)
    + (if after.outForDeliveryAt != before.outForDeliveryAt then 1 else 0)
    + (if after.deliveredAt != before.deliveredAt then 1 else 0)
  }

  /** At most one milestone is stamped, and it is the classified one, at `now`. */
  lemma UpdateStatusOneMilestone(t: Tables, waybill: string, u: StatusUpdate, now: int)
    requires UpdateStatusStep(t, waybill, u, now).reply.Ok?
    ensures var k := FindDeliveryByWaybill(t.deliveries, waybill);
      var before := t.deliveries[k];
      var after := UpdateStatusStep(t, waybill, u, now).tables.deliveries[k];
      var m := Classify(u.status);
      ChangedMilestones(before, after) <= 1
      && (m == NoMilestone ==> ChangedMilestones(before, after) == 0)
      && (m == PickedUp ==> after.pickedUpAt == Some(now))
      && (m == InTransit ==> after.inTransitAt == Some(now))
      && (m == OutForDelivery ==> after.outForDeliveryAt == Some(now))
      && (m == Arrived ==> after.deliveredAt == Some(now))
  {
  }

  /**
   * Only a "delivered" status touches the orders: the linked order becomes DELIVERED at `now`,
   * and no other order changes. Other tables and other deliveries are never touched.
   */
  lemma UpdateStatusOrders(t: Tables, waybill: string, u: StatusUpdate, now: int)
    ensures var s := UpdateStatusStep(t, waybill, u, now);
      var k := FindDeliveryByWaybill(t.deliveries, waybill);
      s.tables.items == t.items && s.tables.customers == t.customers && s.tables.otps == t.otps
      && |s.tables.deliveries| == |t.deliveries|
      && (forall j :: 0 <= j < |t.deliveries| && j != k ==> s.tables.deliveries[j] == t.deliveries[j])
      && |s.tables.orders| == |t.orders|
      && (s.reply.Err? || Classify(u.status) != Arrived ==> s.tables.orders == t.orders)
      && (s.reply.Ok? && Classify(u.status) == Arrived ==>
            var key := t.deliveries[k].orderKey;
            (forall j :: 0 <= j < |t.orders| && j != key ==> s.tables.orders[j] == t.orders[j])
            && (key < |t.orders| ==>
                  s.tables.orders[key] == t.orders[key].(orderStatus := Delivered, deliveredAt := Some(now))))
  {
  }

  lemma LowerPickedUp()
    ensures Lower("Picked Up") == "picked up"
  {
  }

  lemma LowerInTransit()
    ensures Lower("In Transit") == "in transit"
  {
  }

  lemma LowerOutForDelivery()
    ensures Lower("Out for Delivery") == "out for delivery"
  {
  }

  lemma LowerDelivered()
    ensures Lower("Delivered") == "delivered" && Lower("Undelivered") == "undelivered"
  {
  }

  lemma ClassifyPickedUp()
    ensures Classify("Picked Up") == PickedUp
  {
    LowerPickedUp();
    ContainsAt("picked up", "picked", 0);
    assert ClassifyLower("picked up") == PickedUp;
  }

  /** Which keyword the scan stops at follows from which keywords the text contains. */
  lemma ScanStopsAt(s: string, m: Milestone)
    requires m == InTransit || m == OutForDelivery || m == Arrived
    requires !Contains(s, "picked") && !Contains(s, "pickup")
    requires Contains(s, "transit") <==> m == InTransit
    requires m == OutForDelivery ==> Contains(s, "out for delivery")
    requires m == Arrived ==> !Contains(s, "out for delivery") && Contains(s, "delivered")
    ensures ClassifyLower(s) == m
  {
  }

  /** Without a 'k' there is no "picked" and no "pickup". */
  lemma NoPickWithoutK(s: string)
    requires 'k' !in s
    ensures !Contains(s, "picked") && !Contains(s, "pickup")
  {
    AbsentCharNotContained(s, "picked", 'k');
    AbsentCharNotContained(s, "pickup", 'k');
  }

  /** A lower-cased status without 'k' that mentions "transit" is scanned as in transit. */
  lemma ScanInTransit(s: string)
    requires 'k' !in s && Contains(s, "transit")
    ensures ClassifyLower(s) == InTransit
  {
    NoPickWithoutK(s);
    ScanStopsAt(s, InTransit);
  }

  lemma ClassifyInTransit()
    ensures Classify("In Transit") == InTransit
  {
    LowerInTransit();
    ContainsAt("in transit", "transit", 3);
    ScanInTransit("in transit");
  }

  lemma OutForDeliverySaysSo()
    ensures Contains("out for delivery", "out for delivery")
  {
    ContainsAt("out for delivery", "out for delivery", 0);
  }

  /** A lower-cased status without 'k' or 'a' that mentions "out for delivery" is scanned as such. */
  lemma ScanOutForDelivery(s: string)
    requires 'k' !in s && 'a' !in s && Contains(s, "out for delivery")
    ensures ClassifyLower(s) == OutForDelivery
  {
    NoPickWithoutK(s);
    AbsentCharNotContained(s, "transit", 'a');
    ScanStopsAt(s, OutForDelivery);
  }

  lemma ClassifyOutForDelivery()
    ensures Classify("Out for Delivery") == OutForDelivery
  {
    LowerOutForDelivery();
    OutForDeliverySaysSo();
    ScanOutForDelivery("out for delivery");
  }

  /** A lower-cased status without 'k', 't' or 'o' that contains "delivered" is scanned as delivered. */
  lemma ScanDelivered(s: string)
    requires 'k' !in s && 't' !in s && 'o' !in s && Contains(s, "delivered")
    ensures ClassifyLower(s) == Arrived
  {
    NoPickWithoutK(s);
    AbsentCharNotContained(s, "transit", 't');
    AbsentCharNotContained(s, "out for delivery", 'o');
    ScanStopsAt(s, Arrived);
  }

  lemma ClassifyDelivered()
    ensures Classify("Delivered") == Arrived
  {
    LowerDelivered();
    ContainsAt("delivered", "delivered", 0);
    ScanDelivered("delivered");
  }

  /** The usual courier statuses land on their milestones. */
  lemma ClassifyExamples()
    ensures Classify("Picked Up") == PickedUp
    ensures Classify("In Transit") == InTransit
    ensures Classify("Out for Delivery") == OutForDelivery
    ensures Classify("Delivered") == Arrived
  {
    ClassifyPickedUp();
    ClassifyInTransit();
    ClassifyOutForDelivery();
    ClassifyDelivered();
  }

  /** "Undelivered" contains "delivered", so a failed delivery is stamped as delivered and closes the order. */
  lemma UndeliveredCountsAsDelivered()
    ensures Classify("Undelivered") == Arrived
  {
    LowerDelivered();
    ContainsAt("undelivered", "delivered", 2);
    ScanDelivered("undelivered");
  }
}

=== FILE: order_ids.dfy ===
/**
 * Order ids and waybills of app/utils/order_id_generator.py. The clock reading and the random
 * digits are inputs.
 */
module OrderIds {
  import opened Text

  /** A `datetime` down to the second. */
  datatype Timestamp = Timestamp(year: nat, month: nat, day: nat, hour: nat, minute: nat, second: nat)

  /** A reading the clock can give; years before 1000 are outside the model. */
  predicate ValidTimestamp(t: Timestamp)
  {
    1000 <= t.year <= 9999 && 1 <= t.month <= 12 && 1 <= t.day <= 31
    && t.hour < 24 && t.minute < 60 && t.second < 60
  }

  /** `strftime('%Y%m%d%H%M%S')`. */
  function Stamp(t: Timestamp): (s: string)
    ensures |s| == 14 && AllDigits(s)
  {
    Digits(t.year, 4) + Digits(t.month, 2) + Digits(t.day, 2)
    + Digits(t.hour, 2) + Digits(t.minute, 2) + Digits(t.second, 2)
  }

  /** Reading the fourteen digits back into their six fields. */
  function ParseStamp(s: string): Timestamp
    requires |s| == 14 && AllDigits(s)
  {
    Timestamp(ValueOf(s[..4]), ValueOf(s[4..6]), ValueOf(s[6..8]),
              ValueOf(s[8..10]), ValueOf(s[10..12]), ValueOf(s[12..14]))
  }

  lemma TwoDigitFieldsFit(t: Timestamp)
    requires ValidTimestamp(t)
    ensures t.year < Pow10(4)
    ensures t.month < Pow10(2) && t.day < Pow10(2) && t.hour < Pow10(2)
    ensures t.minute < Pow10(2) && t.second < Pow10(2)
  {
    assert Pow10(2) == 100;
    assert Pow10(4) == 10000;
  }

  /** Each field sits at its fixed place in the stamp. */
  lemma StampFields(t: Timestamp)
    ensures var s := Stamp(t);
      && s[..4] == Digits(t.year, 4) && s[4..6] == Digits(t.month, 2) && s[6..8] == Digits(t.day, 2)
      && s[8..10] == Digits(t.hour, 2) && s[10..12] == Digits(t.minute, 2) && s[12..14] == Digits(t.second, 2)
  {
    var date := Digits(t.year, 4) + Digits(t.month, 2) + Digits(t.day, 2);
    var time := Digits(t.hour, 2) + Digits(t.minute, 2) + Digits(t.second, 2);
    var s := Stamp(t);
    assert s == date + time;
    assert s[..8] == date && s[8..] == time;
    assert date[..4] == Digits(t.year, 4) && date[4..6] == Digits(t.month, 2) && date[6..] == Digits(t.day, 2);
    assert time[..2] == Digits(t.hour, 2) && time[2..4] == Digits(t.minute, 2) && time[4..] == Digits(t.second, 2);
  }

  /** The stamp of a valid reading gives that reading back: the id records the second it was made. */
  lemma StampRoundTrip(t: Timestamp)
    requires ValidTimestamp(t)
    ensures ParseStamp(Stamp(t)) == t
  {
    TwoDigitFieldsFit(t);
    StampFields(t);
    DigitsValue(t.year, 4);
    DigitsValue(t.month, 2);
    DigitsValue(t.day, 2);
    DigitsValue(t.hour, 2);
    DigitsValue(t.minute, 2);
    DigitsValue(t.second, 2);
  }

  /** `generate_order_id`: "PD" and the 14-digit stamp. */
  function GenerateOrderId(now: Timestamp): (id: string)
    ensures |id| == 16 && StartsWith(id, "PD") && AllDigits(id[2..])
    ensures id[2..] == Stamp(now)
  {
    "PD" + Stamp(now)
  }

  /** Two ids made at different seconds differ. */
  lemma OrderIdsDifferAcrossSeconds(t1: Timestamp, t2: Timestamp)
    requires ValidTimestamp(t1) && ValidTimestamp(t2) && t1 != t2
    ensures GenerateOrderId(t1) != GenerateOrderId(t2)
  {
    StampRoundTrip(t1);
    StampRoundTrip(t2);
    assert GenerateOrderId(t1)[2..] == Stamp(t1);
  }

  /** `generate_order_id_with_random`: the plain id followed by four random digits. */
  function GenerateOrderIdWithRandom(now: Timestamp, picks: seq<nat>): (id: string)
    requires |picks| == 4 && forall i :: 0 <= i < 4 ==> picks[i] < 10
    ensures |id| == 20 && id[..16] == GenerateOrderId(now)
    ensures AllDigits(id[2..])
    ensures id[16..] == DigitString(picks)
  {
    "PD" + Stamp(now) + DigitString(picks)
  }

  /** `generate_waybill_number`: "PDEL" and the id after its first two characters. */
  function GenerateWaybillNumber(orderId: string): (w: string)
    ensures StartsWith(w, "PDEL")
    ensures |w| == 4 + (if |orderId| < 2 then 0 else |orderId| - 2)
    ensures w[4..] == Drop(orderId, 2)
  {
    "PDEL" + Drop(orderId, 2)
  }

  /** An id that starts with "PD" can be read back from its waybill. */
  lemma WaybillRecoversOrderId(orderId: string)
    requires StartsWith(orderId, "PD")
    ensures "PD" + GenerateWaybillNumber(orderId)[4..] == orderId
  {
  }

  /** Different "PD" ids never share a waybill. */
  lemma WaybillInjective(id1: string, id2: string)
    requires StartsWith(id1, "PD") && StartsWith(id2, "PD")
    requires GenerateWaybillNumber(id1) == GenerateWaybillNumber(id2)
    ensures id1 == id2
  {
    WaybillRecoversOrderId(id1);
    WaybillRecoversOrderId(id2);
  }

  /** The waybill of an id made by `generate_order_id` is "PDEL" and the stamp, 18 characters. */
  lemma WaybillOfGeneratedId(now: Timestamp)
    ensures GenerateWaybillNumber(GenerateOrderId(now)) == "PDEL" + Stamp(now)
  {
  }
}

=== FILE: orders.dfy ===
/**
 * The order routes of app/api/routes/orders.py: the shipping-cost rule, placing an order (totals,
 * initial statuses, item rows, the delivery row made from the shipment reply), cancellation, the
 * phone key of the per-user listing, and the quote endpoint. The shipping service is consulted
 * through its model, with its debug flag and the courier endpoint's reply as inputs; the
 * shipment reply, the clock (as a calendar stamp for the order id and as seconds for stored
 * times) are inputs too.
 */
module Orders {
  import opened Outcomes
  import opened Text
  import opened Seqs
  import opened Store
  import OrderIds
  import ShippingConfig
  import Phones
  import S = ShiprocketService

  // ---------------------------------------------------------------- shipping cost

  /** Orders from this subtotal ship free (the route's own constant, not the one of ShippingConfig). */
  const FreeShippingFrom: real := 999.0
  const ShippingCap: real := 100.0

  /** `calculate_shipping_cost`: free from 999, otherwise the service's total capped at 100. */
  function CalculateShippingCost(debug: bool, rates: S.CourierReply, pincode: string, weight: real,
                                 subtotal: real, isCod: bool): (r: real)
    ensures r <= ShippingCap
    ensures subtotal >= FreeShippingFrom ==> r == 0.0
    ensures subtotal < FreeShippingFrom ==>
      var q := S.CalculateShippingCharges(debug, rates, pincode, weight, if isCod then subtotal else 0.0);
      r <= q.totalCharge && (r == q.totalCharge || r == ShippingCap)
  {
    if subtotal >= FreeShippingFrom then 0.0
    else
      var q := S.CalculateShippingCharges(debug, rates, pincode, weight, if isCod then subtotal else 0.0);
      if q.totalCharge <= ShippingCap then q.totalCharge else ShippingCap
  }

  /** In development the cost is the tariff's base charge, plus 40 for a cash-on-delivery order, capped at 100. */
  lemma DevelopmentShippingCost(rates: S.CourierReply, pincode: string, weight: real, subtotal: real, isCod: bool)
    requires 0.0 < subtotal < FreeShippingFrom
    ensures var charge := S.BaseCharge(weight, S.IsMetro(pincode)) + (if isCod then 40.0 else 0.0);
      CalculateShippingCost(true, rates, pincode, weight, subtotal, isCod)
      == if charge <= ShippingCap then charge else ShippingCap
  {
    var q := S.CalculateShippingCharges(true, rates, pincode, weight, if isCod then subtotal else 0.0);
    assert q == S.MockShippingCharges(pincode, weight, if isCod then subtotal else 0.0);
  }

  /** The route and ShippingConfig disagree: a 999 order ships free here but is not eligible there. */
  lemma ThresholdsDisagree(debug: bool, rates: S.CourierReply, pincode: string, weight: real, isCod: bool)
    ensures CalculateShippingCost(debug, rates, pincode, weight, 999.0, isCod) == 0.0
    ensures !ShippingConfig.IsFreeShippingEligible(999.0)
  {
  }

  // ---------------------------------------------------------------- totals

  datatype OrderItemRequest = OrderItemRequest(
    productId: int, productName: string, quantity: int, price: real, size: string, unit: string)

  function LineTotal(item: OrderItemRequest): real
  {
    item.price * item.quantity as real
  }

  /** `sum(item.price * item.quantity for item in items)`. */
  function Subtotal(items: seq<OrderItemRequest>): real
  {
    if items == [] then 0.0 else Subtotal(items[..|items| - 1]) + LineTotal(items[|items| - 1])
  }

  /** `sum(item.quantity * 1.0 for item in items)`: one kilogram per unit. */
  function TotalWeight(items: seq<OrderItemRequest>): real
  {
    if items == [] then 0.0 else TotalWeight(items[..|items| - 1]) + items[|items| - 1].quantity as real
  }

  /** What the quote endpoint answers. */
  datatype OrderQuote = OrderQuote(subtotal: real, shippingCost: real, total: real, freeShippingEligible: bool)

  /**
   * `calculate_order_total`. A missing pincode is "" and a missing payment method counts as
   * cash on delivery.
   */
  function CalculateOrderTotal(debug: bool, rates: S.CourierReply, items: seq<OrderItemRequest>,
                               pincode: Option<string>, paymentMethod: Option<string>): (r: OrderQuote)
    ensures r.subtotal == Subtotal(items)
    ensures r.total == r.subtotal + r.shippingCost
    ensures r.freeShippingEligible <==> r.subtotal >= FreeShippingFrom
    ensures r.freeShippingEligible ==> r.shippingCost == 0.0
    ensures r.shippingCost <= ShippingCap
    ensures r.shippingCost == CalculateShippingCost(debug, rates, OrDefault(pincode, ""), TotalWeight(items),
                                                    r.subtotal, OrDefault(paymentMethod, "cod") == "cod")
  {
    var subtotal := Subtotal(items);
    var isCod := OrDefault(paymentMethod, "cod") == "cod";
    var shipping := CalculateShippingCost(debug, rates, OrDefault(pincode, ""), TotalWeight(items), subtotal, isCod);
    OrderQuote(subtotal, shipping, subtotal + shipping, subtotal >= FreeShippingFrom)
  }

  /** A quote without a pincode is the quote for "", and one without a payment method is the quote for "cod". */
  lemma CalculateOrderTotalDefaults(debug: bool, rates: S.CourierReply, items: seq<OrderItemRequest>,
                                    pincode: Option<string>, paymentMethod: Option<string>)
    ensures CalculateOrderTotal(debug, rates, items, None, paymentMethod)
         == CalculateOrderTotal(debug, rates, items, Some(""), paymentMethod)
    ensures CalculateOrderTotal(debug, rates, items, pincode, None)
         == CalculateOrderTotal(debug, rates, items, pincode, Some("cod"))
  {
  }

  // ---------------------------------------------------------------- placing an order

  datatype CreateOrderRequest = CreateOrderRequest(
    items: seq<OrderItemRequest>,
    shipping: ShippingAddress,
    paymentMethod: string,
    userPhone: Option<string>)

  /** What the shipment service answered: failure, or the fields of a created shipment. */
  datatype ShipmentResult =
    | ShipmentFailed
    | ShipmentMade(waybill: Option<string>, awbCode: Option<string>, shipmentId: Option<string>,
                   courierName: Option<string>, trackingUrl: Option<string>)

  /** What the create endpoint answers. */
  datatype OrderPlaced = OrderPlaced(
    orderId: string,
    subtotal: real,
    shippingCost: real,
    total: real,
    paymentStatus: string,
    orderStatus: string,
    estimatedDelivery: string,
    waybillNumber: string)

  const PlacedStatus: string := "Order Placed"
  const PlacedMessage: string := "Your order has been placed and will be shipped via Shiprocket soon."
  const PlacedEstimate: string := "3-5 business days"
  const SecondsPerDay: int := 86400

  /** The customer made for an order whose phone is not given or not known. */
  function NewCustomer(req: CreateOrderRequest): Customer
  {
    Customer(req.userPhone, Some(req.shipping.email), None, Some(req.shipping.fullName),
             None, None, None, None, false, None, false)
  }

  /** The order row as first stored: CONFIRMED, no waybill yet. */
  function NewOrder(orderId: string, customerId: nat, req: CreateOrderRequest,
                    subtotal: real, shippingCost: real): Order
  {
    Order(orderId, customerId, req.shipping, subtotal, shippingCost, subtotal + shippingCost,
          req.paymentMethod,
          if req.paymentMethod == "cod" then CashOnDelivery else PaymentPending,
          None, None, Confirmed, "", Some(PlacedEstimate), None, None, None)
  }

  function ItemRecord(orderKey: nat, item: OrderItemRequest): OrderItem
  {
    OrderItem(orderKey, item.productId, item.productName, item.size, item.unit,
              item.quantity, item.price, LineTotal(item))
  }

  /** One item row per requested item, in request order. */
  function ItemRecords(orderKey: nat, items: seq<OrderItemRequest>): seq<OrderItem>
  {
    if items == [] then []
    else ItemRecords(orderKey, items[..|items| - 1]) + [ItemRecord(orderKey, items[|items| - 1])]
  }

  /** The sum of the `total` column over item rows. */
  function RecordsTotal(records: seq<OrderItem>): real
  {
    if records == [] then 0.0 else RecordsTotal(records[..|records| - 1]) + records[|records| - 1].total
  }

  /** `waybill` when it is truthy, else `awb_code`, else "". */
  function ShipmentWaybill(s: ShipmentResult): string
    requires s.ShipmentMade?
  {
    if Given(s.waybill) then s.waybill.value else OrDefault(s.awbCode, "")
  }

  /** The delivery row made for a created shipment, with one "Order Placed" history entry. */
  function PlacedDelivery(orderKey: nat, o: Order, s: ShipmentResult, weight: real, now: int): Delivery
    requires s.ShipmentMade?
  {
    var location := o.shipping.city + ", " + o.shipping.state;
    Delivery(orderKey, ShipmentWaybill(s), OrDefault(s.shipmentId, ""), PlacedStatus, Some(location),
             OrDefault(s.courierName, "Shiprocket"), OrDefault(s.trackingUrl, ""),
             now + 5 * SecondsPerDay, weight, o.shippingCost,
             [TrackingEntry(PlacedStatus, Some(location), now, PlacedMessage)],
             None, None, None, None)
  }

  /** The customer an order is booked to: the one with the given phone, else a new row at the end. */
  function CustomerFor(customers: seq<Customer>, req: CreateOrderRequest): (k: nat)
    ensures k <= |customers|
    ensures k < |customers| ==> Given(req.userPhone) && customers[k].phone == req.userPhone
    ensures Given(req.userPhone) ==> forall j :: 0 <= j < k ==> customers[j].phone != req.userPhone
    ensures k == |customers| ==>
      !Given(req.userPhone) || forall j :: 0 <= j < |customers| ==> customers[j].phone != req.userPhone
  {
    if Given(req.userPhone) then FindCustomerByPhone(customers, req.userPhone.value) else |customers|
  }

  /** `create_order` on the tables `t`. */
  function PlaceOrder(t: Tables, debug: bool, rates: S.CourierReply, req: CreateOrderRequest,
                      stamp: OrderIds.Timestamp, now: int, shipment: ShipmentResult): Step<OrderPlaced>
  {
    var subtotal := Subtotal(req.items);
    var weight := TotalWeight(req.items);
    var shippingCost := CalculateShippingCost(debug, rates, req.shipping.pincode, weight, subtotal,
                                              req.paymentMethod == "cod");
    var orderId := OrderIds.GenerateOrderId(stamp);
    var k := CustomerFor(t.customers, req);
    var customers := if k < |t.customers| then t.customers else t.customers + [NewCustomer(req)];
    var order := NewOrder(orderId, k, req, subtotal, shippingCost);
    var items := t.items + ItemRecords(|t.orders|, req.items);
    var stored :=
      if shipment.ShipmentMade? then order.(waybillNumber := ShipmentWaybill(shipment), orderStatus := Processing)
      else order;
    var deliveries :=
      if shipment.ShipmentMade? then t.deliveries + [PlacedDelivery(|t.orders|, order, shipment, weight, now)]
      else t.deliveries;
    Step(Tables(t.orders + [stored], items, deliveries, customers, t.otps),
         Ok(OrderPlaced(orderId, subtotal, shippingCost, stored.total, PaymentValue(stored.paymentStatus),
                        StatusValue(stored.orderStatus), PlacedEstimate, stored.waybillNumber)))
  }

  /** The loop of `create_order` that adds one item row per requested item. */
  method AddItemRows(db: Db, orderKey: nat, items: seq<OrderItemRequest>)
    modifies db
    ensures db.items == old(db.items) + ItemRecords(orderKey, items)
    ensures db.orders == old(db.orders) && db.customers == old(db.customers)
    ensures db.deliveries == old(db.deliveries) && db.otps == old(db.otps)
  {
    var n := 0;
    while n < |items|
      invariant 0 <= n <= |items|
      invariant db.items == old(db.items) + ItemRecords(orderKey, items[..n])
      invariant db.orders == old(db.orders) && db.customers == old(db.customers)
      invariant db.deliveries == old(db.deliveries) && db.otps == old(db.otps)
    {
      assert items[..n + 1][..n] == items[..n];
      db.items := db.items + [ItemRecord(orderKey, items[n])];
      n := n + 1;
    }
    assert items[..n] == items;
  }

  /** `create_order`: the customer, the order row, one item row per item, then the delivery row if the shipment was made. */
  method CreateOrder(db: Db, debug: bool, rates: S.CourierReply, req: CreateOrderRequest,
                     stamp: OrderIds.Timestamp, now: int, shipment: ShipmentResult) returns (placed: OrderPlaced)
    modifies db
    ensures Step(db.Snapshot(), Ok(placed)) == PlaceOrder(old(db.Snapshot()), debug, rates, req, stamp, now, shipment)
  {
    var subtotal := Subtotal(req.items);
    var weight := TotalWeight(req.items);
    var shippingCost := CalculateShippingCost(debug, rates, req.shipping.pincode, weight, subtotal,
                                              req.paymentMethod == "cod");
    var orderId := OrderIds.GenerateOrderId(stamp);
    var customerId := CustomerFor(db.customers, req);
    if customerId == |db.customers| {
      db.customers := db.customers + [NewCustomer(req)];
    }
    var order := NewOrder(orderId, customerId, req, subtotal, shippingCost);
    var orders := db.orders;
    db.orders := orders + [order];
    AddItemRows(db, |orders|, req.items);
    if shipment.ShipmentMade? {
      var delivery := PlacedDelivery(|orders|, order, shipment, weight, now);
      db.deliveries := db.deliveries + [delivery];
      order := order.(waybillNumber := delivery.waybillNumber, orderStatus := Processing);
      db.orders := orders + [order];
    }
    placed := OrderPlaced(orderId, subtotal, shippingCost, order.total, PaymentValue(order.paymentStatus),
                          StatusValue(order.orderStatus), PlacedEstimate, order.waybillNumber);
  }

  /** Item rows: one per requested item, each naming the order by its row key. */
  lemma {:induction false} ItemRecordsShape(orderKey: nat, items: seq<OrderItemRequest>)
    ensures |ItemRecords(orderKey, items)| == |items|
    ensures forall i :: 0 <= i < |items| ==> ItemRecords(orderKey, items)[i] == ItemRecord(orderKey, items[i])
  {
    if items != [] {
      ItemRecordsShape(orderKey, items[..|items| - 1]);
    }
  }

  /** The item rows' totals add up to the order's subtotal. */
  lemma {:induction false} ItemRecordsTotal(orderKey: nat, items: seq<OrderItemRequest>)
    ensures RecordsTotal(ItemRecords(orderKey, items)) == Subtotal(items)
  {
    if items != [] {
      var init := items[..|items| - 1];
      ItemRecordsTotal(orderKey, init);
      var rs := ItemRecords(orderKey, items);
      assert rs == ItemRecords(orderKey, init) + [ItemRecord(orderKey, items[|items| - 1])];
      assert rs[..|rs| - 1] == ItemRecords(orderKey, init);
    }
  }

  /**
   * The new order is the last row: CONFIRMED, or PROCESSING with the shipment's waybill when the
   * shipment was made; payment COD exactly for "cod"; total = subtotal + shipping. Earlier orders
   * are untouched.
   */
  lemma PlaceOrderStatuses(t: Tables, debug: bool, rates: S.CourierReply, req: CreateOrderRequest,
                           stamp: OrderIds.Timestamp, now: int, shipment: ShipmentResult)
    ensures var s := PlaceOrder(t, debug, rates, req, stamp, now, shipment);
      var o := s.tables.orders[|t.orders|];
      |s.tables.orders| == |t.orders| + 1 && s.tables.orders[..|t.orders|] == t.orders
      && o.orderId == OrderIds.GenerateOrderId(stamp)
      && o.orderStatus == (if shipment.ShipmentMade? then Processing else Confirmed)
      && (o.paymentStatus == CashOnDelivery <==> req.paymentMethod == "cod")
      && o.paymentStatus in {CashOnDelivery, PaymentPending}
      && o.subtotal == Subtotal(req.items)
      && o.total == o.subtotal + o.shippingCost
      && o.shippingCost == CalculateShippingCost(debug, rates, req.shipping.pincode, TotalWeight(req.items),
                                                 o.subtotal, req.paymentMethod == "cod")
      && o.waybillNumber == (if shipment.ShipmentMade? then ShipmentWaybill(shipment) else "")
      && s.reply.Ok? && s.reply.value.orderStatus == StatusValue(o.orderStatus)
      && s.reply.value.total == o.total && s.reply.value.waybillNumber == o.waybillNumber
      && s.reply.value.shippingCost == o.shippingCost
  {
    var s := PlaceOrder(t, debug, rates, req, stamp, now, shipment);
    assert s.tables.orders[..|t.orders|] == t.orders;
  }

  /** The quote endpoint, asked with the order's items, pincode and method, quotes what the order is charged. */
  lemma QuoteMatchesPlacedOrder(t: Tables, debug: bool, rates: S.CourierReply, req: CreateOrderRequest,
                                stamp: OrderIds.Timestamp, now: int, shipment: ShipmentResult)
    ensures var s := PlaceOrder(t, debug, rates, req, stamp, now, shipment);
      var q := CalculateOrderTotal(debug, rates, req.items, Some(req.shipping.pincode), Some(req.paymentMethod));
      s.reply.Ok? && q.subtotal == s.reply.value.subtotal && q.shippingCost == s.reply.value.shippingCost
      && q.total == s.reply.value.total
  {
    PlaceOrderStatuses(t, debug, rates, req, stamp, now, shipment);
  }

  /** One item row per requested item is appended, and their totals add up to the order's subtotal. */
  lemma PlaceOrderItems(t: Tables, debug: bool, rates: S.CourierReply, req: CreateOrderRequest,
                        stamp: OrderIds.Timestamp, now: int, shipment: ShipmentResult)
    ensures var s := PlaceOrder(t, debug, rates, req, stamp, now, shipment);
      var added := s.tables.items[|t.items|..];
      s.tables.items[..|t.items|] == t.items && |added| == |req.items|
      && (forall i :: 0 <= i < |added| ==> added[i].orderKey == |t.orders|)
      && RecordsTotal(added) == s.tables.orders[|t.orders|].subtotal
  {
    var s := PlaceOrder(t, debug, rates, req, stamp, now, shipment);
    assert s.tables.items[|t.items|..] == ItemRecords(|t.orders|, req.items);
    ItemRecordsShape(|t.orders|, req.items);
    ItemRecordsTotal(|t.orders|, req.items);
  }

  /**
   * A delivery row is added exactly when the shipment was made; it belongs to the new order,
   * carries the order's waybill, and its history is the single "Order Placed" entry.
   */
  lemma PlaceOrderDelivery(t: Tables, debug: bool, rates: S.CourierReply, req: CreateOrderRequest,
                           stamp: OrderIds.Timestamp, now: int, shipment: ShipmentResult)
    ensures var s := PlaceOrder(t, debug, rates, req, stamp, now, shipment);
      s.tables.deliveries[..|t.deliveries|] == t.deliveries
      && (|s.tables.deliveries| == |t.deliveries| + 1 <==> shipment.ShipmentMade?)
      && (shipment.ShipmentFailed? ==> s.tables.deliveries == t.deliveries)
      && (shipment.ShipmentMade? ==>
            var d := s.tables.deliveries[|t.deliveries|];
            var o := s.tables.orders[|t.orders|];
            d.orderKey == |t.orders| && d.waybillNumber == o.waybillNumber
            && d.currentStatus == PlacedStatus && |d.trackingHistory| == 1
            && d.trackingHistory[0].status == PlacedStatus)
  {
    var s := PlaceOrder(t, debug, rates, req, stamp, now, shipment);
    assert s.tables.deliveries[..|t.deliveries|] == t.deliveries;
  }

  /**
   * The order is booked to the first customer with the given phone when there is one; otherwise a
   * new customer row is appended. Existing customers are never changed.
   */
  lemma PlaceOrderCustomer(t: Tables, debug: bool, rates: S.CourierReply, req: CreateOrderRequest,
                           stamp: OrderIds.Timestamp, now: int, shipment: ShipmentResult)
    ensures var s := PlaceOrder(t, debug, rates, req, stamp, now, shipment);
      var c := s.tables.orders[|t.orders|].customerId;
      s.tables.customers[..|t.customers|] == t.customers
      && c < |s.tables.customers|
      && (c < |t.customers| <==>
            Given(req.userPhone) && exists j :: 0 <= j < |t.customers| && t.customers[j].phone == req.userPhone)
      && (c < |t.customers| ==> s.tables.customers == t.customers && t.customers[c].phone == req.userPhone)
      && (c == |t.customers| ==> s.tables.customers == t.customers + [NewCustomer(req)])
  {
    var s := PlaceOrder(t, debug, rates, req, stamp, now, shipment);
    assert s.tables.customers[..|t.customers|] == t.customers;
  }

  // ---------------------------------------------------------------- cancelling

  const DefaultCancelReason: string := "User requested cancellation"

  /** DELIVERED and CANCELLED orders can no longer be cancelled. */
  predicate Finished(s: OrderStatus)
  {
    s == Delivered || s == Cancelled
  }

  /** `cancel_order` on the tables `t`; `reason` is the request's "reason" key, when present. */
  function CancelStep(t: Tables, orderId: string, reason: Option<string>): Step<string>
  {
    var k := FindOrder(t.orders, orderId);
    if k == |t.orders| then Step(t, Err(HttpError(404, "Order not found")))
    else if Finished(t.orders[k].orderStatus) then
      Step(t, Err(HttpError(400, "Cannot cancel order with status: " + StatusValue(t.orders[k].orderStatus))))
    else
      var o := t.orders[k];
      var d := FindDeliveryOf(t.deliveries, k);
      var deliveries :=
        if d < |t.deliveries| && t.deliveries[d].shipmentId != "" then
          t.deliveries[d := t.deliveries[d].(currentStatus := "Cancelled")]
        else t.deliveries;
      var cancelled := o.(orderStatus := Cancelled,
                          adminNotes := Some("Cancelled: " + OrDefault(reason, DefaultCancelReason)));
      Step(t.(orders := t.orders[k := cancelled], deliveries := deliveries), Ok(orderId))
  }

  /** `cancel_order`: the delivery first (when it has a shipment id), then the order. */
  method CancelOrder(db: Db, orderId: string, reason: Option<string>) returns (r: Result<string>)
    modifies db
    ensures Step(db.Snapshot(), r) == CancelStep(old(db.Snapshot()), orderId, reason)
  {
    var k := FindOrder(db.orders, orderId);
    if k == |db.orders| {
      return Err(HttpError(404, "Order not found"));
    }
    var order := db.orders[k];
    if order.orderStatus == Delivered || order.orderStatus == Cancelled {
      return Err(HttpError(400, "Cannot cancel order with status: " + StatusValue(order.orderStatus)));
    }
    var d := FindDeliveryOf(db.deliveries, k);
    if d < |db.deliveries| && db.deliveries[d].shipmentId != "" {
      db.deliveries := db.deliveries[d := db.deliveries[d].(currentStatus := "Cancelled")];
    }
    var reasonText := if reason.Some? then reason.value else DefaultCancelReason;
    db.orders := db.orders[k := order.(orderStatus := Cancelled, adminNotes := Some("Cancelled: " + reasonText))];
    r := Ok(orderId);
  }

  /** Cancelling fails exactly for an unknown or finished order, and a failed cancel changes nothing. */
  lemma CancelGuard(t: Tables, orderId: string, reason: Option<string>)
    ensures var s := CancelStep(t, orderId, reason);
      var k := FindOrder(t.orders, orderId);
      (s.reply.Err? <==> k == |t.orders| || Finished(t.orders[k].orderStatus))
      && (s.reply.Err? ==> s.tables == t)
      && (k == |t.orders| ==> s.reply == Err(HttpError(404, "Order not found")))
      && (k < |t.orders| && Finished(t.orders[k].orderStatus) ==> s.reply.error.status == 400)
  {
  }

  /**
   * A successful cancel marks that one order CANCELLED with the reason (or the default) in its
   * notes, marks its delivery "Cancelled" only when that delivery has a shipment id, and touches
   * nothing else.
   */
  lemma CancelEffect(t: Tables, orderId: string, reason: Option<string>)
    requires CancelStep(t, orderId, reason).reply.Ok?
    ensures var s := CancelStep(t, orderId, reason);
      var k := FindOrder(t.orders, orderId);
      var o := t.orders[k];
      var d := FindDeliveryOf(t.deliveries, k);
      k < |t.orders|
      && s.tables.orders == t.orders[k := o.(orderStatus := Cancelled,
                                             adminNotes := Some("Cancelled: " + OrDefault(reason, DefaultCancelReason)))]
      && s.tables.items == t.items && s.tables.customers == t.customers && s.tables.otps == t.otps
      && |s.tables.deliveries| == |t.deliveries|
      && (forall j :: 0 <= j < |t.deliveries| && j != d ==> s.tables.deliveries[j] == t.deliveries[j])
      && (d < |t.deliveries| ==>
            s.tables.deliveries[d] == if t.deliveries[d].shipmentId != "" then t.deliveries[d].(currentStatus := "Cancelled")
                                      else t.deliveries[d])
  {
  }

  lemma CancelledMessage()
    ensures "Cannot cancel order with status: " + StatusValue(Cancelled) == "Cannot cancel order with status: cancelled"
  {
  }

  /** A cancelled order cannot be cancelled again. */
  lemma CancelIsFinal(t: Tables, orderId: string, reason: Option<string>, again: Option<string>)
    requires CancelStep(t, orderId, reason).reply.Ok?
    ensures CancelStep(CancelStep(t, orderId, reason).tables, orderId, again)
         == Step(CancelStep(t, orderId, reason).tables, Err(HttpError(400, "Cannot cancel order with status: cancelled")))
  {
    var k := FindOrder(t.orders, orderId);
    var s := CancelStep(t, orderId, reason);
    assert s.tables.orders[k].orderId == orderId;
    assert forall j :: 0 <= j < k ==> s.tables.orders[j] == t.orders[j];
    assert FindOrder(s.tables.orders, orderId) == k;
    CancelledMessage();
  }

  // ---------------------------------------------------------------- orders of one customer

  /** The lookup key of `get_user_orders_by_phone`: "91" is put in front of a 10-character string not starting with it. */
  function UserOrdersPhoneKey(phone: string): string
  {
    if StartsWith(phone, "91") then phone else if |phone| == 10 then "91" + phone else phone
  }

  /** The key is the phone itself, or "91" and the phone when it has 10 characters and no "91" in front. */
  lemma UserOrdersPhoneKeyCases(phone: string)
    ensures UserOrdersPhoneKey(phone) == "91" + phone <==> !StartsWith(phone, "91") && |phone| == 10
    ensures UserOrdersPhoneKey(phone) != "91" + phone ==> UserOrdersPhoneKey(phone) == phone
  {
  }

  /** Keying a key again changes nothing. */
  lemma UserOrdersPhoneKeyIdempotent(phone: string)
    ensures UserOrdersPhoneKey(UserOrdersPhoneKey(phone)) == UserOrdersPhoneKey(phone)
  {
    if !StartsWith(phone, "91") && |phone| == 10 {
      assert ("91" + phone)[..2] == "91";
    }
  }

  /** On a string of digits the key is the phone rule used when customers sign in. */
  lemma UserOrdersPhoneKeyOnDigits(phone: string)
    requires AllDigits(phone)
    ensures UserOrdersPhoneKey(phone) == Phones.FormatPhone(phone)
  {
  }

  lemma SignedNumberKeepsPlus()
    ensures !StartsWith("+918887948909", "91") && |"+918887948909"| != 10
  {
    assert "+918887948909"[..2] == "+9";
  }

  /** A number written with "+" is not normalised: its key differs from the stored sign-in phone. */
  lemma SignedNumberMissesCustomer()
    ensures UserOrdersPhoneKey("+918887948909") == "+918887948909"
    ensures Phones.FormatPhone("+918887948909") == "918887948909"
  {
    SignedNumberKeepsPlus();
    Phones.FormatPhoneInternational();
  }

  /** The query filter `Order.customer_id == c`. */
  function BookedTo(c: nat): Order -> bool
  {
    (o: Order) => o.customerId == c
  }

  /** `get_user_orders_by_phone`: the orders of the first customer with that key, newest first. */
  function UserOrders(t: Tables, phone: string): seq<Order>
  {
    var c := FindCustomerByPhone(t.customers, UserOrdersPhoneKey(phone));
    if c == |t.customers| then [] else Reverse(Keep(t.orders, BookedTo(c)))
  }

  /** Exactly the orders booked to that customer are listed; none when no customer has the key. */
  lemma UserOrdersAreTheCustomers(t: Tables, phone: string)
    ensures var c := FindCustomerByPhone(t.customers, UserOrdersPhoneKey(phone));
      forall o :: o in UserOrders(t, phone) <==> c < |t.customers| && o in t.orders && o.customerId == c
  {
    var c := FindCustomerByPhone(t.customers, UserOrdersPhoneKey(phone));
    if c < |t.customers| {
      ReverseSameElements(Keep(t.orders, BookedTo(c)));
    }
  }

  /**
   * The listing is the customer's orders newest first: its j-th entry is the order at the j-th
   * of that customer's row keys taken in decreasing order, so no order appears twice and later
   * rows come first.
   */
  lemma UserOrdersNewestFirst(t: Tables, phone: string)
    ensures var c := FindCustomerByPhone(t.customers, UserOrdersPhoneKey(phone));
      var r := UserOrders(t, phone);
      var ks := Reverse(KeptPositions(t.orders, BookedTo(c), 0));
      && (c == |t.customers| ==> r == [])
      && (c < |t.customers| ==>
            && |r| == |ks|
            && (forall j :: 0 <= j < |ks| ==> ks[j] < |t.orders| && t.orders[ks[j]].customerId == c && r[j] == t.orders[ks[j]])
            && (forall a, b :: 0 <= a < b < |ks| ==> ks[a] > ks[b]))
  {
    var c := FindCustomerByPhone(t.customers, UserOrdersPhoneKey(phone));
    KeepNewestFirst(t.orders, BookedTo(c));
  }

  /** Every row key of an order of the customer occurs among the keys the listing follows. */
  lemma UserOrdersComplete(t: Tables, phone: string)
    ensures var c := FindCustomerByPhone(t.customers, UserOrdersPhoneKey(phone));
      forall k :: 0 <= k < |t.orders| && t.orders[k].customerId == c ==>
        k in Reverse(KeptPositions(t.orders, BookedTo(c), 0))
  {
    var c := FindCustomerByPhone(t.customers, UserOrdersPhoneKey(phone));
    KeepNewestFirstComplete(t.orders, BookedTo(c));
  }
}

=== FILE: outcomes.dfy ===
/** Optional values and the HTTP-style error results that the route handlers raise. */
module Outcomes {

  datatype Option<+T> = None | Some(value: T)

  /** An `HTTPException(status_code, detail)` raised by a handler. */
  datatype HttpError = HttpError(status: int, detail: string)

  /** A handler either returns its response or raises an HttpError. */
  datatype Result<+T> = Ok(value: T) | Err(error: HttpError)

  /** Python truthiness of an optional string: given and not empty. */
  predicate Given(s: Option<string>)
  {
    s.Some? && s.value != ""
  }

  /** `d.get(key, default)` for a string field: the value when present, else the default. */
  function OrDefault(o: Option<string>, default: string): string
  {
    if o.Some? then o.value else default
  }
}

=== FILE: payments.dfy ===
/**
 * app/api/routes/payments.py: the order updates behind Razorpay verification and cash on
 * delivery, and the amount conversion of the status route. The signature check and the
 * payment fetch are done by the payment service; their outcomes are inputs here (`verified`,
 * `fetch`), as is whether the database write went through (`dbOk`; on failure it is rolled back).
 */
module Payments {
  import opened Outcomes
  import opened Store

  datatype VerifyRequest = VerifyRequest(
    razorpayOrderId: string,
    razorpayPaymentId: string,
    razorpaySignature: string,
    orderId: string)

  /** The two bodies `/razorpay/verify` returns; neither is an HTTP error. */
  datatype VerifyReply =
    | Verified(paymentId: string, orderId: string)
    | VerificationFailed

  /** The order once a verified payment is recorded on it. */
  function MarkPaid(o: Order, req: VerifyRequest, now: int): Order
  {
    o.(paymentStatus := Paid, paymentMethod := "online",
       razorpayPaymentId := Some(req.razorpayPaymentId), razorpayOrderId := Some(req.razorpayOrderId),
       updatedAt := Some(now))
  }

  /**
   * `verify_razorpay_payment`: an unverified signature changes nothing; a verified one marks the
   * order paid when it exists and the write succeeds, and is reported verified in any case.
   */
  function VerifyPaymentStep(t: Tables, req: VerifyRequest, verified: bool, dbOk: bool, now: int): Step<VerifyReply>
  {
    if !verified then Step(t, Ok(VerificationFailed))
    else
      var k := FindOrder(t.orders, req.orderId);
      var tables := if k < |t.orders| && dbOk then t.(orders := t.orders[k := MarkPaid(t.orders[k], req, now)]) else t;
      Step(tables, Ok(Verified(req.razorpayPaymentId, req.orderId)))
  }

  method VerifyPayment(db: Db, req: VerifyRequest, verified: bool, dbOk: bool, now: int) returns (r: Result<VerifyReply>)
    modifies db
    ensures Step(db.Snapshot(), r) == VerifyPaymentStep(old(db.Snapshot()), req, verified, dbOk, now)
  {
    if !verified {
      return Ok(VerificationFailed);
    }
    var k := FindOrder(db.orders, req.orderId);
    if k < |db.orders| && dbOk {
      db.orders := db.orders[k := MarkPaid(db.orders[k], req, now)];
    }
    r := Ok(Verified(req.razorpayPaymentId, req.orderId));
  }

  /**
   * A verified payment on a stored order sets status "paid", method "online" and both Razorpay
   * ids on that order and on no other row; the reply is "verified" even when nothing was written.
   */
  lemma VerifiedPaymentMarksOrderPaid(t: Tables, req: VerifyRequest, dbOk: bool, now: int)
    ensures var s := VerifyPaymentStep(t, req, true, dbOk, now);
      var k := FindOrder(t.orders, req.orderId);
      && s.reply == Ok(Verified(req.razorpayPaymentId, req.orderId))
      && |s.tables.orders| == |t.orders|
      && s.tables == t.(orders := s.tables.orders)
      && (forall i :: 0 <= i < |t.orders| && i != k ==> s.tables.orders[i] == t.orders[i])
      && (k < |t.orders| && dbOk ==>
            var o := s.tables.orders[k];
            && o.orderId == req.orderId && PaymentValue(o.paymentStatus) == "paid" && o.paymentMethod == "online"
            && o.razorpayPaymentId == Some(req.razorpayPaymentId) && o.razorpayOrderId == Some(req.razorpayOrderId)
            && o.updatedAt == Some(now)
            && o.(paymentStatus := t.orders[k].paymentStatus, paymentMethod := t.orders[k].paymentMethod,
                  razorpayPaymentId := t.orders[k].razorpayPaymentId, razorpayOrderId := t.orders[k].razorpayOrderId,
                  updatedAt := t.orders[k].updatedAt) == t.orders[k])
      && (k == |t.orders| || !dbOk ==> s.tables == t)
  {
  }

  /** An unverified payment changes no row and is reported as failed. */
  lemma UnverifiedPaymentChangesNothing(t: Tables, req: VerifyRequest, dbOk: bool, now: int)
    ensures VerifyPaymentStep(t, req, false, dbOk, now) == Step(t, Ok(VerificationFailed))
  {
  }

  /** The handler only assigns its inputs: repeating a verification leaves the state of doing it once. */
  lemma VerifyPaymentIdempotent(t: Tables, req: VerifyRequest, verified: bool, dbOk: bool, now: int)
    ensures var once := VerifyPaymentStep(t, req, verified, dbOk, now);
      var twice := VerifyPaymentStep(once.tables, req, verified, dbOk, now);
      twice == once
  {
    var once := VerifyPaymentStep(t, req, verified, dbOk, now);
    var k := FindOrder(t.orders, req.orderId);
    if verified && k < |t.orders| && dbOk {
      var os := once.tables.orders;
      assert forall i :: 0 <= i < |os| ==> os[i].orderId == t.orders[i].orderId;
      assert FindOrder(os, req.orderId) == k;
    }
  }

  /** The body `/cod` always returns. */
  datatype CodReply = CodReply(message: string, orderId: string, paymentMethod: string, paymentStatus: string)

  /**
   * `process_cod_order`: a stored order gets method "cod" and payment status "pending" when the
   * write succeeds; the reply claims that outcome whether or not the order exists.
   */
  function CodStep(t: Tables, orderId: string, dbOk: bool, now: int): Step<CodReply>
  {
    var k := FindOrder(t.orders, orderId);
    var tables :=
      if k < |t.orders| && dbOk then
        t.(orders := t.orders[k := t.orders[k].(paymentMethod := "cod", paymentStatus := PaymentPending, updatedAt := Some(now))])
      else t;
    Step(tables, Ok(CodReply("COD order placed successfully", orderId, "cod", "pending")))
  }

  method ProcessCodOrder(db: Db, orderId: string, dbOk: bool, now: int) returns (r: Result<CodReply>)
    modifies db
    ensures Step(db.Snapshot(), r) == CodStep(old(db.Snapshot()), orderId, dbOk, now)
  {
    var k := FindOrder(db.orders, orderId);
    if k < |db.orders| && dbOk {
      db.orders := db.orders[k := db.orders[k].(paymentMethod := "cod", paymentStatus := PaymentPending, updatedAt := Some(now))];
    }
    r := Ok(CodReply("COD order placed successfully", orderId, "cod", "pending"));
  }

  /** COD always answers success with "cod"/"pending"; the stored order agrees with the answer exactly when it was written. */
  lemma CodSetsPendingCash(t: Tables, orderId: string, dbOk: bool, now: int)
    ensures var s := CodStep(t, orderId, dbOk, now);
      var k := FindOrder(t.orders, orderId);
      && s.reply.Ok? && s.reply.value.paymentMethod == "cod" && s.reply.value.paymentStatus == "pending"
      && s.reply.value.orderId == orderId
      && |s.tables.orders| == |t.orders|
      && s.tables == t.(orders := s.tables.orders)
      && (forall i :: 0 <= i < |t.orders| && i != k ==> s.tables.orders[i] == t.orders[i])
      && (k < |t.orders| && dbOk ==>
            s.tables.orders[k].paymentMethod == s.reply.value.paymentMethod
            && PaymentValue(s.tables.orders[k].paymentStatus) == s.reply.value.paymentStatus)
      && (k == |t.orders| || !dbOk ==> s.tables == t)
  {
  }

  /** What the payment service's `fetch_payment` returned: a failure, or the payment's (possibly missing) fields. */
  datatype PaymentFetch =
    | FetchFailed
    | Fetched(status: Option<string>, amountPaise: Option<int>, currency: Option<string>,
              payMethod: Option<string>, createdAt: Option<string>)

  datatype PaymentStatusReply = PaymentStatusReply(
    paymentId: string,
    status: string,
    amount: real,
    currency: string,
    payMethod: Option<string>,
    createdAt: Option<string>,
    mock: bool)

  /**
   * `check_payment_status`: a fetched payment is reported in rupees (paise / 100) with
   * "unknown", 0, "INR", "" and the current time for missing fields; a failed fetch is reported
   * as a mock "captured" payment of 0. `nowIso` is `datetime.now().isoformat()`.
   */
  function CheckPaymentStatus(paymentId: string, fetch: PaymentFetch, nowIso: string): (r: PaymentStatusReply)
    ensures r.paymentId == paymentId
    ensures r.mock <==> fetch.FetchFailed?
    ensures fetch.FetchFailed? ==> r.status == "captured" && r.amount == 0.0 && r.currency == "INR"
    ensures fetch.Fetched? ==> r.amount * 100.0 == (if fetch.amountPaise.Some? then fetch.amountPaise.value else 0) as real
    ensures fetch.Fetched? ==> r.status == OrDefault(fetch.status, "unknown") && r.currency == OrDefault(fetch.currency, "INR")
  {
    match fetch
    case FetchFailed => PaymentStatusReply(paymentId, "captured", 0.0, "INR", None, None, true)
    case Fetched(status, paise, currency, payMethod, createdAt) =>
      var p := if paise.Some? then paise.value else 0;
      PaymentStatusReply(paymentId, OrDefault(status, "unknown"), p as real / 100.0, OrDefault(currency, "INR"),
                         Some(OrDefault(payMethod, "")), Some(OrDefault(createdAt, nowIso)), false)
  }

  /** 49900 paise are reported as 499 rupees. */
  lemma PaiseToRupees(paymentId: string, nowIso: string)
    ensures CheckPaymentStatus(paymentId, Fetched(Some("captured"), Some(49900), None, None, None), nowIso).amount == 499.0
  {
  }
}

=== FILE: phones.dfy ===
/**
 * The "add 91 unless it is already there" phone rule. The same four lines appear as
 * `format_phone` in app/api/routes/auth.py and app/api/routes/admin.py, inline in
 * `verify_admin_access` of app/api/routes/admin_orders.py, and as `_format_phone` of
 * app/services/whatsapp_service.py; all of them use this one definition.
 */
module Phones {
  import opened Text

  /** Digits only; "91" is put in front exactly when there are 10 digits not already starting with "91". */
  function FormatPhone(phone: string): (r: string)
    ensures AllDigits(r)
    ensures var d := DigitsOnly(phone);
      (r == "91" + d && |d| == 10 && !StartsWith(d, "91"))
      || (r == d && !(|d| == 10 && !StartsWith(d, "91")))
  {
    var d := DigitsOnly(phone);
    if !StartsWith(d, "91") && |d| == 10 then "91" + d else d
  }

  /** Formatting an already formatted number changes nothing. */
  lemma FormatPhoneIdempotent(phone: string)
    ensures FormatPhone(FormatPhone(phone)) == FormatPhone(phone)
  {
    var r := FormatPhone(phone);
    assert DigitsOnly(r) == r;
    if |r| == 10 {
      var d := DigitsOnly(phone);
      assert r == d && StartsWith(d, "91");
    }
  }

  /** The result is 12 long exactly when the digits are 12 long, or 10 long without a leading "91". */
  lemma FormatPhoneLength(phone: string)
    ensures var d := DigitsOnly(phone);
      |FormatPhone(phone)| == 12 <==> (|d| == 12 || (|d| == 10 && !StartsWith(d, "91")))
  {
  }

  /** A 10-digit number that itself begins with "91" keeps its 10 digits: no country code is added. */
  lemma TenDigitsStartingWith91Stay(phone: string)
    requires |DigitsOnly(phone)| == 10 && StartsWith(DigitsOnly(phone), "91")
    ensures FormatPhone(phone) == DigitsOnly(phone) && |FormatPhone(phone)| == 10
  {
  }

  lemma PlainTenDigits()
    ensures DigitsOnly("8887948909") == "8887948909" && !StartsWith("8887948909", "91")
  {
    assert AllDigits("8887948909");
    assert "8887948909"[..2] == "88";
  }

  lemma TenDigitsWith91()
    ensures DigitsOnly("9123456789") == "9123456789" && StartsWith("9123456789", "91")
  {
    assert AllDigits("9123456789");
    assert "9123456789"[..2] == "91";
  }

  lemma SignedNumber()
    ensures DigitsOnly("+918887948909") == "918887948909" && StartsWith("918887948909", "91")
  {
    assert "+918887948909"[1..] == "918887948909";
    assert AllDigits("918887948909");
    assert "918887948909"[..2] == "91";
  }

  /** A bare 10-digit number gains "91". */
  lemma FormatPhoneBareNumber()
    ensures FormatPhone("8887948909") == "918887948909"
  {
    PlainTenDigits();
    assert FormatPhone("8887948909") == "91" + "8887948909";
    CountryCodeOfBareNumber();
  }

  lemma CountryCodeOfBareNumber()
    ensures "91" + "8887948909" == "918887948909"
  {
  }

  /** "+91..." loses only the "+". */
  lemma FormatPhoneInternational()
    ensures FormatPhone("+918887948909") == "918887948909"
  {
    SignedNumber();
  }

  /** "91xxxxxxxx" stays 10 digits long. */
  lemma FormatPhoneTenWith91()
    ensures FormatPhone("9123456789") == "9123456789"
  {
    TenDigitsWith91();
  }
}

=== FILE: products.dfy ===
/**
 * The catalogue routes of app/api/routes/products.py: the filters of the list endpoint,
 * lookup by slug, and the category and search endpoints. The routes read the constant
 * catalogue `Products`; every function here takes the catalogue as a parameter so that the
 * properties hold for any catalogue.
 */
module Products {
  import opened Outcomes
  import opened Text
  import opened Seqs

  datatype Product = Product(
    id: int,
    name: string,
    slug: string,
    category: string,
    price: real,
    mrp: real,
    discount: int,
    size: string,
    unit: string,
    image: string,
    description: string,
    inStock: bool,
    rating: real,
    reviews: int)

  const Products: seq<Product> := [
    Product(1, "Premium Black Mustard Oil (Kachi Ghani)", "black-mustard-oil", "Mustard Oil",
            200.0, 299.0, 20, "1", "Liter", "/images/products/black-mustard-oil.jpg",
            "Pure cold-pressed black mustard oil extracted using traditional wooden Ghani method.",
            true, 4.8, 234),
    Product(2, "Yellow Mustard Oil (Kachi Ghani)", "yellow-mustard-oil", "Mustard Oil",
            210.0, 349.0, 21, "1", "Liter", "/images/products/yellow-mustard-oil.jpg",
            "Cold-pressed yellow mustard oil with mild flavor.",
            true, 4.7, 189)
  ]

  predicate MatchesCategory(p: Product, category: string)
  {
    Lower(p.category) == Lower(category)
  }

  /** The lower-cased query is a substring of the lower-cased name or description. */
  predicate MatchesSearch(p: Product, query: string)
  {
    Contains(Lower(p.name), Lower(query)) || Contains(Lower(p.description), Lower(query))
  }

  /** The query parameters of the list endpoint; None is a parameter not given. */
  datatype Filters = Filters(
    category: Option<string>,
    search: Option<string>,
    minPrice: Option<real>,
    maxPrice: Option<real>,
    inStockOnly: bool)

  predicate PassesCategory(p: Product, f: Filters)
  {
    Given(f.category) ==> MatchesCategory(p, f.category.value)
  }

  predicate PassesSearch(p: Product, f: Filters)
  {
    Given(f.search) ==> MatchesSearch(p, f.search.value)
  }

  predicate PassesMinPrice(p: Product, f: Filters)
  {
    f.minPrice.Some? ==> p.price >= f.minPrice.value
  }

  predicate PassesMaxPrice(p: Product, f: Filters)
  {
    f.maxPrice.Some? ==> p.price <= f.maxPrice.value
  }

  predicate PassesStock(p: Product, f: Filters)
  {
    f.inStockOnly ==> p.inStock
  }

  /** A product meets every filter that is switched on. */
  predicate MatchesAll(p: Product, f: Filters)
  {
    PassesCategory(p, f) && PassesSearch(p, f) && PassesMinPrice(p, f)
    && PassesMaxPrice(p, f) && PassesStock(p, f)
  }

  predicate NoFilters(f: Filters)
  {
    !Given(f.category) && !Given(f.search) && f.minPrice.None? && f.maxPrice.None? && !f.inStockOnly
  }

  function ByCategory(ps: seq<Product>, f: Filters): (r: seq<Product>)
    ensures r == Keep(ps, (p: Product) => PassesCategory(p, f))
  {
    if Given(f.category) then
      KeepSameTest(ps, (p: Product) => MatchesCategory(p, f.category.value), (p: Product) => PassesCategory(p, f));
      Keep(ps, (p: Product) => MatchesCategory(p, f.category.value))
    else
      KeepAll(ps, (p: Product) => PassesCategory(p, f));
      ps
  }

  function BySearch(ps: seq<Product>, f: Filters): (r: seq<Product>)
    ensures r == Keep(ps, (p: Product) => PassesSearch(p, f))
  {
    if Given(f.search) then
      KeepSameTest(ps, (p: Product) => MatchesSearch(p, f.search.value), (p: Product) => PassesSearch(p, f));
      Keep(ps, (p: Product) => MatchesSearch(p, f.search.value))
    else
      KeepAll(ps, (p: Product) => PassesSearch(p, f));
      ps
  }

  function ByMinPrice(ps: seq<Product>, f: Filters): (r: seq<Product>)
    ensures r == Keep(ps, (p: Product) => PassesMinPrice(p, f))
  {
    if f.minPrice.Some? then
      KeepSameTest(ps, (p: Product) => p.price >= f.minPrice.value, (p: Product) => PassesMinPrice(p, f));
      Keep(ps, (p: Product) => p.price >= f.minPrice.value)
    else
      KeepAll(ps, (p: Product) => PassesMinPrice(p, f));
      ps
  }

  function ByMaxPrice(ps: seq<Product>, f: Filters): (r: seq<Product>)
    ensures r == Keep(ps, (p: Product) => PassesMaxPrice(p, f))
  {
    if f.maxPrice.Some? then
      KeepSameTest(ps, (p: Product) => p.price <= f.maxPrice.value, (p: Product) => PassesMaxPrice(p, f));
      Keep(ps, (p: Product) => p.price <= f.maxPrice.value)
    else
      KeepAll(ps, (p: Product) => PassesMaxPrice(p, f));
      ps
  }

  function ByStock(ps: seq<Product>, f: Filters): (r: seq<Product>)
    ensures r == Keep(ps, (p: Product) => PassesStock(p, f))
  {
    if f.inStockOnly then
      KeepSameTest(ps, (p: Product) => p.inStock, (p: Product) => PassesStock(p, f));
      Keep(ps, (p: Product) => p.inStock)
    else
      KeepAll(ps, (p: Product) => PassesStock(p, f));
      ps
  }

  /** `get_all_products`: the five filters applied one after another, category first. */
  function GetAllProducts(catalogue: seq<Product>, f: Filters): (r: seq<Product>)
    ensures r == Keep(catalogue, (p: Product) => MatchesAll(p, f))
  {
    var s1 := ByCategory(catalogue, f);
    var s2 := BySearch(s1, f);
    var s3 := ByMinPrice(s2, f);
    var s4 := ByMaxPrice(s3, f);
    var s5 := ByStock(s4, f);
    PipelineIsOneFilter(catalogue, f);
    s5
  }

  /** The five comprehensions in a row are one comprehension testing all filters at once. */
  lemma PipelineIsOneFilter(catalogue: seq<Product>, f: Filters)
    ensures Keep(Keep(Keep(Keep(Keep(catalogue,
              (p: Product) => PassesCategory(p, f)),
              (p: Product) => PassesSearch(p, f)),
              (p: Product) => PassesMinPrice(p, f)),
              (p: Product) => PassesMaxPrice(p, f)),
              (p: Product) => PassesStock(p, f))
         == Keep(catalogue, (p: Product) => MatchesAll(p, f))
  {
    var c1 := (p: Product) => PassesCategory(p, f);
    var c2 := (p: Product) => PassesCategory(p, f) && PassesSearch(p, f);
    var c3 := (p: Product) => PassesCategory(p, f) && PassesSearch(p, f) && PassesMinPrice(p, f);
    var c4 := (p: Product) => PassesCategory(p, f) && PassesSearch(p, f) && PassesMinPrice(p, f)
                              && PassesMaxPrice(p, f);
    KeepTwice(catalogue, c1, (p: Product) => PassesSearch(p, f), c2);
    KeepTwice(catalogue, c2, (p: Product) => PassesMinPrice(p, f), c3);
    KeepTwice(catalogue, c3, (p: Product) => PassesMaxPrice(p, f), c4);
    KeepTwice(catalogue, c4, (p: Product) => PassesStock(p, f), (p: Product) => MatchesAll(p, f));
  }

  /** Every product returned is in the catalogue and meets the filters; every catalogue product meeting them is returned, in catalogue order. */
  lemma GetAllProductsSoundAndComplete(catalogue: seq<Product>, f: Filters)
    ensures IsSubsequence(GetAllProducts(catalogue, f), catalogue)
    ensures forall p :: p in GetAllProducts(catalogue, f) <==> p in catalogue && MatchesAll(p, f)
  {
  }

  /** With no filter given, the whole catalogue comes back in order. */
  lemma GetAllProductsUnfiltered(catalogue: seq<Product>, f: Filters)
    requires NoFilters(f)
    ensures GetAllProducts(catalogue, f) == catalogue
  {
  }

  /** `get_product_by_slug`: the first product with that slug, else 404. */
  function GetProductBySlug(catalogue: seq<Product>, slug: string): (r: Result<Product>)
    ensures r.Ok? ==> r.value in catalogue && r.value.slug == slug
    ensures r.Err? <==> forall p :: p in catalogue ==> p.slug != slug
    ensures r.Err? ==> r.error == HttpError(404, "Product not found")
  {
    if catalogue == [] then Err(HttpError(404, "Product not found"))
    else if catalogue[0].slug == slug then Ok(catalogue[0])
    else GetProductBySlug(catalogue[1..], slug)
  }

  /** The product found is the earliest with that slug. */
  lemma {:induction false} GetProductBySlugFirst(catalogue: seq<Product>, slug: string, i: nat)
    requires i < |catalogue| && catalogue[i].slug == slug
    ensures exists j ::
      0 <= j <= i && GetProductBySlug(catalogue, slug) == Ok(catalogue[j])
      && forall m :: 0 <= m < j ==> catalogue[m].slug != slug
  {
    if catalogue[0].slug != slug {
      GetProductBySlugFirst(catalogue[1..], slug, i - 1);
      var j :| 0 <= j <= i - 1 && GetProductBySlug(catalogue[1..], slug) == Ok(catalogue[1..][j])
        && forall m :: 0 <= m < j ==> catalogue[1..][m].slug != slug;
      assert GetProductBySlug(catalogue, slug) == Ok(catalogue[j + 1]);
      assert forall m :: 0 < m < j + 1 ==> catalogue[m] == catalogue[1..][m - 1];
    } else {
      assert GetProductBySlug(catalogue, slug) == Ok(catalogue[0]);
    }
  }

  lemma BlackOilSlug()
    ensures Products[0].slug == "black-mustard-oil"
  {
  }

  /** The shop's own catalogue: the black mustard oil is found by its slug. */
  lemma BlackMustardOilBySlug()
    ensures GetProductBySlug(Products, "black-mustard-oil") == Ok(Products[0])
  {
    BlackOilSlug();
  }

  /** What the category endpoint answers. */
  datatype CategoryListing = CategoryListing(category: string, count: nat, products: seq<Product>)

  /** `get_products_by_category`: the products of that category, any case, with their count. */
  function GetProductsByCategory(catalogue: seq<Product>, category: string): (r: CategoryListing)
    ensures r.count == |r.products| && r.category == category
    ensures forall p :: p in r.products <==> p in catalogue && MatchesCategory(p, category)
  {
    var ps := Keep(catalogue, (p: Product) => MatchesCategory(p, category));
    CategoryListing(category, |ps|, ps)
  }

  /** For a non-empty category it is the list endpoint with only that filter. */
  lemma CategoryEndpointAgrees(catalogue: seq<Product>, category: string)
    requires category != ""
    ensures GetProductsByCategory(catalogue, category).products
         == GetAllProducts(catalogue, Filters(Some(category), None, None, None, false))
  {
  }

  /** What the search endpoint answers. */
  datatype SearchListing = SearchListing(query: string, count: nat, results: seq<Product>)

  /** `search_products`: the products whose name or description contains the query, any case. */
  function SearchProducts(catalogue: seq<Product>, query: string): (r: SearchListing)
    ensures r.count == |r.results| && r.query == query
    ensures forall p :: p in r.results <==> p in catalogue && MatchesSearch(p, query)
  {
    var ps := Keep(catalogue, (p: Product) => MatchesSearch(p, query));
    SearchListing(query, |ps|, ps)
  }

  /** For a non-empty query it is the list endpoint with only the search filter. */
  lemma SearchEndpointAgrees(catalogue: seq<Product>, query: string)
    requires query != ""
    ensures SearchProducts(catalogue, query).results
         == GetAllProducts(catalogue, Filters(None, Some(query), None, None, false))
  {
  }
}

=== FILE: seqs.dfy ===
/**
 * Generic operations on the rows of a list or a table: order-preserving selection
 * (a list comprehension with an `if`, or a query `filter`), the first match (`.first()`,
 * `next(...)`), and reversal (a listing sorted newest first over rows kept in insertion order).
 */
module Seqs {

  /** `a` is `b` with some elements removed, order kept. */
  predicate IsSubsequence<T(==)>(a: seq<T>, b: seq<T>)
    decreases |b|
  {
    if a == [] then true
    else if b == [] then false
    else if a[0] == b[0] then IsSubsequence(a[1..], b[1..])
    else IsSubsequence(a, b[1..])
  }

  /** `[x for x in s if keep(x)]`. */
  function Keep<T(==)>(s: seq<T>, keep: T -> bool): (r: seq<T>)
    ensures IsSubsequence(r, s)
    ensures forall x :: x in r ==> x in s && keep(x)
    ensures forall x :: x in s && keep(x) ==> x in r
  {
    if s == [] then []
    else if keep(s[0]) then [s[0]] + Keep(s[1..], keep)
    else Keep(s[1..], keep)
  }

  /** Two selections in a row keep what one selection with both tests keeps. */
  lemma {:induction false} KeepTwice<T>(s: seq<T>, f: T -> bool, g: T -> bool, both: T -> bool)
    requires forall x :: both(x) == (f(x) && g(x))
    ensures Keep(Keep(s, f), g) == Keep(s, both)
  {
    if s != [] {
      KeepTwice(s[1..], f, g, both);
      if f(s[0]) {
        assert Keep(s, f) == [s[0]] + Keep(s[1..], f);
        assert Keep(s, f)[1..] == Keep(s[1..], f);
      }
    }
  }

  /** A selection whose test always holds copies the list. */
  lemma {:induction false} KeepAll<T>(s: seq<T>, keep: T -> bool)
    requires forall x :: x in s ==> keep(x)
    ensures Keep(s, keep) == s
  {
    if s != [] {
      assert forall x :: x in s[1..] ==> x in s;
      KeepAll(s[1..], keep);
    }
  }

  /** Selections with tests that agree everywhere agree. */
  lemma {:induction false} KeepSameTest<T>(s: seq<T>, f: T -> bool, g: T -> bool)
    requires forall x :: f(x) == g(x)
    ensures Keep(s, f) == Keep(s, g)
  {
    if s != [] {
      KeepSameTest(s[1..], f, g);
    }
  }

  /** The positions, from `i` on, of the rows `keep` accepts, in table order. */
  function KeptPositions<T>(s: seq<T>, keep: T -> bool, i: nat): seq<nat>
    decreases |s| - i
  {
    if i >= |s| then [] else (if keep(s[i]) then [i] else []) + KeptPositions(s, keep, i + 1)
  }

  /**
   * A selection lists exactly the accepted rows, each once, in table order: its j-th element is
   * the row at the j-th accepted position, and the positions increase.
   */
  lemma {:induction false} KeepAtPositions<T>(s: seq<T>, keep: T -> bool, i: nat)
    requires i <= |s|
    ensures var r := Keep(s[i..], keep);
      var ps := KeptPositions(s, keep, i);
      && |r| == |ps|
      && (forall j :: 0 <= j < |ps| ==> i <= ps[j] < |s| && keep(s[ps[j]]) && r[j] == s[ps[j]])
      && (forall a, b :: 0 <= a < b < |ps| ==> ps[a] < ps[b])
      && (forall k :: i <= k < |s| && keep(s[k]) ==> k in ps)
    decreases |s| - i
  {
    if i == |s| {
      assert s[i..] == [];
    } else {
      KeepAtPositions(s, keep, i + 1);
      KeepStep(s, keep, i);
      var rest := KeptPositions(s, keep, i + 1);
      var ps := KeptPositions(s, keep, i);
      var r := Keep(s[i..], keep);
      var r' := Keep(s[i + 1..], keep);
      if keep(s[i]) {
        assert ps == [i] + rest;
        assert r == [s[i]] + r';
        forall j | 0 <= j < |ps|
          ensures i <= ps[j] < |s| && keep(s[ps[j]]) && r[j] == s[ps[j]]
        {
          if j > 0 {
            assert ps[j] == rest[j - 1] && r[j] == r'[j - 1];
          }
        }
        forall a, b | 0 <= a < b < |ps|
          ensures ps[a] < ps[b]
        {
          assert ps[b] == rest[b - 1];
          if a > 0 {
            assert ps[a] == rest[a - 1];
          }
        }
        forall k | i <= k < |s| && keep(s[k])
          ensures k in ps
        {
          if k > i {
            assert k in rest;
          }
        }
      } else {
        assert ps == rest;
        assert r == r';
      }
    }
  }

  /**
   * A selection listed newest first: its j-th element is the row at the j-th accepted position
   * taken in decreasing order.
   */
  lemma KeepNewestFirst<T>(s: seq<T>, keep: T -> bool)
    ensures var r := Reverse(Keep(s, keep));
      var ks := Reverse(KeptPositions(s, keep, 0));
      && |r| == |ks|
      && (forall j :: 0 <= j < |ks| ==> ks[j] < |s| && keep(s[ks[j]]) && r[j] == s[ks[j]])
      && (forall a, b :: 0 <= a < b < |ks| ==> ks[a] > ks[b])
  {
    assert s[0..] == s;
    KeepAtPositions(s, keep, 0);
    ReverseMatched(s, keep, Keep(s, keep), KeptPositions(s, keep, 0));
    ReverseDecreasing(KeptPositions(s, keep, 0));
  }

  /** Every accepted position occurs among the positions listed newest first. */
  lemma KeepNewestFirstComplete<T>(s: seq<T>, keep: T -> bool)
    ensures forall k :: 0 <= k < |s| && keep(s[k]) ==> k in Reverse(KeptPositions(s, keep, 0))
  {
    assert s[0..] == s;
    KeepAtPositions(s, keep, 0);
    ReverseCovers(s, keep, KeptPositions(s, keep, 0));
  }

  /** Reversing two matched lists together keeps them matched. */
  lemma ReverseMatched<T>(s: seq<T>, keep: T -> bool, r: seq<T>, ps: seq<nat>)
    requires |r| == |ps|
    requires forall j :: 0 <= j < |ps| ==> ps[j] < |s| && keep(s[ps[j]]) && r[j] == s[ps[j]]
    ensures var rr := Reverse(r);
      var ks := Reverse(ps);
      forall j :: 0 <= j < |ks| ==> ks[j] < |s| && keep(s[ks[j]]) && rr[j] == s[ks[j]]
  {
    var rr := Reverse(r);
    var ks := Reverse(ps);
    forall j | 0 <= j < |ks|
      ensures ks[j] < |s| && keep(s[ks[j]]) && rr[j] == s[ks[j]]
    {
      var m := |ps| - 1 - j;
      assert ks[j] == ps[m] && rr[j] == r[m];
    }
  }

  /** Reversing a list of positions keeps every position in it. */
  lemma ReverseCovers<T>(s: seq<T>, keep: T -> bool, ps: seq<nat>)
    requires forall k :: 0 <= k < |s| && keep(s[k]) ==> k in ps
    ensures forall k :: 0 <= k < |s| && keep(s[k]) ==> k in Reverse(ps)
  {
    ReverseSameElements(ps);
  }

  /** Reversing an increasing list of positions gives a decreasing one. */
  lemma ReverseDecreasing(ps: seq<nat>)
    requires forall a, b :: 0 <= a < b < |ps| ==> ps[a] < ps[b]
    ensures var ks := Reverse(ps);
      forall a, b :: 0 <= a < b < |ks| ==> ks[a] > ks[b]
  {
    var ks := Reverse(ps);
    forall a, b | 0 <= a < b < |ks|
      ensures ks[a] > ks[b]
    {
      assert ks[a] == ps[|ps| - 1 - a] && ks[b] == ps[|ps| - 1 - b];
    }
  }

  /** Selecting from a suffix starting at `i` decides the row at `i`, then selects from the rest. */
  lemma KeepStep<T>(s: seq<T>, keep: T -> bool, i: nat)
    requires i < |s|
    ensures Keep(s[i..], keep) == (if keep(s[i]) then [s[i]] else []) + Keep(s[i + 1..], keep)
  {
    assert s[i..][0] == s[i];
    assert s[i..][1..] == s[i + 1..];
  }

  /** The position of the first row satisfying `p`, or `|rows|` when there is none. */
  function FirstIndex<T>(rows: seq<T>, p: T -> bool): (k: nat)
    ensures k <= |rows|
    ensures k < |rows| ==> p(rows[k])
    ensures forall j :: 0 <= j < k ==> !p(rows[j])
  {
    if rows == [] then 0 else if p(rows[0]) then 0 else 1 + FirstIndex(rows[1..], p)
  }

  /** The rows from last to first. */
  function Reverse<T>(s: seq<T>): (r: seq<T>)
    ensures |r| == |s|
    ensures forall i :: 0 <= i < |s| ==> r[i] == s[|s| - 1 - i]
  {
    if s == [] then [] else Reverse(s[1..]) + [s[0]]
  }

  /** Reversal loses and adds nothing. */
  lemma ReverseSameElements<T>(s: seq<T>)
    ensures forall x :: x in Reverse(s) <==> x in s
  {
    var r := Reverse(s);
    forall x | x in s ensures x in r {
      var i :| 0 <= i < |s| && s[i] == x;
      assert r[|s| - 1 - i] == x;
    }
  }
}

=== FILE: shipping_config.dfy ===
/** The free-shipping rule of app/config/shipping_config.py (`ShippingConfig`), as plain functions on amounts in rupees. */
module ShippingConfig {

  const FreeShippingThreshold: real := 999000000.0
  const DefaultShippingCharge: real := 50.0
  const DefaultCodCharge: real := 40.0
  const DefaultWeightPerItem: real := 1.0

  /** `is_free_shipping_eligible`. */
  predicate IsFreeShippingEligible(subtotal: real)
  {
    subtotal >= FreeShippingThreshold
  }

  /** `get_shipping_charge`: free when eligible, otherwise the charge passed in. */
  function GetShippingCharge(subtotal: real, calculatedCharge: real): (r: real)
    ensures IsFreeShippingEligible(subtotal) ==> r == 0.0
    ensures !IsFreeShippingEligible(subtotal) ==> r == calculatedCharge
  {
    if IsFreeShippingEligible(subtotal) then 0.0 else calculatedCharge
  }

  /** `get_amount_needed_for_free_shipping`: how far the subtotal is below the threshold, never negative. */
  function AmountNeededForFreeShipping(subtotal: real): (r: real)
    ensures r >= 0.0
    ensures r == 0.0 <==> IsFreeShippingEligible(subtotal)
    ensures r > 0.0 ==> subtotal + r == FreeShippingThreshold
  {
    var remaining := FreeShippingThreshold - subtotal;
    if remaining > 0.0 then remaining else 0.0
  }

  /** Adding the amount needed always makes the order eligible, and adding less never does. */
  lemma AmountNeededIsExact(subtotal: real, extra: real)
    ensures IsFreeShippingEligible(subtotal + AmountNeededForFreeShipping(subtotal))
    ensures 0.0 <= extra < AmountNeededForFreeShipping(subtotal) ==> !IsFreeShippingEligible(subtotal + extra)
  {
  }

  /** `get_threshold`. */
  function GetThreshold(): (t: real)
    ensures t == 999000000.0
    ensures IsFreeShippingEligible(t) && !IsFreeShippingEligible(t - 1.0)
  {
    FreeShippingThreshold
  }
}

=== FILE: shiprocket_service.dfy ===
/**
 * The deterministic rules inside the Shiprocket adapter (app/services/shiprocket_service.py):
 * the 10-digit phone rule, the courier choice, the ETA wording, and the development
 * tariff and pincode table. The HTTP reply of the serviceability endpoint is an input.
 */
module ShiprocketService {
  import opened Outcomes
  import opened Text
  import Phones

  // ---------------------------------------------------------------- phone numbers

  /** Digits only, then "91" dropped from a 12-digit number and "0" from an 11-digit one. */
  function FormatPhoneNumber(phone: string): (r: string)
    ensures AllDigits(r)
    ensures var d := DigitsOnly(phone);
      if |d| == 12 && StartsWith(d, "91") then r == d[2..]
      else if |d| == 11 && StartsWith(d, "0") then r == d[1..]
      else r == d
  {
    var d := DigitsOnly(phone);
    var withoutCountry := if StartsWith(d, "91") && |d| == 12 then d[2..] else d;
    if StartsWith(withoutCountry, "0") && |withoutCountry| == 11 then withoutCountry[1..]
    else withoutCountry
  }

  /** The result is 10 digits long exactly when the input had 10 digits, or 12 led by "91", or 11 led by "0". */
  lemma FormatPhoneNumberLength(phone: string)
    ensures var d := DigitsOnly(phone);
      |FormatPhoneNumber(phone)| == 10
      <==> (|d| == 10 || (|d| == 12 && StartsWith(d, "91")) || (|d| == 11 && StartsWith(d, "0")))
  {
  }

  /** A second application changes nothing. */
  lemma FormatPhoneNumberIdempotent(phone: string)
    ensures FormatPhoneNumber(FormatPhoneNumber(phone)) == FormatPhoneNumber(phone)
  {
    var r := FormatPhoneNumber(phone);
    assert DigitsOnly(r) == r;
  }

  lemma CountryCodeTwelve()
    ensures AllDigits("918887948909") && StartsWith("918887948909", "91")
    ensures "918887948909"[2..] == "8887948909"
  {
    assert "918887948909"[..2] == "91";
  }

  lemma LeadingZeroEleven()
    ensures AllDigits("08887948909") && StartsWith("08887948909", "0")
    ensures "08887948909"[1..] == "8887948909"
  {
    assert "08887948909"[..1] == "0";
  }

  /** "+918887948909" gives "8887948909". */
  lemma FormatPhoneNumberSigned()
    ensures FormatPhoneNumber("+918887948909") == "8887948909"
  {
    Phones.SignedNumber();
    CountryCodeTwelve();
  }

  /** "918887948909" gives "8887948909". */
  lemma FormatPhoneNumberCountryCode()
    ensures FormatPhoneNumber("918887948909") == "8887948909"
  {
    CountryCodeTwelve();
  }

  /** "08887948909" gives "8887948909". */
  lemma FormatPhoneNumberTrunkZero()
    ensures FormatPhoneNumber("08887948909") == "8887948909"
  {
    LeadingZeroEleven();
  }

  /** "8887948909" is already in form. */
  lemma FormatPhoneNumberPlain()
    ensures FormatPhoneNumber("8887948909") == "8887948909"
  {
    Phones.PlainTenDigits();
  }

  // ---------------------------------------------------------------- JSON fields

  /** A value read from a courier record: key absent, JSON null, a number or a string. */
  datatype Field = Absent | Null | Num(n: real) | Str(s: string)

  /** Python truthiness of the value. */
  predicate Truthy(f: Field)
  {
    match f
    case Absent => false
    case Null => false
    case Num(n) => n != 0.0
    case Str(s) => s != ""
  }

  /** `record.get(key)`: an absent key reads as None. */
  function Get(f: Field): Field
  {
    if f.Absent? then Null else f
  }

  /** `record.get(key, default)`. */
  function GetOr(f: Field, default: Field): Field
  {
    if f.Absent? then default else f
  }

  /** Python `a or b`. */
  function Or(a: Field, b: Field): Field
  {
    if Truthy(a) then a else b
  }

  /**
   * Python `float(s)` on plain decimals: digits, at most one '.', at least one digit.
   * Every other string gives None, including the signed, exponent, padded and
   * "inf"/"nan" forms that `float` also accepts.
   */
  function ParseDecimal(s: string): Option<real>
  {
    var k := IndexOf(s, '.');
    var whole := s[..k];
    var frac := if k < |s| then s[k + 1..] else "";
    if AllDigits(whole) && AllDigits(frac) && |whole| + |frac| > 0
    then Some(DecimalValue(whole, frac))
    else None
  }

  /** The number written `whole.frac`. */
  function DecimalValue(whole: string, frac: string): real
    requires AllDigits(whole) && AllDigits(frac)
  {
    ValueOf(whole) as real + ValueOf(frac) as real / Pow10(|frac|) as real
  }

  /** Python `float(x)`; None stands for the exception it raises. */
  function ToFloat(f: Field): Option<real>
  {
    match f
    case Absent => None
    case Null => None
    case Num(n) => Some(n)
    case Str(s) => ParseDecimal(s)
  }

  lemma NoDotInDigits(s: string)
    requires AllDigits(s)
    ensures IndexOf(s, '.') == |s|
  {
  }

  /** `float(str(n)) == n`. */
  lemma ParseDecimalOfNat(n: nat)
    ensures ParseDecimal(NatToString(n)) == Some(n as real)
  {
    var s := NatToString(n);
    NoDotInDigits(s);
    assert s[..|s|] == s;
    NatToStringValue(n);
  }

  /** Digits, a '.', and digits read back as the whole part plus the fraction over its power of ten. */
  lemma ParseDecimalOfParts(whole: string, frac: string)
    requires |whole| > 0 && AllDigits(whole) && AllDigits(frac)
    ensures ParseDecimal(whole + "." + frac) == Some(DecimalValue(whole, frac))
  {
    var s := whole + "." + frac;
    IndexOfAfterDigits(whole, frac);
    assert s[..|whole|] == whole;
    assert s[|whole| + 1..] == frac;
  }

  /** The number written with the digits of `a`, a '.', and `b` in `w` digits is `a + b / 10^w`. */
  lemma DecimalValueOf(a: nat, b: nat, w: nat)
    requires b < Pow10(w)
    ensures DecimalValue(NatToString(a), Digits(b, w)) == a as real + b as real / Pow10(w) as real
  {
    NatToStringValue(a);
    DigitsValue(b, w);
  }

  lemma {:induction false} IndexOfAfterDigits(whole: string, rest: string)
    requires AllDigits(whole)
    ensures IndexOf(whole + "." + rest, '.') == |whole|
  {
    if whole != [] {
      assert (whole + "." + rest)[1..] == whole[1..] + "." + rest;
      IndexOfAfterDigits(whole[1..], rest);
    }
  }

  // ---------------------------------------------------------------- courier choice

  /** One entry of `available_courier_companies`; an absent name, city or state is None. */
  datatype Courier = Courier(
    courierName: Option<string>,
    rate: Field,
    freightCharge: Field,
    totalCharge: Field,
    codCharges: Field,
    codCharge: Field,
    cod: Field,
    etd: Field,
    city: Option<string>,
    state: Option<string>)

  /** The preferred courier: its lower-cased name mentions "amazon shipping surface". */
  predicate IsAmazonSurface(c: Courier)
  {
    Contains(Lower(OrDefault(c.courierName, "")), "amazon shipping surface")
  }

  const UnknownRate: real := 999999.0

  /** `get_rate`: the first truthy of rate, freight_charge, total_charge; None or a failed `float` is 999999. */
  function Rate(c: Courier): real
  {
    var f := Or(Or(Get(c.rate), Get(c.freightCharge)), Get(c.totalCharge));
    if f.Null? then UnknownRate
    else match ToFloat(f)
      case Some(v) => v
      case None => UnknownRate
  }

  /** A zero, empty or missing rate is skipped: freight_charge is used instead. */
  lemma ZeroRateFallsThrough(c: Courier)
    requires !Truthy(c.rate)
    ensures Rate(c) == Rate(c.(rate := Absent))
  {
  }

  /** No usable number anywhere: the courier sorts last, at 999999. */
  lemma UnpricedCourierIsLast(c: Courier)
    requires !Truthy(c.rate) && !Truthy(c.freightCharge) && ToFloat(c.totalCharge).None?
    ensures Rate(c) == UnknownRate
  {
  }

  predicate HasAmazonSurface(cs: seq<Courier>)
  {
    exists j :: 0 <= j < |cs| && IsAmazonSurface(cs[j])
  }

  /**
   * What the two-step choice promises: the first Amazon Shipping Surface courier when there
   * is one, else a courier of least rate, the earliest of them on a tie.
   */
  predicate IsSelection(cs: seq<Courier>, i: nat)
  {
    i < |cs| &&
    if HasAmazonSurface(cs) then
      IsAmazonSurface(cs[i]) && (forall j :: 0 <= j < i ==> !IsAmazonSurface(cs[j]))
    else
      (forall j :: 0 <= j < |cs| ==> Rate(cs[i]) <= Rate(cs[j]))
      && (forall j :: 0 <= j < i ==> Rate(cs[i]) < Rate(cs[j]))
  }

  /** The promise pins down one courier. */
  lemma SelectionIsUnique(cs: seq<Courier>, i: nat, k: nat)
    requires IsSelection(cs, i) && IsSelection(cs, k)
    ensures i == k
  {
    if HasAmazonSurface(cs) {
      assert IsAmazonSurface(cs[i]) && IsAmazonSurface(cs[k]);
    } else {
      assert Rate(cs[i]) <= Rate(cs[k]) && Rate(cs[k]) <= Rate(cs[i]);
    }
  }

  /** The index of the first preferred courier, or |cs| when there is none. */
  function FirstAmazonSurface(cs: seq<Courier>): (i: nat)
    ensures i <= |cs|
    ensures i < |cs| ==> IsAmazonSurface(cs[i])
    ensures forall j :: 0 <= j < i ==> !IsAmazonSurface(cs[j])
  {
    if cs == [] then 0
    else if IsAmazonSurface(cs[0]) then 0
    else 1 + FirstAmazonSurface(cs[1..])
  }

  /** Python `min(cs, key=get_rate)`: a least rate, the first one on a tie. */
  function Cheapest(cs: seq<Courier>): (i: nat)
    requires |cs| > 0
    ensures i < |cs|
    ensures forall j :: 0 <= j < |cs| ==> Rate(cs[i]) <= Rate(cs[j])
    ensures forall j :: 0 <= j < i ==> Rate(cs[i]) < Rate(cs[j])
  {
    if |cs| == 1 then 0
    else
      var m := Cheapest(cs[..|cs| - 1]);
      if Rate(cs[|cs| - 1]) < Rate(cs[m]) then |cs| - 1 else m
  }

  /** The courier the adapter picks from a non-empty list. */
  function SelectedCourier(cs: seq<Courier>): (i: nat)
    requires |cs| > 0
    ensures IsSelection(cs, i)
  {
    var a := FirstAmazonSurface(cs);
    if a < |cs| then a else Cheapest(cs)
  }

  /** The `for ... break` scan for the preferred courier, then the running minimum over the whole list. */
  method SelectCourier(cs: seq<Courier>) returns (i: nat)
    requires |cs| > 0
    ensures IsSelection(cs, i)
    ensures i == SelectedCourier(cs)
  {
    var k := 0;
    while k < |cs|
      invariant k <= |cs|
      invariant forall j :: 0 <= j < k ==> !IsAmazonSurface(cs[j])
    {
      if IsAmazonSurface(cs[k]) {
        i := k;
        SelectionIsUnique(cs, i, SelectedCourier(cs));
        return;
      }
      k := k + 1;
    }
    i := 0;
    var j := 1;
    while j < |cs|
      invariant 1 <= j <= |cs| && i < j
      invariant forall m :: 0 <= m < j ==> Rate(cs[i]) <= Rate(cs[m])
      invariant forall m :: 0 <= m < i ==> Rate(cs[i]) < Rate(cs[m])
    {
      if Rate(cs[j]) < Rate(cs[i]) {
        i := j;
      }
      j := j + 1;
    }
    SelectionIsUnique(cs, i, SelectedCourier(cs));
  }

  // ---------------------------------------------------------------- development tariff

  const MetroPrefixes: seq<string> := ["110", "400", "560", "600", "700", "500"]

  /** Metro iff the first three characters are one of the six metro prefixes. */
  predicate IsMetro(pincode: string)
  {
    Take(pincode, 3) in MetroPrefixes
  }

  /** The weight-tiered base charge, metro and non-metro. */
  function BaseCharge(weight: real, metro: bool): real
  {
    if weight <= 0.5 then (if metro then 35.0 else 45.0)
    else if weight <= 1.0 then (if metro then 50.0 else 65.0)
    else if weight <= 2.0 then (if metro then 70.0 else 90.0)
    else if weight <= 3.0 then (if metro then 90.0 else 115.0)
    else if weight <= 5.0 then (if metro then 120.0 else 150.0)
    else (if metro then 120.0 else 150.0) + (weight - 5.0) * 20.0
  }

  /** A heavier parcel never costs less. */
  lemma BaseChargeMonotone(w1: real, w2: real, metro: bool)
    requires w1 <= w2
    ensures BaseCharge(w1, metro) <= BaseCharge(w2, metro)
  {
  }

  /** A metro destination is cheaper than any other at every weight, and never below 35. */
  lemma MetroIsCheaper(weight: real)
    ensures 35.0 <= BaseCharge(weight, true) < BaseCharge(weight, false)
  {
  }

  /** The answer of `calculate_shipping_charges` (a quote); mock quotes carry no courier name. */
  datatype ShippingQuote = ShippingQuote(
    pincode: string,
    weight: real,
    shippingCharge: real,
    codCharge: real,
    totalCharge: real,
    estimatedDays: string,
    courierName: Option<string>,
    mock: bool)

  /** `_mock_shipping_charges`. */
  function MockShippingCharges(pincode: string, weight: real, codAmount: real): (q: ShippingQuote)
    ensures q.shippingCharge == BaseCharge(weight, IsMetro(pincode))
    ensures q.codCharge == (if codAmount > 0.0 then 40.0 else 0.0)
    ensures q.totalCharge == q.shippingCharge + q.codCharge
    ensures q.estimatedDays == (if IsMetro(pincode) then "3-5 days" else "5-7 days")
    ensures q.mock && q.courierName.None? && q.pincode == pincode && q.weight == weight
  {
    var metro := IsMetro(pincode);
    var base := BaseCharge(weight, metro);
    var cod := if codAmount > 0.0 then 40.0 else 0.0;
    ShippingQuote(pincode, weight, base, cod, base + cod,
                  if metro then "3-5 days" else "5-7 days", None, true)
  }

  // ---------------------------------------------------------------- development pincode table

  datatype Location = Location(city: string, state: string)

  /**
   * The prefix table of `_mock_serviceability`, in source order. "201" is listed twice; as in a
   * Python dict literal, the later entry (Noida) is the one that stays.
   */
  const PincodeDatabase: map<string, Location> := map[
    "212" := Location("Fatehpur", "Uttar Pradesh"),
    "226" := Location("Lucknow", "Uttar Pradesh"),
    "281" := Location("Mathura", "Uttar Pradesh"),
    "201" := Location("Ghaziabad", "Uttar Pradesh"),
    "211" := Location("Prayagraj", "Uttar Pradesh"),
    "221" := Location("Varanasi", "Uttar Pradesh"),
    "110" := Location("Delhi", "Delhi"),
    "121" := Location("Gurugram", "Haryana"),
    "122" := Location("Gurugram", "Haryana"),
    "201" := Location("Noida", "Uttar Pradesh"),
    "400" := Location("Mumbai", "Maharashtra"),
    "401" := Location("Thane", "Maharashtra"),
    "411" := Location("Pune", "Maharashtra"),
    "440" := Location("Nagpur", "Maharashtra"),
    "431" := Location("Aurangabad", "Maharashtra"),
    "560" := Location("Bangalore", "Karnataka"),
    "570" := Location("Mysore", "Karnataka"),
    "580" := Location("Hubli", "Karnataka"),
    "600" := Location("Chennai", "Tamil Nadu"),
    "641" := Location("Coimbatore", "Tamil Nadu"),
    "625" := Location("Madurai", "Tamil Nadu"),
    "700" := Location("Kolkata", "West Bengal"),
    "500" := Location("Hyderabad", "Telangana"),
    "380" := Location("Ahmedabad", "Gujarat"),
    "395" := Location("Surat", "Gujarat"),
    "390" := Location("Vadodara", "Gujarat"),
    "302" := Location("Jaipur", "Rajasthan"),
    "303" := Location("Jaipur", "Rajasthan"),
    "324" := Location("Kota", "Rajasthan"),
    "452" := Location("Indore", "Madhya Pradesh"),
    "462" := Location("Bhopal", "Madhya Pradesh"),
    "682" := Location("Kochi", "Kerala"),
    "695" := Location("Thiruvananthapuram", "Kerala"),
    "141" := Location("Ludhiana", "Punjab"),
    "160" := Location("Chandigarh", "Chandigarh"),
    "751" := Location("Bhubaneswar", "Odisha"),
    "800" := Location("Patna", "Bihar")
  ]

  /** `pincode_database.get(prefix, Unknown/Unknown)`. */
  function LocationOf(prefix: string): (l: Location)
    ensures prefix in PincodeDatabase ==> l == PincodeDatabase[prefix]
    ensures prefix !in PincodeDatabase ==> l == Location("Unknown", "Unknown")
  {
    if prefix in PincodeDatabase then PincodeDatabase[prefix] else Location("Unknown", "Unknown")
  }

  /** Why a serviceability check answered "not serviceable". */
  datatype ServiceError = NoCourier | Raised

  /** The answer of `check_pincode_serviceability`; the development answer has no COD charge or courier count. */
  datatype Serviceability =
    | Serviceable(
        pincode: string,
        city: string,
        state: string,
        codAvailable: bool,
        shippingCharge: real,
        codCharges: Option<real>,
        estimatedDays: Field,
        courierName: string,
        availableCouriers: Option<nat>,
        mock: bool)
    | NotServiceable(pincode: string, error: ServiceError)

  /** `_mock_serviceability`. */
  function MockServiceability(pincode: string): (r: Serviceability)
    ensures r.Serviceable? && r.mock && r.pincode == pincode && r.codAvailable
    ensures Location(r.city, r.state) == LocationOf(Take(pincode, 3))
    ensures r.shippingCharge == (if IsMetro(pincode) then 50.0 else 70.0)
    ensures r.estimatedDays == Str(if IsMetro(pincode) then "3-5 days" else "5-7 days")
    ensures r.courierName == "Standard Delivery"
  {
    var location := LocationOf(Take(pincode, 3));
    var metro := IsMetro(pincode);
    Serviceable(pincode, location.city, location.state, true,
                if metro then 50.0 else 70.0, None,
                Str(if metro then "3-5 days" else "5-7 days"),
                "Standard Delivery", None, true)
  }

  lemma NoidaPrefix()
    ensures Take("201301", 3) == "201"
  {
    assert "201301"[..3] == "201";
  }

  /** The second "201" entry wins: a "201..." pincode is in Noida, not Ghaziabad. */
  lemma MockServiceabilityNoida()
    ensures MockServiceability("201301").city == "Noida"
  {
    NoidaPrefix();
  }

  // ---------------------------------------------------------------- live replies

  /** What the serviceability endpoint did: the request raised, or it answered with a status and a courier list. */
  datatype CourierReply = RequestRaised | Answered(status: int, companies: seq<Courier>)

  /** `float(courier.get("rate") or courier.get("freight_charge") or 50)`: the first truthy of the two charges, else 50. */
  function ShippingChargeOf(c: Courier): (r: Option<real>)
    ensures Truthy(c.rate) ==> r == ToFloat(c.rate)
    ensures !Truthy(c.rate) && Truthy(c.freightCharge) ==> r == ToFloat(c.freightCharge)
    ensures !Truthy(c.rate) && !Truthy(c.freightCharge) ==> r == Some(50.0)
  {
    ToFloat(Or(Or(Get(c.rate), Get(c.freightCharge)), Num(50.0)))
  }

  /** `float(courier.get("cod_charges", 0))`: an absent charge is 0, a null one raises. */
  function CodChargesOf(c: Courier): (r: Option<real>)
    ensures c.codCharges.Absent? ==> r == Some(0.0)
    ensures c.codCharges.Null? ==> r == None
    ensures c.codCharges.Num? ==> r == Some(c.codCharges.n)
  {
    ToFloat(GetOr(c.codCharges, Num(0.0)))
  }

  /** `check_pincode_serviceability`, with the debug flag and the endpoint's reply as inputs. */
  function CheckPincodeServiceability(debug: bool, reply: CourierReply, pincode: string): (r: Serviceability)
    ensures r.pincode == pincode
    ensures debug ==> r == MockServiceability(pincode)
    ensures !debug ==>
      (r.Serviceable? <==>
        reply.Answered? && reply.status == 200 && |reply.companies| > 0
        && ShippingChargeOf(reply.companies[SelectedCourier(reply.companies)]).Some?
        && CodChargesOf(reply.companies[SelectedCourier(reply.companies)]).Some?)
    ensures !debug && r.Serviceable? ==>
      var c := reply.companies[SelectedCourier(reply.companies)];
      && !r.mock
      && r.availableCouriers == Some(|reply.companies|)
      && r.courierName == OrDefault(c.courierName, "")
      && r.city == OrDefault(c.city, "")
      && r.state == OrDefault(c.state, "")
      && Some(r.shippingCharge) == ShippingChargeOf(c)
      && r.codCharges == CodChargesOf(c)
      && r.codAvailable == (GetOr(c.cod, Num(1.0)) == Num(1.0))
      && r.estimatedDays == GetOr(c.etd, Str("3-5 days"))
    ensures !debug && r.NotServiceable? ==>
      (r.error == NoCourier <==> reply.Answered? && (reply.status != 200 || |reply.companies| == 0))
  {
    if debug then MockServiceability(pincode)
    else if reply.RequestRaised? then NotServiceable(pincode, Raised)
    else if reply.status != 200 || |reply.companies| == 0 then NotServiceable(pincode, NoCourier)
    else
      var c := reply.companies[SelectedCourier(reply.companies)];
      var shipping := ShippingChargeOf(c);
      var codCharges := CodChargesOf(c);
      if shipping.None? || codCharges.None? then NotServiceable(pincode, Raised)
      else
        var cod := GetOr(c.cod, Num(1.0));
        Serviceable(pincode, OrDefault(c.city, ""), OrDefault(c.state, ""),
                    cod == Num(1.0), shipping.value, Some(codCharges.value),
                    GetOr(c.etd, Str("3-5 days")), OrDefault(c.courierName, ""),
                    Some(|reply.companies|), false)
  }

  /** The ETA wording: a non-empty string gains " days" unless it already says so; anything else is "3-5 days". */
  function EtaText(etd: Field): string
  {
    if etd.Str? && etd.s != "" then
      if Contains(Lower(etd.s), "days") then etd.s else etd.s + " days"
    else "3-5 days"
  }

  lemma LowerAppend(a: string, b: string)
    ensures Lower(a + b) == Lower(a) + Lower(b)
  {
  }

  lemma DaysSuffix(s: string)
    ensures Contains(Lower(s + " days"), "days")
  {
    LowerAppend(s, " days");
    assert Lower(" days") == " days";
    var l := Lower(s + " days");
    assert l[|s| + 1..|s| + 5] == "days";
    ContainsAt(l, "days", |s| + 1);
  }

  /** Whatever the courier sent, the wording mentions "days". */
  lemma EtaTextSaysDays(etd: Field)
    ensures Contains(Lower(EtaText(etd)), "days")
  {
    if etd.Str? && etd.s != "" {
      if !Contains(Lower(etd.s), "days") {
        DaysSuffix(etd.s);
      }
    } else {
      DaysSuffix("3-5");
      assert "3-5" + " days" == "3-5 days";
    }
  }

  /** Rewording an already worded ETA changes nothing. */
  lemma EtaTextIdempotent(etd: Field)
    ensures EtaText(Str(EtaText(etd))) == EtaText(etd)
  {
    EtaTextSaysDays(etd);
    if !(etd.Str? && etd.s != "") {
      assert EtaText(etd) != "";
    }
  }

  /**
   * The quote's shipping charge, `float(rate or freight_charge or total_charge or 50)`: the first
   * truthy of the three charges, else 50.
   */
  function QuoteShippingOf(c: Courier): (r: Option<real>)
    ensures Truthy(c.rate) ==> r == ToFloat(c.rate)
    ensures !Truthy(c.rate) && Truthy(c.freightCharge) ==> r == ToFloat(c.freightCharge)
    ensures !Truthy(c.rate) && !Truthy(c.freightCharge) && Truthy(c.totalCharge) ==> r == ToFloat(c.totalCharge)
    ensures !Truthy(c.rate) && !Truthy(c.freightCharge) && !Truthy(c.totalCharge) ==> r == Some(50.0)
  {
    ToFloat(Or(Or(Or(Get(c.rate), Get(c.freightCharge)), Get(c.totalCharge)), Num(50.0)))
  }

  /**
   * The quote's COD charge: with a COD amount, `float(cod_charges or cod_charge or 0)`, the first
   * truthy of the two, else 0; without one, 0.
   */
  function QuoteCodOf(c: Courier, codAmount: real): (r: Option<real>)
    ensures codAmount <= 0.0 ==> r == Some(0.0)
    ensures codAmount > 0.0 && Truthy(c.codCharges) ==> r == ToFloat(c.codCharges)
    ensures codAmount > 0.0 && !Truthy(c.codCharges) && Truthy(c.codCharge) ==> r == ToFloat(c.codCharge)
    ensures codAmount > 0.0 && !Truthy(c.codCharges) && !Truthy(c.codCharge) ==> r == Some(0.0)
  {
    if codAmount > 0.0 then ToFloat(Or(Or(Get(c.codCharges), Get(c.codCharge)), Num(0.0))) else Some(0.0)
  }

  /** `calculate_shipping_charges`, with the debug flag and the endpoint's reply as inputs; every failure falls back to the mock quote. */
  function CalculateShippingCharges(debug: bool, reply: CourierReply, pincode: string, weight: real, codAmount: real): (q: ShippingQuote)
    ensures q.totalCharge == q.shippingCharge + q.codCharge
    ensures codAmount <= 0.0 ==> q.codCharge == 0.0
    ensures Contains(Lower(q.estimatedDays), "days")
    ensures q.pincode == pincode && q.weight == weight
    ensures q.mock ==> q == MockShippingCharges(pincode, weight, codAmount)
    ensures debug || reply.RequestRaised? || (reply.Answered? && (reply.status != 200 || |reply.companies| == 0))
      ==> q.mock
    ensures !debug && reply.Answered? && reply.status == 200 && |reply.companies| > 0 ==>
      var c := reply.companies[SelectedCourier(reply.companies)];
      (q.mock <==> QuoteShippingOf(c).None? || QuoteCodOf(c, codAmount).None?)
    ensures !q.mock ==>
      !debug && reply.Answered? && reply.status == 200 && |reply.companies| > 0
      && var c := reply.companies[SelectedCourier(reply.companies)];
      && Some(q.shippingCharge) == QuoteShippingOf(c)
      && Some(q.codCharge) == QuoteCodOf(c, codAmount)
      && q.estimatedDays == EtaText(GetOr(c.etd, Str("3-5")))
      && q.courierName == Some(OrDefault(c.courierName, "Shiprocket"))
  {
    var fallback := MockShippingCharges(pincode, weight, codAmount);
    assert Contains(Lower(fallback.estimatedDays), "days") by {
      DaysSuffix("3-5");
      DaysSuffix("5-7");
      assert "3-5" + " days" == "3-5 days" && "5-7" + " days" == "5-7 days";
    }
    if debug || reply.RequestRaised? || reply.status != 200 || |reply.companies| == 0 then fallback
    else
      var c := reply.companies[SelectedCourier(reply.companies)];
      var shipping := QuoteShippingOf(c);
      var cod := QuoteCodOf(c, codAmount);
      if shipping.None? || cod.None? then fallback
      else
        var eta := EtaText(GetOr(c.etd, Str("3-5")));
        EtaTextSaysDays(GetOr(c.etd, Str("3-5")));
        ShippingQuote(pincode, weight, shipping.value, cod.value, shipping.value + cod.value,
                      eta, Some(OrDefault(c.courierName, "Shiprocket")), false)
  }
}

=== FILE: sms_service.dfy ===
/**
 * The one-time-password store of app/services/sms_service.py (`SMSService`): a map from the
 * formatted phone number to the pending code, its expiry and the failed attempts so far.
 * The clock (whole seconds), the random draw and whether the provider delivered the message
 * are inputs.
 */
module SmsService {
  import opened Text
  import Phones

  /** `_format_phone`: digits only, and "91" in front of any 10-digit string. */
  function FormatPhone(phone: string): (r: string)
    ensures AllDigits(r) && |r| != 10
    ensures var d := DigitsOnly(phone);
      (|d| == 10 ==> r == "91" + d) && (|d| != 10 ==> r == d)
  {
    var d := DigitsOnly(phone);
    if |d| == 10 then "91" + d else d
  }

  /** Formatting twice is formatting once, so `resend_otp` stores under the same key as `send_otp`. */
  lemma FormatPhoneIdempotent(phone: string)
    ensures FormatPhone(FormatPhone(phone)) == FormatPhone(phone)
  {
    var r := FormatPhone(phone);
    assert DigitsOnly(r) == r;
  }

  /** Unlike the login rule, a 10-digit number already starting with "91" still gains "91". */
  lemma FormatPhoneTenWith91(d: string)
    requires |d| == 10 && AllDigits(d) && StartsWith(d, "91")
    ensures FormatPhone(d) == "91" + d
    ensures Phones.FormatPhone(d) == d
  {
  }

  const OtpValiditySeconds: int := 600
  const MaxAttempts: nat := 3

  lemma SixDigitBounds()
    ensures Pow10(5) == 100000 && Pow10(6) == 1000000
  {
  }

  /** `generate_otp`: `str(random.randint(100000, 999999))`, always six digits. */
  function GenerateOtp(draw: nat): (otp: string)
    requires 100000 <= draw <= 999999
    ensures |otp| == 6 && AllDigits(otp) && otp[0] != '0'
    ensures ValueOf(otp) == draw
  {
    SixDigitBounds();
    NatToStringLength(draw, 6);
    NatToStringValue(draw);
    var otp := NatToString(draw);
    LeadingDigitNonZero(otp);
    otp
  }

  lemma {:induction false} LeadingDigitNonZero(s: string)
    requires |s| == 6 && AllDigits(s) && ValueOf(s) >= 100000
    ensures s[0] != '0'
  {
    if s[0] == '0' {
      ZeroLeadBound(s, 6);
      assert false;
    }
  }

  lemma {:induction false} ZeroLeadBound(s: string, k: nat)
    requires 1 <= k == |s| && AllDigits(s) && s[0] == '0'
    ensures ValueOf(s) < Pow10(k - 1)
  {
    if k > 1 {
      var init := s[..k - 1];
      assert init[0] == '0';
      ZeroLeadBound(init, k - 1);
    }
  }

  /** A pending code: `otp`, `created_at`, `expires_at` and `attempts`. */
  datatype OtpEntry = OtpEntry(otp: string, createdAt: int, expiresAt: int, attempts: nat)

  /** The answer of `send_otp`: sent (with the key it is stored under), or the provider's failure. */
  datatype SendReply = Sent(phone: string, expiresIn: int) | SendFailed

  /** The answer of `verify_otp`. */
  datatype VerifyReply =
    | Verified(phone: string)
    | NotFound
    | Expired
    | TooManyAttempts
    | InvalidOtp(attemptsRemaining: int)

  datatype VerifyOutcome = VerifyOutcome(store: map<string, OtpEntry>, reply: VerifyReply)

  /** The entry `send_otp` stores: the code, now, ten minutes from now, no attempts. */
  function FreshEntry(otp: string, now: int): (e: OtpEntry)
    ensures e.expiresAt - e.createdAt == OtpValiditySeconds && e.attempts == 0 && e.createdAt == now
  {
    OtpEntry(otp, now, now + OtpValiditySeconds, 0)
  }

  /**
   * `verify_otp` on the store, for the already formatted key: no entry; expired (strictly past
   * `expires_at`); three or more failed attempts; the right code; a wrong code.
   */
  function VerifyStep(store: map<string, OtpEntry>, key: string, otp: string, now: int): VerifyOutcome
  {
    if key !in store then VerifyOutcome(store, NotFound)
    else
      var e := store[key];
      if now > e.expiresAt then VerifyOutcome(store - {key}, Expired)
      else if e.attempts >= MaxAttempts then VerifyOutcome(store - {key}, TooManyAttempts)
      else if e.otp == otp then VerifyOutcome(store - {key}, Verified(key))
      else
        var failed := e.(attempts := e.attempts + 1);
        VerifyOutcome(store[key := failed], InvalidOtp(MaxAttempts - failed.attempts))
  }

  /** Verification only ever touches the entry of its own phone. */
  lemma VerifyStepIsLocal(store: map<string, OtpEntry>, key: string, otp: string, now: int, other: string)
    requires other != key
    ensures var o := VerifyStep(store, key, otp, now);
      (other in o.store <==> other in store) && (other in store ==> o.store[other] == store[other])
  {
  }

  /** A phone without an entry fails and the store is left as it was. */
  lemma VerifyWithoutEntry(store: map<string, OtpEntry>, key: string, otp: string, now: int)
    requires key !in store
    ensures VerifyStep(store, key, otp, now) == VerifyOutcome(store, NotFound)
  {
  }

  /** Verification succeeds exactly when the entry is in time, under the attempt limit and the code matches. */
  lemma VerifySucceedsExactly(store: map<string, OtpEntry>, key: string, otp: string, now: int)
    ensures VerifyStep(store, key, otp, now).reply.Verified?
        <==> key in store && now <= store[key].expiresAt
             && store[key].attempts < MaxAttempts && store[key].otp == otp
  {
  }

  /** An expired or exhausted entry is deleted and fails even with the right code. */
  lemma StaleEntryIsDropped(store: map<string, OtpEntry>, key: string, now: int)
    requires key in store && (now > store[key].expiresAt || store[key].attempts >= MaxAttempts)
    ensures var o := VerifyStep(store, key, store[key].otp, now);
      !o.reply.Verified? && key !in o.store
  {
  }

  /** A code verifies once: the entry is gone, so a second try with it finds nothing. */
  lemma CodeIsSingleUse(store: map<string, OtpEntry>, key: string, otp: string, now: int, later: int)
    requires VerifyStep(store, key, otp, now).reply.Verified?
    ensures var o := VerifyStep(store, key, otp, now);
      key !in o.store && VerifyStep(o.store, key, otp, later).reply == NotFound
  {
  }

  /** A wrong code in time adds exactly one attempt, keeps code and expiry, and reports what is left. */
  lemma WrongCodeCountsOneAttempt(store: map<string, OtpEntry>, key: string, otp: string, now: int)
    requires key in store && now <= store[key].expiresAt && store[key].attempts < MaxAttempts
    requires store[key].otp != otp
    ensures var o := VerifyStep(store, key, otp, now);
      key in o.store
      && o.store[key].attempts == store[key].attempts + 1
      && o.store[key].otp == store[key].otp && o.store[key].expiresAt == store[key].expiresAt
      && o.reply == InvalidOtp(MaxAttempts - o.store[key].attempts)
  {
  }

  /** After three wrong codes on a fresh entry, even the right code is refused, inside the ten minutes. */
  lemma ThreeStrikes(store: map<string, OtpEntry>, key: string, otp: string, wrong: string, now: int)
    requires wrong != otp && 0 <= now <= OtpValiditySeconds
    ensures var s0 := store[key := FreshEntry(otp, 0)];
      var s1 := VerifyStep(s0, key, wrong, now).store;
      var s2 := VerifyStep(s1, key, wrong, now).store;
      var s3 := VerifyStep(s2, key, wrong, now).store;
      VerifyStep(s3, key, otp, now).reply == TooManyAttempts
  {
    var s0 := store[key := FreshEntry(otp, 0)];
    var s1 := VerifyStep(s0, key, wrong, now).store;
    assert s1[key] == FreshEntry(otp, 0).(attempts := 1);
    var s2 := VerifyStep(s1, key, wrong, now).store;
    assert s2[key] == FreshEntry(otp, 0).(attempts := 2);
    var s3 := VerifyStep(s2, key, wrong, now).store;
    assert s3[key] == FreshEntry(otp, 0).(attempts := 3);
  }

  /** At exactly `expires_at` the code is still accepted. */
  lemma ExpiryIsInclusive(otp: string, issued: int)
    ensures VerifyStep(map["k" := FreshEntry(otp, issued)], "k", otp, issued + OtpValiditySeconds).reply == Verified("k")
  {
  }

  class Sms {
    /** `otp_storage`. */
    var otpStorage: map<string, OtpEntry>

    constructor ()
      ensures otpStorage == map[]
    {
      otpStorage := map[];
    }

    /**
     * `send_otp`: the entry is stored before the provider is asked, so it stays even when
     * delivery fails; an earlier entry for the same phone is replaced, others are untouched.
     */
    method SendOtp(phone: string, draw: nat, now: int, delivered: bool) returns (reply: SendReply)
      requires 100000 <= draw <= 999999
      modifies this
      ensures otpStorage == old(otpStorage)[FormatPhone(phone) := FreshEntry(GenerateOtp(draw), now)]
      ensures reply == if delivered then Sent(FormatPhone(phone), OtpValiditySeconds) else SendFailed
    {
      var key := FormatPhone(phone);
      var otp := GenerateOtp(draw);
      otpStorage := otpStorage[key := OtpEntry(otp, now, now + OtpValiditySeconds, 0)];
      if delivered {
        reply := Sent(key, OtpValiditySeconds);
      } else {
        reply := SendFailed;
      }
    }

    /** `verify_otp`. */
    method VerifyOtp(phone: string, otp: string, now: int) returns (reply: VerifyReply)
      modifies this
      ensures VerifyOutcome(otpStorage, reply) == VerifyStep(old(otpStorage), FormatPhone(phone), otp, now)
    {
      var key := FormatPhone(phone);
      if key !in otpStorage {
        return NotFound;
      }
      var stored := otpStorage[key];
      if now > stored.expiresAt {
        otpStorage := otpStorage - {key};
        return Expired;
      }
      if stored.attempts >= MaxAttempts {
        otpStorage := otpStorage - {key};
        return TooManyAttempts;
      }
      if stored.otp == otp {
        otpStorage := otpStorage - {key};
        return Verified(key);
      }
      var attempts := stored.attempts + 1;
      otpStorage := otpStorage[key := stored.(attempts := attempts)];
      reply := InvalidOtp(MaxAttempts - attempts);
    }

    /** `resend_otp`: the old entry is dropped and a fresh one stored, so attempts are back at 0. */
    method ResendOtp(phone: string, draw: nat, now: int, delivered: bool) returns (reply: SendReply)
      requires 100000 <= draw <= 999999
      modifies this
      ensures otpStorage == old(otpStorage)[FormatPhone(phone) := FreshEntry(GenerateOtp(draw), now)]
      ensures otpStorage[FormatPhone(phone)].attempts == 0
      ensures reply == if delivered then Sent(FormatPhone(phone), OtpValiditySeconds) else SendFailed
    {
      var key := FormatPhone(phone);
      if key in otpStorage {
        otpStorage := otpStorage - {key};
      }
      FormatPhoneIdempotent(phone);
      reply := SendOtp(key, draw, now, delivered);
    }
  }
}

=== FILE: store.dfy ===
/**
 * The database rows the route handlers read and update: orders and their status enums
 * (app/models/order.py), deliveries with their tracking history (app/models/delivery.py),
 * customers and OTP records (app/models/customer.py). Each table is a list of rows in insertion
 * order; a row's primary key is its position, a query's `.first()` is the first matching row,
 * and `order_by(created_at.desc())` is the reverse of insertion order.
 */
module Store {
  import opened Outcomes
  import opened Seqs

  // ---------------------------------------------------------------- enums

  datatype OrderStatus = Pending | Confirmed | Processing | Shipped | Delivered | Cancelled | Refunded

  /** The enum member's string value. */
  function StatusValue(s: OrderStatus): string
  {
    match s
    case Pending => "pending"
    case Confirmed => "confirmed"
    case Processing => "processing"
    case Shipped => "shipped"
    case Delivered => "delivered"
    case Cancelled => "cancelled"
    case Refunded => "refunded"
  }

  /** The status strings the admin routes accept, in the order their error message lists them. */
  const ValidStatuses: seq<string> :=
    ["pending", "confirmed", "processing", "shipped", "delivered", "cancelled", "refunded"]

  /** `OrderStatus(v)`: the member whose value is `v`, if there is one. */
  function ParseStatus(v: string): (r: Option<OrderStatus>)
    ensures r.Some? <==> v in ValidStatuses
    ensures r.Some? ==> StatusValue(r.value) == v
  {
    if v == "pending" then Some(Pending)
    else if v == "confirmed" then Some(Confirmed)
    else if v == "processing" then Some(Processing)
    else if v == "shipped" then Some(Shipped)
    else if v == "delivered" then Some(Delivered)
    else if v == "cancelled" then Some(Cancelled)
    else if v == "refunded" then Some(Refunded)
    else None
  }

  /** Every member is found again from its value. */
  lemma ParseStatusValue(s: OrderStatus)
    ensures ParseStatus(StatusValue(s)) == Some(s)
  {
  }

  datatype PaymentStatus = PaymentPending | Paid | PaymentFailed | PaymentRefunded | CashOnDelivery

  function PaymentValue(s: PaymentStatus): string
  {
    match s
    case PaymentPending => "pending"
    case Paid => "paid"
    case PaymentFailed => "failed"
    case PaymentRefunded => "refunded"
    case CashOnDelivery => "cod"
  }

  // ---------------------------------------------------------------- rows

  datatype ShippingAddress = ShippingAddress(
    fullName: string,
    phone: string,
    email: string,
    address: string,
    city: string,
    state: string,
    pincode: string,
    landmark: Option<string>)

  /** An `orders` row. An empty `waybillNumber` stands for a NULL one: the routes only test its truthiness. */
  datatype Order = Order(
    orderId: string,
    customerId: nat,
    shipping: ShippingAddress,
    subtotal: real,
    shippingCost: real,
    total: real,
    paymentMethod: string,
    paymentStatus: PaymentStatus,
    razorpayOrderId: Option<string>,
    razorpayPaymentId: Option<string>,
    orderStatus: OrderStatus,
    waybillNumber: string,
    estimatedDelivery: Option<string>,
    deliveredAt: Option<int>,
    adminNotes: Option<string>,
    updatedAt: Option<int>)

  /** An `order_items` row; it names its order by the order's row key (`orders.id`). */
  datatype OrderItem = OrderItem(
    orderKey: nat,
    productId: int,
    productName: string,
    size: string,
    unit: string,
    quantity: int,
    price: real,
    total: real)

  /** One entry of a delivery's JSON `tracking_history`. */
  datatype TrackingEntry = TrackingEntry(status: string, location: Option<string>, timestamp: int, description: string)

  /** A `deliveries` row; it names its order by the order's row key (`orders.id`). */
  datatype Delivery = Delivery(
    orderKey: nat,
    waybillNumber: string,
    shipmentId: string,
    currentStatus: string,
    currentLocation: Option<string>,
    courierName: string,
    trackingUrl: string,
    estimatedDeliveryDate: int,
    weight: real,
    shippingCharge: real,
    trackingHistory: seq<TrackingEntry>,
    pickedUpAt: Option<int>,
    inTransitAt: Option<int>,
    outForDeliveryAt: Option<int>,
    deliveredAt: Option<int>)

  /** A `customers` row, with the `is_admin` column the admin routes read. */
  datatype Customer = Customer(
    phone: Option<string>,
    email: Option<string>,
    googleId: Option<string>,
    fullName: Option<string>,
    address: Option<string>,
    city: Option<string>,
    state: Option<string>,
    pincode: Option<string>,
    isVerified: bool,
    lastLogin: Option<int>,
    isAdmin: bool)

  /** An `otps` row. */
  datatype OtpRecord = OtpRecord(phone: string, otp: string, purpose: string, isUsed: bool, expiresAt: int)

  /** The contents of every table at one moment. */
  datatype Tables = Tables(
    orders: seq<Order>,
    items: seq<OrderItem>,
    deliveries: seq<Delivery>,
    customers: seq<Customer>,
    otps: seq<OtpRecord>)

  /** What a handler leaves behind: the tables after it, and its response or the error it raised. */
  datatype Step<+R> = Step(tables: Tables, reply: Result<R>)

  // ---------------------------------------------------------------- lookups

  /** `query(Order).filter(Order.order_id == orderId).first()`, as a position; `|orders|` when absent. */
  function FindOrder(orders: seq<Order>, orderId: string): (k: nat)
    ensures k <= |orders|
    ensures k < |orders| ==> orders[k].orderId == orderId
    ensures forall j :: 0 <= j < k ==> orders[j].orderId != orderId
  {
    FirstIndex(orders, (o: Order) => o.orderId == orderId)
  }

  /** `query(Delivery).filter(Delivery.order_id == order.id).first()`: the delivery of the order with row key `orderKey`. */
  function FindDeliveryOf(deliveries: seq<Delivery>, orderKey: nat): (k: nat)
    ensures k <= |deliveries|
    ensures k < |deliveries| ==> deliveries[k].orderKey == orderKey
    ensures forall j :: 0 <= j < k ==> deliveries[j].orderKey != orderKey
  {
    FirstIndex(deliveries, (d: Delivery) => d.orderKey == orderKey)
  }

  function FindDeliveryByWaybill(deliveries: seq<Delivery>, waybill: string): (k: nat)
    ensures k <= |deliveries|
    ensures k < |deliveries| ==> deliveries[k].waybillNumber == waybill
    ensures forall j :: 0 <= j < k ==> deliveries[j].waybillNumber != waybill
  {
    FirstIndex(deliveries, (d: Delivery) => d.waybillNumber == waybill)
  }

  function FindCustomerByPhone(customers: seq<Customer>, phone: string): (k: nat)
    ensures k <= |customers|
    ensures k < |customers| ==> customers[k].phone == Some(phone)
    ensures forall j :: 0 <= j < k ==> customers[j].phone != Some(phone)
  {
    FirstIndex(customers, (c: Customer) => c.phone == Some(phone))
  }

  function FindCustomerByEmail(customers: seq<Customer>, email: string): (k: nat)
    ensures k <= |customers|
    ensures k < |customers| ==> customers[k].email == Some(email)
    ensures forall j :: 0 <= j < k ==> customers[j].email != Some(email)
  {
    FirstIndex(customers, (c: Customer) => c.email == Some(email))
  }

  // ---------------------------------------------------------------- the database

  /** The database session the handlers share: one field per table, updated in place. */
  class Db {
    var orders: seq<Order>
    var items: seq<OrderItem>
    var deliveries: seq<Delivery>
    var customers: seq<Customer>
    var otps: seq<OtpRecord>

    constructor ()
      ensures Snapshot() == Tables([], [], [], [], [])
    {
      orders := [];
      items := [];
      deliveries := [];
      customers := [];
      otps := [];
    }

    function Snapshot(): Tables
      reads this
    {
      Tables(orders, items, deliveries, customers, otps)
    }
  }
}

=== FILE: text.dfy ===
/**
 * The string operations the handlers lean on, over ASCII: `str.isdigit`,
 * `''.join(filter(str.isdigit, s))`, `str.lower`, `startswith`, `in` on strings,
 * slicing with Python's clamping, and decimal rendering of integers.
 */
module Text {
  import opened Seqs

  predicate IsDigit(c: char) { '0' <= c <= '9' }

  /** Python `s.isdigit()`: non-empty and every character a digit. */
  predicate IsDigitString(s: string) { |s| > 0 && AllDigits(s) }

  predicate AllDigits(s: string) { forall i :: 0 <= i < |s| ==> IsDigit(s[i]) }

  /** `''.join(filter(str.isdigit, s))`. */
  function DigitsOnly(s: string): (r: string)
    ensures AllDigits(r) && |r| <= |s|
    ensures AllDigits(s) ==> r == s
  {
    if s == [] then []
    else if IsDigit(s[0]) then [s[0]] + DigitsOnly(s[1..])
    else DigitsOnly(s[1..])
  }

  /** The filter keeps the digits of `s`, in order and with their multiplicity, and nothing else. */
  lemma {:induction false} DigitsOnlyKeepsExactlyTheDigits(s: string)
    ensures IsSubsequence(DigitsOnly(s), s)
    ensures forall c :: multiset(DigitsOnly(s))[c] == if IsDigit(c) then multiset(s)[c] else 0
  {
    if s != [] {
      DigitsOnlyKeepsExactlyTheDigits(s[1..]);
      assert s == [s[0]] + s[1..];
      var r := DigitsOnly(s);
      if IsDigit(s[0]) {
        assert r == [s[0]] + DigitsOnly(s[1..]);
      } else {
        assert r == DigitsOnly(s[1..]);
        assert r != [] ==> r[0] != s[0];
      }
    }
  }

  /** Filtering distributes over concatenation. */
  lemma {:induction false} DigitsOnlyAppend(a: string, b: string)
    ensures DigitsOnly(a + b) == DigitsOnly(a) + DigitsOnly(b)
  {
    if a != [] {
      assert (a + b)[0] == a[0];
      assert (a + b)[1..] == a[1..] + b;
      DigitsOnlyAppend(a[1..], b);
      if IsDigit(a[0]) {
        assert DigitsOnly(a + b) == [a[0]] + DigitsOnly(a[1..] + b);
      } else {
        assert DigitsOnly(a + b) == DigitsOnly(a[1..] + b);
      }
    } else {
      assert a + b == b;
    }
  }

  /** ASCII `str.lower` on one character. */
  function LowerChar(c: char): char
  {
    if 'A' <= c <= 'Z' then (c as int + 32) as char else c
  }

  /** ASCII `str.lower`. */
  function Lower(s: string): (r: string)
  {
    seq(|s|, i requires 0 <= i < |s| => LowerChar(s[i]))
  }

  predicate StartsWith(s: string, prefix: string)
  {
    |prefix| <= |s| && s[..|prefix|] == prefix
  }

  /** Python `needle in hay` on strings. */
  predicate Contains(hay: string, needle: string)
    decreases |hay|
  {
    StartsWith(hay, needle) || (|hay| > 0 && Contains(hay[1..], needle))
  }

  lemma {:induction false} ContainsAt(hay: string, needle: string, i: nat)
    requires i + |needle| <= |hay| && hay[i..i + |needle|] == needle
    ensures Contains(hay, needle)
  {
    if i > 0 {
      assert hay[1..][i - 1..i - 1 + |needle|] == hay[i..i + |needle|];
      ContainsAt(hay[1..], needle, i - 1);
    }
  }

  /** Python `s.find(c)`, with `|s|` standing for "not found". */
  function IndexOf(s: string, c: char): (k: nat)
    ensures k <= |s|
    ensures k < |s| ==> s[k] == c
    ensures forall j :: 0 <= j < k ==> s[j] != c
  {
    if s == [] then 0 else if s[0] == c then 0 else 1 + IndexOf(s[1..], c)
  }

  /** When `c` does not occur in `a`, it is found in `a + b` where it is found in `b`, shifted by `|a|`. */
  lemma {:induction false} IndexOfAppend(a: string, b: string, c: char)
    requires forall i :: 0 <= i < |a| ==> a[i] != c
    ensures IndexOf(a + b, c) == |a| + IndexOf(b, c)
  {
    if a == [] {
      assert a + b == b;
    } else {
      assert (a + b)[1..] == a[1..] + b;
      IndexOfAppend(a[1..], b, c);
    }
  }

  /** A needle holding a character the hay lacks is not in the hay. */
  lemma {:induction false} AbsentCharNotContained(hay: string, needle: string, c: char)
    requires c in needle && c !in hay
    ensures !Contains(hay, needle)
  {
    if |hay| > 0 {
      assert forall j :: 0 <= j < |hay[1..]| ==> hay[1..][j] == hay[j + 1];
      AbsentCharNotContained(hay[1..], needle, c);
    }
  }

  /** The ASCII characters Python's `str.split()` splits on: space, tab to carriage return, and 28 to 31. */
  predicate IsSpace(c: char)
  {
    c == ' ' || 9 <= c as int <= 13 || 28 <= c as int <= 31
  }

  /** `s.lstrip()`: `s` without its leading whitespace. */
  function SkipSpaces(s: string): (r: string)
    ensures r == [] || !IsSpace(r[0])
    ensures |r| <= |s| && s[|s| - |r|..] == r
    ensures forall j :: 0 <= j < |s| - |r| ==> IsSpace(s[j])
  {
    if s != [] && IsSpace(s[0]) then SkipSpaces(s[1..]) else s
  }

  /** The length of the leading run of non-whitespace characters. */
  function WordEnd(s: string): (k: nat)
    ensures k <= |s|
    ensures forall j :: 0 <= j < k ==> !IsSpace(s[j])
    ensures k < |s| ==> IsSpace(s[k])
  {
    if s == [] || IsSpace(s[0]) then 0 else 1 + WordEnd(s[1..])
  }

  /** A word followed by whitespace ends where the whitespace begins. */
  lemma {:induction false} WordEndAt(w: string, rest: string)
    requires forall j :: 0 <= j < |w| ==> !IsSpace(w[j])
    requires rest != [] && IsSpace(rest[0])
    ensures WordEnd(w + rest) == |w|
  {
    if w == [] {
      assert w + rest == rest;
    } else {
      assert (w + rest)[1..] == w[1..] + rest;
      WordEndAt(w[1..], rest);
    }
  }

  /** Python `s[:n]`: the first `n` characters, or all of them when `s` is shorter. */
  function Take(s: string, n: nat): (r: string)
    ensures |r| == if |s| < n then |s| else n
    ensures StartsWith(s, r)
  {
    if |s| < n then s else s[..n]
  }

  /** Python `s[n:]`: everything after the first `n` characters, or "" when `s` is shorter. */
  function Drop(s: string, n: nat): (r: string)
    ensures |r| == if |s| < n then 0 else |s| - n
    ensures |s| >= n ==> s[..n] + r == s
  {
    if |s| < n then "" else s[n..]
  }

  function DigitChar(d: nat): (c: char)
    requires d < 10
    ensures IsDigit(c)
  {
    ('0' as int + d) as char
  }

  function DigitValue(c: char): (d: nat)
    requires IsDigit(c)
    ensures d < 10 && DigitChar(d) == c
  {
    c as int - '0' as int
  }

  function Pow10(k: nat): (p: nat)
    ensures p >= 1
  {
    if k == 0 then 1 else 10 * Pow10(k - 1)
  }

  /** The digits drawn by `random.choices(string.digits, k=...)`, as characters. */
  function DigitString(picks: seq<nat>): (s: string)
    requires forall i :: 0 <= i < |picks| ==> picks[i] < 10
    ensures |s| == |picks| && AllDigits(s)
    ensures forall i :: 0 <= i < |picks| ==> DigitValue(s[i]) == picks[i]
  {
    seq(|picks|, i requires 0 <= i < |picks| => DigitChar(picks[i]))
  }

  /** The decimal value of a string of digits (Python `int(s)` on such a string). */
  function ValueOf(s: string): (v: nat)
    requires AllDigits(s)
    ensures v < Pow10(|s|)
  {
    if s == [] then 0 else 10 * ValueOf(s[..|s| - 1]) + DigitValue(s[|s| - 1])
  }

  /** The last `width` decimal digits of `n`, zero-padded: `f"{n:0{width}d}"` when `n` fits. */
  function Digits(n: nat, width: nat): (r: string)
    ensures |r| == width && AllDigits(r)
  {
    if width == 0 then "" else Digits(n / 10, width - 1) + [DigitChar(n % 10)]
  }

  /** Rendering with `Digits` and reading back with `ValueOf` loses nothing when `n` fits. */
  lemma {:induction false} DigitsValue(n: nat, width: nat)
    requires n < Pow10(width)
    ensures ValueOf(Digits(n, width)) == n
  {
    if width > 0 {
      var s := Digits(n, width);
      assert s[..|s| - 1] == Digits(n / 10, width - 1);
      assert n / 10 < Pow10(width - 1);
      DigitsValue(n / 10, width - 1);
    }
  }

  /** Python `str(n)` for a natural number. */
  function NatToString(n: nat): (r: string)
    ensures |r| > 0 && AllDigits(r)
  {
    if n < 10 then [DigitChar(n)] else NatToString(n / 10) + [DigitChar(n % 10)]
  }

  /** `str(n)` has exactly `k` characters when `n` has `k` digits. */
  lemma {:induction false} NatToStringLength(n: nat, k: nat)
    requires k >= 1 && Pow10(k - 1) <= n < Pow10(k)
    ensures |NatToString(n)| == k
  {
    if k == 1 {
      assert n < 10;
    } else {
      assert Pow10(k - 2) <= n / 10 < Pow10(k - 1);
      NatToStringLength(n / 10, k - 1);
    }
  }

  /** `str(n)` read back gives `n`. */
  lemma {:induction false} NatToStringValue(n: nat)
    ensures ValueOf(NatToString(n)) == n
  {
    var s := NatToString(n);
    if n >= 10 {
      assert s[..|s| - 1] == NatToString(n / 10);
      NatToStringValue(n / 10);
    }
  }
}

=== FILE: whatsapp_service.dfy ===
/**
 * The one-time-password store of app/services/whatsapp_service.py (`WhatsAppService`): a map
 * from the formatted phone number to the code, when it was made and how long it lives. There
 * is no attempt limit. The clock (whole seconds), the random draw and whether the template
 * message went out are inputs.
 */
module WhatsAppService {
  import opened Text
  import Phones
  import SmsService

  const OtpLifetimeSeconds: int := 600

  /** A pending code: `otp`, `created_at` and `expires_in`. */
  datatype OtpEntry = OtpEntry(otp: string, createdAt: int, expiresIn: int)

  /** The answer of `send_otp`; the number reported is the one the caller gave, not the formatted key. */
  datatype SendReply = Sent(phoneNumber: string, expiresIn: int) | SendFailed

  /** The answer of `verify_otp`. */
  datatype VerifyReply = Verified(phoneNumber: string) | NotFound | Expired | InvalidOtp

  datatype VerifyOutcome = VerifyOutcome(store: map<string, OtpEntry>, reply: VerifyReply)

  /** `verify_otp` on the store: no entry; more than `expires_in` seconds old; right code; wrong code. */
  function VerifyStep(store: map<string, OtpEntry>, phoneNumber: string, otp: string, now: int): VerifyOutcome
  {
    var key := Phones.FormatPhone(phoneNumber);
    if key !in store then VerifyOutcome(store, NotFound)
    else
      var e := store[key];
      if now - e.createdAt > e.expiresIn then VerifyOutcome(store - {key}, Expired)
      else if e.otp == otp then VerifyOutcome(store - {key}, Verified(phoneNumber))
      else VerifyOutcome(store, InvalidOtp)
  }

  /** Success exactly when there is an entry, at most `expires_in` seconds old, with that code. */
  lemma VerifySucceedsExactly(store: map<string, OtpEntry>, phoneNumber: string, otp: string, now: int)
    ensures var key := Phones.FormatPhone(phoneNumber);
      VerifyStep(store, phoneNumber, otp, now).reply.Verified?
      <==> key in store && now - store[key].createdAt <= store[key].expiresIn && store[key].otp == otp
  {
  }

  /** A wrong code leaves the store exactly as it was: there is no attempt counter. */
  lemma WrongCodeChangesNothing(store: map<string, OtpEntry>, phoneNumber: string, otp: string, now: int)
    requires VerifyStep(store, phoneNumber, otp, now).reply == InvalidOtp
    ensures VerifyStep(store, phoneNumber, otp, now).store == store
  {
  }

  /** So any number of wrong codes still leave the right one usable inside the window. */
  lemma {:induction false} NoAttemptLimit(store: map<string, OtpEntry>, phoneNumber: string, otp: string, wrong: seq<string>, now: int)
    requires var key := Phones.FormatPhone(phoneNumber);
      key in store && store[key].otp == otp && now - store[key].createdAt <= store[key].expiresIn
    requires forall i :: 0 <= i < |wrong| ==> wrong[i] != otp
    ensures AfterAttempts(store, phoneNumber, wrong, now) == store
    ensures VerifyStep(AfterAttempts(store, phoneNumber, wrong, now), phoneNumber, otp, now).reply.Verified?
  {
    if wrong != [] {
      NoAttemptLimit(store, phoneNumber, otp, wrong[1..], now);
    }
  }

  /** The store after a run of verification attempts. */
  function AfterAttempts(store: map<string, OtpEntry>, phoneNumber: string, codes: seq<string>, now: int): map<string, OtpEntry>
  {
    if codes == [] then store
    else AfterAttempts(VerifyStep(store, phoneNumber, codes[0], now).store, phoneNumber, codes[1..], now)
  }

  /** Exactly 600 seconds after issue the code is still accepted; one second later it has expired and is gone. */
  lemma ExpiryBoundary(store: map<string, OtpEntry>, phoneNumber: string, otp: string, issued: int)
    ensures var s := store[Phones.FormatPhone(phoneNumber) := OtpEntry(otp, issued, OtpLifetimeSeconds)];
      VerifyStep(s, phoneNumber, otp, issued + 600).reply.Verified?
      && VerifyStep(s, phoneNumber, otp, issued + 601).reply == Expired
      && Phones.FormatPhone(phoneNumber) !in VerifyStep(s, phoneNumber, otp, issued + 601).store
  {
  }

  /** A code verifies once. */
  lemma CodeIsSingleUse(store: map<string, OtpEntry>, phoneNumber: string, otp: string, now: int, later: int)
    requires VerifyStep(store, phoneNumber, otp, now).reply.Verified?
    ensures var s := VerifyStep(store, phoneNumber, otp, now).store;
      VerifyStep(s, phoneNumber, otp, later).reply == NotFound
  {
  }

  class WhatsApp {
    /** `otp_storage`. */
    var otpStorage: map<string, OtpEntry>

    constructor ()
      ensures otpStorage == map[]
    {
      otpStorage := map[];
    }

    /**
     * `send_otp`: the entry is stored before the template message is sent, replacing any
     * earlier one for the phone, and it stays when sending fails.
     */
    method SendOtp(phoneNumber: string, draw: nat, now: int, delivered: bool) returns (reply: SendReply)
      requires 100000 <= draw <= 999999
      modifies this
      ensures otpStorage == old(otpStorage)[Phones.FormatPhone(phoneNumber) :=
                OtpEntry(SmsService.GenerateOtp(draw), now, OtpLifetimeSeconds)]
      ensures reply == if delivered then Sent(phoneNumber, OtpLifetimeSeconds) else SendFailed
    {
      var phone := Phones.FormatPhone(phoneNumber);
      var otp := SmsService.GenerateOtp(draw);
      otpStorage := otpStorage[phone := OtpEntry(otp, now, OtpLifetimeSeconds)];
      if delivered {
        reply := Sent(phoneNumber, OtpLifetimeSeconds);
      } else {
        reply := SendFailed;
      }
    }

    /** `verify_otp`. */
    method VerifyOtp(phoneNumber: string, otp: string, now: int) returns (reply: VerifyReply)
      modifies this
      ensures VerifyOutcome(otpStorage, reply) == VerifyStep(old(otpStorage), phoneNumber, otp, now)
    {
      var phone := Phones.FormatPhone(phoneNumber);
      if phone !in otpStorage {
        return NotFound;
      }
      var stored := otpStorage[phone];
      var elapsed := now - stored.createdAt;
      if elapsed > stored.expiresIn {
        otpStorage := otpStorage - {phone};
        return Expired;
      }
      if stored.otp == otp {
        otpStorage := otpStorage - {phone};
        return Verified(phoneNumber);
      }
      reply := InvalidOtp;
    }
  }
}
